=== FILE: README.md ===
# Two-phase revised simplex (`LpProblem`) in Dafny

This project models the linear-programming solver `LpProblem` of
`solver/solver.py` and proves properties of the model. The solver
maximises (or, through its dual, minimises) a linear objective subject to
`<=`, `>=` and `==` constraint rows over non-negative variables, with the
revised simplex method. The model covers `solve` together with the set-up
a caller must run before it: `solve` itself never calls `_tableau_format`,
nor does anything else in `solver/solver.py`, and only `_tableau_format`
sets `basics` and `two_phase`. `Solver.Solve` therefore models a caller who
runs the setters, `rhs` and `_tableau_format`, and then `solve`:

- **Input normalisation** (`rhs`): every row with a negative right-hand side
  is negated and its `<=`/`>=` sense flipped; `Z = 0` goes in front of the
  right-hand side (module `Normalise`).
- **Tableau assembly** (`_tableau_format`): slack columns, the
  right-hand-side column, the fresh basis `basics = [n, n+m)`,
  `nonbasics = [0, n)`, and the `two_phase` flag (modules `Tableau`, `Basis`,
  `Solver`).
- **Dual transformation** (`find_dual`), used for `min` problems (module
  `Dual`).
- **Phase-1 set-up** (`_add_artificials`): surplus and artificial columns
  are inserted, the artificial columns are found by their row-0 marker, and
  the auxiliary objective row is built (module `PhaseOne`).
- **One pass of `_simplex`**: the early exit, the optimality test, Dantzig's
  entering rule (`np.argmax`), the minimum-ratio test, the eta-matrix update
  of `B_inv` and the exchange of an entering and a leaving column (modules
  `Pivot`, `Engine`). The ratio test as the source writes it
  (`Pivot.RatioTestAsWritten`, `Engine.DecideAsWritten`) can report a
  bounded problem unbounded and can pivot on a zero entry (see Findings);
  the pass the rest of the model runs, `Engine.Decide`, uses the corrected
  test `Pivot.LeavingRow`.
- **The `while` loop** of `_simplex`. As written (`Engine.SimplexAsWritten`)
  its early exit stops every one-phase run and every phase-1 run after at
  most one pivot (see Findings). The loop the rest of the model runs,
  `Engine.Simplex`, is a fuel-bounded driver over the corrected pass
  without that exit. Module `Scenario` follows both loops on a small
  problem.
- **Read-back** after the loop: `x_b`, `Z = c_b · x_b`, and the dense
  solution vector of `n + m` entries (module `Engine`).
- **Hand-over to phase 2** (`remove_artificials`, `remove_inconsistency`):
  artificial columns are deleted, the basis lists are renumbered, and the
  saved objective row is reduced against the basic rows (modules `PhaseTwo`,
  `Solver`).
- **`solve`**: the one-phase and two-phase dispatch, with the outcome
  `Done(report)`, `OutOfPasses` or `Crashed(reason)` (module `Solver`).
  Phase 2 reports as `Z` the value of its objective row at the reported
  point (`Solver.PhaseTwoRun`); as written it reports that value shifted by
  a constant (see Findings).

Numbers are Dafny `real`: exact arithmetic stands in for float64. Matrices
are `seq<seq<real>>` (module `Matrices`). The tableau is never pivoted:
as in the source, the only tableau cell `_simplex` writes during its loop is
the objective value `T[0, -1]`. Everything else is carried in `B_inv` and
the two index lists (datatype `Engine.Run`).

## Model

| member | source | states |
|---|---|---|
| Normalise.Flip | solver/solver.py:86-89 | a negated row turns `<=` into `>=` and `>=` into `<=`, and keeps `==` |
| Normalise.NormaliseRhs | solver/solver.py:80-91 | a row with a negative right-hand side gets negated coefficients, the flipped sense and `-rhs[i]`; any other row is untouched; every right-hand side ends non-negative and `Z = 0` is prepended |
| Normalise.NormalisePreservesFeasibleSet | solver/solver.py:80-89 | a point satisfies an original row exactly when it satisfies the normalised row, so normalising keeps the feasible region |
| Normalise.NormaliseIdempotent | solver/solver.py:80-89 | normalising an already normalised system changes nothing |
| Basis.Range | solver/solver.py:119-120 | `list(range(lo, hi))` has `hi - lo` entries and entry `k` is `lo + k` |
| Basis.InitialBasis | solver/solver.py:119-120 | `basics = [n, n+m)` and `nonbasics = [0, n)` are duplicate-free, disjoint and together cover exactly the columns `[0, n+m)` |
| Basis.SwapKeepsPartition | solver/solver.py:344-349 | exchanging the entering and the leaving column keeps both list lengths and keeps the two lists a partition of the same columns |
| Tableau.TableauFormat | solver/solver.py:103-117 | the tableau has `m+1` rows and `n+m+1` columns; row 0 is the objective followed by zero slack costs; constraint row `i+1` carries constraint `i` and a `1` in slack column `n+i`, `0` in the other slack columns; the last column is the right-hand side with `Z` in row 0 |
| Tableau.UnitBlockInverse | solver/solver.py:262-263 | when the slack block is an identity, the identity matrix inverts the basis matrix of the fresh basis, which is what the first `_B_inv()` call computes |
| Dual.FindDual | solver/solver.py:239-259 | `m` and `n` swap; row 0 is the old right-hand side and the new right-hand side the old objective; the constraint block is the transpose of the old one, with `<=` rows negated, beside an identity block; `>=` senses become `<=` and the others keep their sense |
| Dual.NegateLeRows | solver/solver.py:241-246 | the sense pass negates every entry of each `<=` row and leaves row 0 and the other rows as they are |
| Dual.NegateLeRowsTwice | solver/solver.py:241-246 | the sense pass undoes itself: applied twice it gives back the tableau |
| Dual.DualRow | solver/solver.py:248-253 | row 0 of the new tableau holds the old right-hand side and zeros; row `j` holds column `j-1` of the old block, the `j`-th unit entry of the identity block and old objective entry `j-1` |
| Dual.DualLeavesNoGe | solver/solver.py:241-246 | after the dual transformation no `>=` sense is left, so a second phase is needed exactly when an `==` row is present |
| PhaseOne.InsertColumns | solver/solver.py:143-172 | the loop over the senses inserts one surplus column per `>=` row, so the count of structural plus surplus columns grows by the number of `>=` rows |
| PhaseOne.GeColumns | solver/solver.py:156-170 | a `>=` row inserts a surplus column `-e_i` at position `n` and then puts the artificial column over the shifted slack column of that row; every other column keeps its place or moves right by one |
| PhaseOne.InsertColumnsLayout | solver/solver.py:143-172 | after the loop every structural column is in place, every inserted column below the slack block is a surplus column, and the slack column of each `<=` row survives while that of each other row becomes its artificial column |
| PhaseOne.Augmented | solver/solver.py:143-172 | the insertions add one column per `>=` row to the structural block and keep the tableau's `m + 1` rows |
| PhaseOne.AugmentedLayout | solver/solver.py:143-172 | the same layout stated on the rebuilt tableau, including that the right-hand side is unchanged |
| PhaseOne.MarkedColumns | solver/solver.py:177 | the artificial indexes are exactly the basic columns whose row-0 entry is the marker `1`, and are duplicate-free |
| PhaseOne.SubtractRows | solver/solver.py:183-184 | subtracting the row of every basic artificial column leaves each entry minus the sum of those rows' entries in its column |
| PhaseOne.AddArtificials | solver/solver.py:139-187 | `n` grows by the number of `>=` rows; `artifical_count` is the number of `>=` and `==` rows; `sense_equals` the number of `==` rows; the basis is rebuilt fresh; the artificial indexes are the marked basic columns |
| PhaseOne.PhaseOneRow | solver/solver.py:179-187 | over the structural and surplus columns the auxiliary row is the sum of the artificial rows; over the other columns it is that sum minus the old row-0 entry: zeroed, reduced by the artificial rows, then negated |
| PhaseOne.ArtificialsAreNonLeRows | solver/solver.py:143-177 | the artificial indexes are exactly the slack positions of the `>=` and `==` rows, in row order |
| PhaseOne.NonLeColumns | solver/solver.py:143-172 | column `base + q` is listed exactly when row `q` is not `<=` |
| PhaseOne.ArtificialsKeepRhs | solver/solver.py:151-170 | the column insertions leave the right-hand side in place |
| PhaseOne.PhaseOneBasisIsIdentity | solver/solver.py:175-176 | after the insertions the basic block of the rebuilt basis is an identity, so phase 1 starts from `B_inv = I` |
| PhaseOne.PhaseOneRowReduced | solver/solver.py:179-187 | the auxiliary row is zero on every basic column: it is already in reduced-cost form for the starting basis |
| PhaseTwo.KeptPositions | solver/solver.py:199 | the columns that survive `np.delete` are listed in increasing order, and the surviving column `j` sits at position `j` minus the number of deleted columns below it |
| PhaseTwo.DeleteColumns | solver/solver.py:199 | `np.delete(t, art, axis=1)` keeps every other entry, with column `j` moved to `j` minus the number of deleted columns below it |
| PhaseTwo.RenumberBasis | solver/solver.py:201-209 | the corrected renumbering fails exactly when an artificial column is still basic, and otherwise keeps one basic column per row |
| PhaseTwo.RenumberKeepsPartition | solver/solver.py:199-209 | renumbering keeps the basis lists a partition of the remaining columns, each basic column keeps its row, and a surviving column is nonbasic after exactly when it was before |
| PhaseTwo.RemoveArtificials | solver/solver.py:199-209 | fails exactly when an artificial column is still basic; otherwise every surviving column, the right-hand side included, keeps its entries at its new index |
| PhaseTwo.RemovalKeepsBasis | solver/solver.py:199-209 | deleting the artificial columns keeps the basis a partition, keeps the basis inverse an inverse of the renumbered basis and keeps the right-hand side |
| PhaseTwo.IndexOf | solver/solver.py:203 | `list.index` returns the first position holding the value |
| PhaseTwo.ShiftAsWritten | solver/solver.py:207-209 | the renumbering loop as written only ever lowers entries, and changes nothing when no artificial column lies below the basic columns it visits |
| PhaseTwo.RenumberBasisAsWritten | solver/solver.py:201-209 | as written, the renumbering fails exactly when an artificial column is still basic and otherwise leaves the nonbasic list as it was |
| PhaseTwo.RenumberAsWrittenNamesRhs | solver/solver.py:199-209 | on `maximise x subject to 2x == 4`, with one artificial column, the renumbering as written keeps the nonbasic list `[1]`, and index 1 is the right-hand-side column of the narrowed tableau |
| PhaseTwo.RenumberAsWrittenCollides | solver/solver.py:207-209 | on a three-row problem the renumbering as written gives two rows the same basic column and keeps a deleted column among the nonbasics |
| PhaseTwo.SavedRow | solver/solver.py:223-226 | the saved row loses its last `sense_equals` entries when there are `==` rows and is taken whole otherwise |
| PhaseTwo.Eliminate | solver/solver.py:229-236 | the loop over the basic columns ends with a row (`True`) exactly when every basic column has a nonzero entry in the row it is divided by; a zero divisor ends it with `False` (ratio `+inf`) or a non-finite ratio, never with a shape error |
| PhaseTwo.RemoveInconsistency | solver/solver.py:223-236 | the repair fails with a shape error exactly when the saved row does not fit row 0; it returns a row (`True`) exactly when the saved row fits and every basic column's divisor is nonzero, so `False` comes only from a zero divisor; a repaired row has the width of row 0 |
| PhaseTwo.EliminateKeepsValue | solver/solver.py:229-233 | the repair subtracts multiples of constraint rows only, so on every point solving the constraints the repaired row has the value of the saved row |
| PhaseTwo.UnitBasisRepairs | solver/solver.py:229-236 | when the basic columns form an identity in row order, the repair returns `True` and leaves row 0 zero on every basic column |
| Pivot.ArgMax | solver/solver.py:314 | `np.argmax` returns the first index of the largest entry |
| Pivot.LeavingRow | solver/solver.py:320-329 | the corrected ratio test: no row exactly when no row has a positive entry in the entering column; otherwise a first row of smallest ratio among those rows |
| Pivot.UnboundedRay | solver/solver.py:322-324 | when no row limits the step, every point of the ray `x_b - s·d`, `s >= 0`, keeps the basic values non-negative, so the problem is unbounded |
| Pivot.Eta | solver/solver.py:331-340 | `E` is the identity except in the pivot column, whose entry times the pivot is 1 on the pivot row and `-d[i]` on every other row |
| Pivot.EtaProduct | solver/solver.py:331-342 | `(E · B_inv) · u` equals the eta update applied to `B_inv · u` |
| Pivot.EtaSendsDirectionToUnit | solver/solver.py:331-340 | `E` turns the entering column `B_inv · A_c` into the unit vector of the pivot row |
| Pivot.EtaKeepsOtherUnits | solver/solver.py:331-340 | `E` leaves every other unit vector in place |
| Pivot.PivotKeepsFeasible | solver/solver.py:320-342 | a pivot on the row the corrected ratio test picks keeps the basic values non-negative |
| Pivot.ArgMinAsWritten | solver/solver.py:329 | `np.argmin` returns the first NaN if there is one; otherwise the first index of the smallest entry in the order `-inf` < finite values < `+inf` (and, when every entry is finite, the first smallest value) |
| Pivot.RatioTestAsWritten | solver/solver.py:320-329 | the ratio test as written reports no row exactly when every ratio `x_b[i] / d[i]` in IEEE division is at most 0; otherwise it returns a row inside the column, and a `0/0` row whenever there is one |
| Pivot.RatioTestAsWrittenDegenerate | solver/solver.py:320-324 | a row with basic value 0 and a positive entry, which limits the step to 0, is reported unbounded by the test as written |
| Pivot.RatioTestAsWrittenZeroPivot | solver/solver.py:320-335 | the test as written can pick a row whose entry in the entering column is 0, which the eta update divides by |
| Pivot.RatioTestsAgree | solver/solver.py:320-329 | when every basic value and every entry of the entering column is positive, the test as written and the corrected test pick the same row |
| Pivot.AsWrittenPicksFirstMinimum | solver/solver.py:326-329 | on positive ratios the test as written picks the first index of the smallest ratio |
| Engine.ReducedCostIsPrice | solver/solver.py:303-307 | the reduced cost `c_n - (c_b · B_inv) · A_n` of a column is its cost minus `c_b` times its direction `B_inv · A_c` |
| Engine.ObjectiveCellOnly | solver/solver.py:301 | writing `T[0, -1]` changes nothing the method reads besides that cell and keeps the invariant |
| Engine.Step | solver/solver.py:297-298 | a pass returns early exactly when an earlier pass recorded an objective value of 0 |
| Engine.Decide | solver/solver.py:300-351 | the pass with the corrected ratio test: it converges exactly when no reduced cost is positive; otherwise the entering column is `np.argmax` of the reduced costs (the first largest); with no limiting row the pass stops unbounded; otherwise the leaving row is the corrected test's row, its direction entry is positive and the run is the exchanged one |
| Engine.DecideAsWritten | solver/solver.py:300-351 | the pass with the ratio test as written: it converges exactly when no reduced cost is positive; otherwise the entering column is `np.argmax` of the reduced costs; the pass stops unbounded exactly when the test as written returns no row; a returned row with a zero direction entry is a zero pivot, any other is exchanged |
| Engine.DecideAsWrittenAgrees | solver/solver.py:320-329 | when every basic value and every direction entry is positive, the pass as written and the corrected pass are the same |
| Engine.DegenerateRunDiverges | solver/solver.py:320-324 | on `maximise x subject to x <= 0` at its slack basis, the pass as written stops unbounded while the corrected pass pivots |
| Engine.ZeroPivotRunDiverges | solver/solver.py:320-335 | on `maximise x1 subject to x2 <= 0, x1 <= 1` at its slack basis, the pass as written pivots on the zero entry of row 0 while the corrected pass pivots on row 1 |
| Engine.PivotRun | solver/solver.py:331-349 | the exchange multiplies `B_inv` by `E`, swaps the entering and leaving columns between the lists and counts the iteration |
| Engine.PivotKeepsInverse | solver/solver.py:331-347 | after the exchange `E · B_inv` inverts the new basis matrix |
| Engine.PivotRunValues | solver/solver.py:331-347 | after the exchange the basic values are the eta update of the old ones and the entering cost replaces the leaving one |
| Engine.StepKeepsInvariant | solver/solver.py:291-351 | every pass with the corrected ratio test that does not return early keeps the basis a partition and `B_inv` the basis inverse |
| Engine.StepKeepsFeasible | solver/solver.py:291-351 | every pass with the corrected ratio test that does not return early keeps the basic solution feasible |
| Engine.PivotImproves | solver/solver.py:314-349 | a pivot raises the objective by the step length times the entering reduced cost, so it never lowers it |
| Engine.StepImproves | solver/solver.py:291-351 | a pass with the corrected ratio test that pivots from a feasible basis does not lower the objective |
| Engine.Simplex | solver/solver.py:291-351 | the loop over the corrected pass without the early exit, within its pass budget: it never returns early; it ends on `Finished` only when the guard fails or no reduced cost is positive; it keeps the invariant and feasibility, never lowers the objective and writes only `T[0, -1]` |
| Engine.DecideKeeps | solver/solver.py:300-351 | a pass of the corrected loop keeps the invariant and feasibility, does not lower the objective of a feasible basis and writes only `T[0, -1]` |
| Engine.SimplexAsWritten | solver/solver.py:291-351 | the loop with the early exit as written, over the corrected pass `Engine.Decide`, within its pass budget: it ends on `Finished` only when the guard fails or no reduced cost is positive, and over the corrected pass it keeps the invariant and feasibility and never lowers the objective |
| Engine.ZeroBasicCostsObjective | solver/solver.py:301 | over a basis whose stored costs are all 0 the value `Z` that pass 1 records is 0 |
| Engine.AtMostOnePivot | solver/solver.py:297-301 | as written, a run from a basis whose stored costs are all 0 pivots at most once, so of any two rows one ends with the basic column it started with |
| Engine.OnePivotThenEarlyReturn | solver/solver.py:297-301 | as written, such a run whose first pass pivots and leaves a positive stored cost returns early on pass 2, whatever its pass budget |
| Solver.SinglePhasePivotsOnceAsWritten | solver/solver.py:297-301 | as written, every one-phase run pivots at most once |
| Solver.PhaseOneRun | solver/solver.py:174-187 | phase 1 starts with the invariant, at iteration 0, with zero auxiliary cost on every basic column and every artificial index inside the tableau |
| Solver.FirstPhaseStillBasicAsWritten | solver/solver.py:297-301 | as written, when two rows or more are not `<=`, phase 1 pivots at most once and ends with an artificial column still basic, so the hand-over to phase 2 fails |
| Scenario.FirstPass | solver/solver.py:300-351 | on `maximise 3x1 + 5x2 subject to x1 <= 4, 2x2 <= 12, 3x1 + 2x2 <= 18` at its slack basis, pass 1 pivots `x2` in on row 2, both in the pass as written (`Engine.DecideAsWritten`) and in the corrected pass |
| Scenario.RowTwoLeavesAsWritten | solver/solver.py:320-329 | at that basis the ratio test as written divides `[4, 12, 18]` by `[0, 2, 2]`, gets `[inf, 6, 9]` and picks row 2, the first minimum |
| Scenario.WyndorReturnsEarly | solver/solver.py:297-298 | as written, the same problem returns early on pass 2 at `x = (0, 6)` of value 30, with `Z = 0` stored and nothing read back |
| Scenario.SecondPass | solver/solver.py:300-351 | on the same problem, the corrected loop's pass 2 pivots `x1` in on row 3 |
| Scenario.WyndorSolved | solver/solver.py:291-377 | the corrected loop finishes the same problem after two pivots and reports 'Optimal' with `Z = 36` and the solution `[2, 6, 2, 0, 0]` over all `n + m = 5` columns: `x = (2, 6)`, the slack of row 1 at 2 and the other slacks at 0 |
| Engine.Scatter | solver/solver.py:364-375 | the dense solution has `size` entries: a basic column not repeated later in the list holds its basic value, and every column that is not basic holds 0 |
| Engine.ReadBack | solver/solver.py:353-377 | the read-back writes `x_b = B_inv · b` into the right-hand side and `Z = c_b · x_b` into row 0 and keeps every other cell |
| Engine.ReadBackValues | solver/solver.py:364-375 | with distinct basics each basic value lands at its column, every other entry is 0, and a feasible basis gives a non-negative point |
| Engine.ReadBackObjective | solver/solver.py:356-375 | the reported `Z` is row 0 applied to the reported point |
| Engine.ScatterDot | solver/solver.py:364-375 | a cost row applied to the scattered point is `c_b · x_b` when the basics are distinct |
| Solver.SetUp | solver/solver.py:80-126 | the set-up tableau has an identity slack block and zero slack costs, and `two_phase` is true exactly when some sense is not `<=` |
| Solver.PrimalSetup | solver/solver.py:80-126 | for a maximisation the tableau keeps the problem's dimensions and objective and has a non-negative right-hand side |
| Solver.DualSetup | solver/solver.py:80-126 | for a minimisation the dimensions swap and no `>=` sense is left |
| Solver.SensesFor | solver/solver.py:143-172 | the senses the phase-1 loop meets: a crash exactly when a non-`<=` sense lies past the tableau's rows, otherwise one sense per row |
| Solver.RunPhase | solver/solver.py:287-377 | a run that reaches the read-back reports 'Optimal' with its solution; an unbounded run reports 'Unbounded' and keeps the earlier solution; an early return keeps the earlier report |
| Solver.StartRun | solver/solver.py:119-120 | the first run from the slack basis and `B_inv = I` satisfies the invariant and its basic values are the right-hand side |
| Solver.PhaseTwoStart | solver/solver.py:199-236 | the hand-over fails exactly when an artificial column is still basic; otherwise the phase-2 run is well formed on the narrowed tableau, keeps `B_inv` and the right-hand side, and its lists partition the columns |
| Solver.PhaseTwoStartKeeps | solver/solver.py:199-236 | phase 2 starts with the invariant and with the basic values, hence the feasibility, phase 1 ended with |
| Solver.PhaseTwoObjective | solver/solver.py:223-236 | on every point that solves the remaining constraint rows the repaired row 0 has the value of the saved objective row |
| Solver.PhaseTwoRun | solver/solver.py:353-362 | the corrected phase-2 run: it stops as the run as written does and reports the same point, and a run that reaches the read-back reports as `Z` the value of its starting row 0 at that point |
| Solver.ReadBackShift | solver/solver.py:353-362 | the read-back's `Z = c_b · x_b` is the value of the starting row 0 at the reported point plus that row's last entry |
| Solver.PhaseTwoReportsObjective | solver/solver.py:223-236 | with `Z` corrected, a phase 2 that reaches its read-back reports the value of the saved objective row at the reported point whenever that point solves the remaining constraint rows |
| Solver.ReadBackZAsWritten | solver/solver.py:353-362 | as written, a run's reported `Z` is the value of its starting row 0 at the reported point plus that row's last entry, which after `remove_inconsistency` is the constant left by the reduction |
| Solver.ExampleHandover | solver/solver.py:199-236 | on `maximise x subject to 2x == 4`, the hand-over deletes the artificial column and reduces the saved row `[1, 0]` against the row `[2, 4]` to `[0, -2]` |
| Solver.ExampleObjectiveDropped | solver/solver.py:353-362 | on the same problem, phase 2 ends at once at `x = 2`, where the saved row's value is 2; the read-back as written reports `Z = 0` and the corrected run `Z = 2` |
| Solver.SolvesAfterRowZero | solver/solver.py:223-226 | replacing row 0 does not change which points solve the constraint rows |
| Solver.Solve | solver/solver.py:379-414 | over the corrected pass, a one-phase problem never crashes, and only a two-phase problem can end 'infeasible' |
| Solver.SinglePhase | solver/solver.py:389-391 | the one-phase run never crashes and never ends 'Infeasible' |
| Solver.Conclude | solver/solver.py:389-414 | the outcome is the last run's report unless the run ran out of passes |
| Solver.PhaseOneStart | solver/solver.py:175-176 | phase 1 starts from the identity basis inverse over the unchanged right-hand side |
| Solver.TwoPhase | solver/solver.py:393-414 | the two-phase path crashes on a sense past the rows exactly when such a sense is present |
| Solver.FirstPhase | solver/solver.py:398-402 | phase 1 over the corrected pass ends with the invariant, on a tableau with one more column per `>=` row, with artificial indexes inside it and with a status other than 'infeasible' |
| Solver.SecondPhase | solver/solver.py:404-414 | `remove_inconsistency` returning `False`, and nothing else, ends `solve` with the phase-1 report marked 'infeasible'; phase 2 runs, with its `Z` corrected by `Solver.PhaseTwoRun`, and its outcome is passed on, exactly when the hand-over succeeds |
| Solver.HandedTableauAsWritten | solver/solver.py:359-360 | as written, a phase 1 that reaches its read-back hands on a tableau whose right-hand side is `x_b` |
| Solver.RhsTwiceExample | solver/solver.py:354-360 | for `maximise x subject to 2x == 4`, from the phase-1 end state with basis `[x]` and `B_inv = [[0.5]]`, the basic value is the feasible `x = 2`, and applying the basis inverse again to the handed-on tableau gives `x = 1` |
| Solver.SlackStartOutcome | solver/solver.py:389-391 | a one-phase maximisation with a non-negative right-hand side ends, over the corrected pass and unless it runs out of passes, with a report whose solution, if any, has the status 'Optimal', is non-negative, has `n + m` entries and is valued at `Z = objective · x` |
| Solver.StartFeasible | solver/solver.py:119-120 | the slack basis is feasible when the right-hand side is non-negative |
| Solver.RunReport | solver/solver.py:287-377 | a run over the corrected pass from a feasible basis over a maximisation's columns reports a non-negative point whose `Z` is the objective value |
| Solver.FinishedReport | solver/solver.py:353-377 | the read-back of a feasible finished run is a non-negative point of `n + m` entries whose `Z` is the objective at its first `n` entries |
| Solver.StructuralObjective | solver/solver.py:357 | row 0 has zero cost at every slack column, so the objective over all columns is the objective over the structural ones |

## Left out

- The setters `objective`, `constraints` and `constraint_senses` and `__init__` are the fields of `Solver.Problem`; `Solver.WellPosed` requires the shapes their docstrings state (`m` rows of `n` coefficients, one sense and one right-hand side per row). Ill-shaped input makes numpy raise and is not modelled.
- Floating point: `real` is exact. Rounding, overflow and the order of floating-point operations are not modelled.
- IEEE division by zero is modelled only where the source's control flow depends on it: the ratios of the ratio test as written (`Pivot.Ratio`) and the ratios of `remove_inconsistency` (`PhaseTwo.Repair`). A non-finite ratio there ends the model with `Crashed(NonFiniteRatio)`; the source would carry on with a row of `nan` or `inf`.
- `np.linalg.inv` is not modelled. Phase 1 and the one-phase run start from the identity, which `Tableau.UnitBlockInverse` shows inverts their basis. Phase 2 carries the basis inverse phase 1 ends with. With the corrected renumbering and the untouched right-hand side (Findings rows 3 to 5), `Solver.PhaseTwoStartKeeps` shows that this matrix inverts the phase-2 basis matrix, so it is the matrix `np.linalg.inv` would return there.
- With the renumbering as written, the phase-2 basis can name one column twice (`PhaseTwo.RenumberAsWrittenCollides` ends with the basis `[0, 1, 1]`). That basis matrix is singular, and `np.linalg.inv` raises `LinAlgError` at the start of phase 2. This exception is not modelled, because the model's phase 2 uses the corrected renumbering.
- The `while` loop of `_simplex` has no bound and no anti-cycling rule. `Engine.Simplex` runs at most `fuel` passes and ends with `OutOfFuel`, and `solve` then ends with `OutOfPasses`. Termination and optimality at the end of the loop are not proved. As written the loop never runs long: every one-phase run and every phase-1 run pivots at most once (`Solver.SinglePhasePivotsOnceAsWritten`, `Solver.FirstPhaseStillBasicAsWritten`, Findings row 6).
- The early exit of the loop as written is modelled by `Engine.Step` and `Engine.SimplexAsWritten`, not by `Engine.Simplex`, which the rest of the model uses (Findings row 6). As written, a two-phase problem with two rows or more that are not `<=` therefore always ends with an artificial column still basic and an `IndexError` in `remove_artificials`. Findings row 3 needs two artificial columns, so `solve` reaches it only once the early exit is corrected. Findings row 4 is reached as written with a single `==` row (`PhaseTwo.RenumberAsWrittenNamesRhs`).
- Engine.SimplexAsWritten: it is the loop as written only in its early exit; each pass is the corrected `Engine.Decide`. The loop of the source runs `Engine.DecideAsWritten`, which can stop 'Unbounded' on a bounded problem or pivot on a zero entry, so the invariant, feasibility and objective clauses are not promised for it.
- Solver.RunPhase: it runs the corrected loop, which never returns early, so its clause on an early return only matters for the loop as written.
- The tableau of a one-phase problem with integer data has an integer type: the tableau is built from the list `self.table`, not from the float array made just before it, so `_simplex` truncates the objective value and the right-hand side it writes back. The model uses `real` throughout, as the docstrings' `list[float]` state.
- Engine.Decide: it uses the corrected ratio test `Pivot.LeavingRow` (Findings rows 1 and 2), not the source's test. The source's pass is `Engine.DecideAsWritten`. The two agree when every basic value and every direction entry is positive (`Engine.DecideAsWrittenAgrees`), and they differ on the runs of `Engine.DegenerateRunDiverges` and `Engine.ZeroPivotRunDiverges`. `Engine.Step`, `Engine.Simplex`, `Solver.RunPhase`, `Solver.FirstPhase`, `Solver.SecondPhase` and `Solve` are built on `Decide`, so everything proved about them is a property of the solver with the corrected test. A run as written that pivots on a zero entry (`ZeroPivot`) divides by zero in `E`, and its `B_inv` is not finite from then on. The model does not continue such a run.
- Engine.StepKeepsInvariant: holds for the corrected pass only. The pass as written can pivot on a zero entry (`Engine.ZeroPivotRunDiverges`), after which `B_inv` is not finite and inverts nothing.
- Engine.StepKeepsFeasible: holds for the corrected pass only. The pass as written can stop 'Unbounded' on a bounded problem or pivot on a zero entry, so it gives no such guarantee.
- Engine.StepImproves: holds for the corrected pass only. After a zero pivot in the pass as written, the objective value is not finite.
- Engine.Simplex: it loops over the corrected pass and has no early exit (Findings rows 1, 2 and 6). A run that ends 'Optimal' is not proved optimal: the contract states that no reduced cost is positive (or that the stored costs are all non-positive), not that no feasible point has a larger objective.
- Solver.FirstPhase: it runs phase 1 over the corrected pass (see `Engine.Decide` above) and the loop without the early exit. As written, phase 1 pivots at most once (`Solver.FirstPhaseStillBasicAsWritten`).
- Solver.SlackStartOutcome: stated for the corrected pass and the loop without the early exit. As written, a one-phase run that needs two pivots returns early and reports nothing (`Scenario.WyndorReturnsEarly`). It does not state that the reported point is an optimum, only its status, sign, length and value (`Solver.ReadBackReport`).
- Solver.RunReport: stated for the corrected pass and the loop without the early exit. It also states the status, sign and value of the reported point, not its optimality.
- Solve: `solve` never calls `_tableau_format`, and after the setters alone it takes the one-phase branch and raises in `_B_inv` (line 263), where neither `tableau` nor `basics` is set. `Solve` runs `Solver.SetUp` first, so it models a caller who runs `rhs` and `_tableau_format` by hand before `solve`; the raising call order is not modelled. It runs over the corrected pass and the loop without the early exit, and its contract states the crash and status cases only. The read-back properties of the one-phase path are in `Solver.SlackStartOutcome`, stated on the body of `SinglePhase`. The two-phase path is stated per stage: `Solver.FirstPhase`, `Solver.SecondPhase` (when 'infeasible' is reported), `Solver.PhaseTwoStartKeeps`, `Solver.PhaseTwoObjective` and `Solver.PhaseTwoReportsObjective`.
- The status string `'infeasible'` that `solve` writes is in lower case, unlike the others; the model uses one `Infeasible` status.
- The `print` calls are left out: they are output only.
- The order of `artifical_indexes` comes from a Python set. The model lists the artificial columns in increasing order. Only membership, sums of rows and "is some artificial column basic" depend on the list, and none of these depends on the order.
- A basic artificial column after phase 1 makes `remove_artificials` read `nonbasics[i]` past the end of the list, which raises `IndexError`; the model ends with `Crashed(ArtificialStillBasic)`.
- After the dual transformation the sense list keeps the primal's length. `_add_artificials` then walks it against the dual's rows; a non-`<=` sense past the last row indexes outside the new column and raises, which the model ends with `Crashed(SenseBeyondRows)` (`Solver.SensesFor`).
- The twp_phase.py draft, the `pulp` wrapper and the Django web application around the solver are not part of this model.
- Pivot.RatioTestAsWritten: its contract does not pin down which row it returns when no ratio is `0/0`. Where it agrees with the corrected test is stated by `Pivot.RatioTestsAgree`, and where it does not by the two counterexample lemmas.
- The accessors `_c_b`, `_c_n` and `_A`, the products `x_b`, `Z` and the reduced costs, and the loop guard are computing definitions (`Engine.Costs`, `Engine.BasicValues`, `Engine.Objective`, `Engine.Direction`, `Engine.ReducedCosts`, `Engine.Improvable`) without table rows of their own. Their meaning is stated by `Engine.ReducedCostIsPrice`, `Engine.PivotRunValues`, `Engine.ReadBackObjective`, `Solver.StartRun` and `Engine.Simplex`.
- Solver.RhsAppliedTwice, which states the phase-2 basic values of the source as written for every phase-1 run, follows from the definitions without further proof and is not listed in the table.

## Findings

| source | as written | input that shows it | evidently intended | confidence | as-written member | corrected member |
|---|---|---|---|---|---|---|
| solver/solver.py:320-324 | `all(theta <= 0)` reports 'Unbounded' when every ratio is at most 0, which includes a ratio of exactly 0 | basic values `[0]`, entering column `[1]`: the row limits the step to 0, but the test reports 'Unbounded' | a row limits the step when its entry in the entering column is positive, whatever its ratio; 'Unbounded' only when no entry is positive | not executed | Pivot.RatioTestAsWritten, Pivot.RatioTestAsWrittenDegenerate, Engine.DecideAsWritten, Engine.DegenerateRunDiverges | Pivot.LeavingRow, Pivot.PivotKeepsFeasible, Pivot.UnboundedRay, Engine.Decide, Engine.StepKeepsFeasible |
| solver/solver.py:320-335 | the ratios divide by every entry of the entering column; `0/0` is NaN, which `np.argmin` picks first | basic values `[0, 1]`, entering column `[0, 1]`: row 0 is picked and the eta update divides by its entry 0 | only rows with a positive entry in the entering column are candidates | not executed | Pivot.RatioTestAsWritten, Pivot.RatioTestAsWrittenZeroPivot, Engine.DecideAsWritten, Engine.ZeroPivotRunDiverges | Pivot.LeavingRow, Pivot.PivotKeepsFeasible, Engine.Decide, Engine.StepKeepsInvariant, Engine.StepImproves |
| solver/solver.py:207-209 | every basic column above any artificial column is lowered by the total number of artificial columns | basics `[0, 3, 1]`, nonbasics `[2, 4]`, artificial columns `[2, 4]`: column 3 becomes 1, which is also the basic of row 2 | each column is lowered by the number of deleted columns below it | not executed | PhaseTwo.RenumberBasisAsWritten, PhaseTwo.RenumberAsWrittenCollides | PhaseTwo.RenumberBasis, PhaseTwo.RenumberKeepsPartition |
| solver/solver.py:199-209 | the nonbasic list is neither pruned of the deleted columns nor renumbered | the same input: the nonbasic list stays `[2, 4]` although the narrowed tableau has 3 variable columns; and `maximise x subject to 2x == 4`, with one artificial column: the nonbasic list stays `[1]`, and index 1 is the right-hand-side column once column 1 is deleted, so `_c_n` and `_A` read the right-hand side as a variable | the nonbasic list drops the deleted columns and follows the others to their new indices | not executed | PhaseTwo.RenumberBasisAsWritten, PhaseTwo.RenumberAsWrittenCollides, PhaseTwo.RenumberAsWrittenNamesRhs | PhaseTwo.RenumberBasis, PhaseTwo.RemovalKeepsBasis |
| solver/solver.py:354-360 | phase 1's read-back overwrites the right-hand side with `x_b = B_inv · b`, and phase 2 computes `B_inv · x_b` from it again | maximise `x` subject to `2x == 4`: phase 1 ends with `x = 2` and `B_inv = [[0.5]]`, and phase 2 starts from `x = 1` | phase 2 starts from the basic values phase 1 ended with | not executed | Solver.HandedTableauAsWritten, Solver.RhsTwiceExample | Solver.PhaseTwoStart, Solver.PhaseTwoStartKeeps |
| solver/solver.py:297-301 | the loop returns early when an earlier pass stored `Z == 0`; pass 1 stores `Z = c_b · x_b` before it pivots, and at the slack start and at the phase-1 start the basic columns cost nothing, so pass 1 always stores 0 | `maximise 3x1 + 5x2 subject to x1 <= 4, 2x2 <= 12, 3x1 + 2x2 <= 18`: pass 1 pivots `x2` in, pass 2 returns at `x = (0, 6)` with nothing read back, and the status stays 'Unsolved' although the optimum `x = (2, 6)` is one pivot away | the loop runs until the optimality test or the guard stops it | not executed | Engine.Step, Engine.SimplexAsWritten, Engine.AtMostOnePivot, Engine.OnePivotThenEarlyReturn, Solver.SinglePhasePivotsOnceAsWritten, Solver.FirstPhaseStillBasicAsWritten, Scenario.WyndorReturnsEarly | Engine.Simplex, Engine.DecideKeeps, Scenario.WyndorSolved |
| solver/solver.py:353-362 | `remove_inconsistency` subtracts whole tableau rows from row 0, right-hand side included (line 233), so the repaired row ends in a constant `c`; the read-back then writes `Z = c_b · x_b`, which is the value of that row at the point plus `c`, over it | `maximise x subject to 2x == 4`: row 0 becomes `[0, -2]`, phase 2 ends at `x = 2`, and `Z = 0` is reported although the objective there is 2 | phase 2 reports the objective value at its point | not executed | Solver.ReadBackZAsWritten, Solver.ExampleObjectiveDropped | Solver.PhaseTwoRun, Solver.PhaseTwoReportsObjective, Solver.SecondPhase |

=== FILE: basis.dfy ===
/** Basis bookkeeping: the `basics` list (one column per constraint row, in
    row order) and the `nonbasics` list, which together partition the
    tableau's variable columns. */
module Basis {

  /** `[lo, lo+1, …, hi-1]`, as Python's `list(range(lo, hi))`. */
  function Range(lo: nat, hi: nat): (r: seq<nat>)
    requires lo <= hi
    ensures |r| == hi - lo
    ensures forall k :: 0 <= k < |r| ==> r[k] == lo + k
  {
    seq(hi - lo, k requires 0 <= k < hi - lo => lo + k)
  }

  predicate Distinct(s: seq<nat>) {
    forall i, j :: 0 <= i < j < |s| ==> s[i] != s[j]
  }

  /** `basics` and `nonbasics` are duplicate-free, disjoint and together
      cover exactly the columns `0 .. width-1`. */
  predicate Partition(basics: seq<nat>, nonbasics: seq<nat>, width: nat) {
    && Distinct(basics)
    && Distinct(nonbasics)
    && (forall j :: j in basics ==> j !in nonbasics)
    && (forall j :: 0 <= j < width ==> j in basics || j in nonbasics)
    && (forall j :: j in basics ==> j < width)
    && (forall j :: j in nonbasics ==> j < width)
  }

  /** The fresh basis the solver builds after every reshaping of the tableau:
      `nonbasics = [0, n)` and `basics = [n, n + m)` (slack columns). */
  function InitialBasis(n: nat, m: nat): (r: (seq<nat>, seq<nat>))
    ensures |r.0| == m && |r.1| == n
    ensures forall k :: 0 <= k < m ==> r.0[k] == n + k
    ensures forall k :: 0 <= k < n ==> r.1[k] == k
    ensures Partition(r.0, r.1, n + m)
  {
    var basics := Range(n, n + m);
    var nonbasics := Range(0, n);
    assert forall j :: 0 <= j < n + m ==> (j in basics || j in nonbasics) by {
      forall j | 0 <= j < n + m ensures j in basics || j in nonbasics {
        if j < n { assert nonbasics[j] == j; } else { assert basics[j - n] == j; }
      }
    }
    (basics, nonbasics)
  }

  /** The entering column `nonbasics[c]` takes row `r` of the basis, and the
      leaving column `basics[r]` takes its place among the nonbasics. */
  function Swap(basics: seq<nat>, nonbasics: seq<nat>, r: nat, c: nat): (s: (seq<nat>, seq<nat>))
    requires r < |basics| && c < |nonbasics|
  {
    (basics[r := nonbasics[c]], nonbasics[c := basics[r]])
  }

  /** Exchanging an entering and a leaving column keeps both list lengths and
      keeps the two lists a partition of the same columns. */
  lemma SwapKeepsPartition(basics: seq<nat>, nonbasics: seq<nat>, width: nat, r: nat, c: nat)
    requires Partition(basics, nonbasics, width)
    requires r < |basics| && c < |nonbasics|
    ensures |Swap(basics, nonbasics, r, c).0| == |basics|
    ensures |Swap(basics, nonbasics, r, c).1| == |nonbasics|
    ensures Partition(Swap(basics, nonbasics, r, c).0, Swap(basics, nonbasics, r, c).1, width)
  {
    var (b, nb) := Swap(basics, nonbasics, r, c);
    var enters, leaves := nonbasics[c], basics[r];
    // membership in the new lists, in terms of the old ones
    assert forall j :: j in b <==> (j == enters || (j in basics && j != leaves)) by {
      forall j ensures j in b <==> (j == enters || (j in basics && j != leaves)) {
        assert b[r] == enters;
        if j in basics && j != leaves {
          var k :| 0 <= k < |basics| && basics[k] == j;
          assert k != r && b[k] == j;
        }
        if j in b && j != enters {
          var k :| 0 <= k < |b| && b[k] == j;
          assert k != r && basics[k] == j;
          assert j != leaves;
        }
      }
    }
    assert forall j :: j in nb <==> (j == leaves || (j in nonbasics && j != enters)) by {
      forall j ensures j in nb <==> (j == leaves || (j in nonbasics && j != enters)) {
        assert nb[c] == leaves;
        if j in nonbasics && j != enters {
          var k :| 0 <= k < |nonbasics| && nonbasics[k] == j;
          assert k != c && nb[k] == j;
        }
        if j in nb && j != leaves {
          var k :| 0 <= k < |nb| && nb[k] == j;
          assert k != c && nonbasics[k] == j;
          assert j != enters;
        }
      }
    }
    assert enters in nonbasics && leaves in basics;
    assert Distinct(b) by {
      forall i, j | 0 <= i < j < |b| ensures b[i] != b[j] {
        if i == r { assert basics[j] in basics; }
        else if j == r { assert basics[i] in basics; }
      }
    }
    assert Distinct(nb) by {
      forall i, j | 0 <= i < j < |nb| ensures nb[i] != nb[j] {
        if i == c { assert nonbasics[j] in nonbasics; }
        else if j == c { assert nonbasics[i] in nonbasics; }
      }
    }
  }
}

=== FILE: dual.dfy ===
/** The dual transformation (`LpProblem.find_dual`), applied when the
    problem is a minimisation: `>=` senses become `<=`, `<=` rows are negated,
    and a new tableau is built whose objective row is the old right-hand side,
    whose constraint block is the transpose of the old one (with a fresh slack
    identity block), and whose right-hand side is the old objective. */
module Dual {
  import opened Matrices
  import opened LpTypes
  import opened Tableau

  datatype DualForm = DualForm(tableau: Matrix, m: nat, n: nat, relations: seq<Relation>)

  /** The tableau after the sense pass: rows whose sense is `<=` are negated. */
  function NegateLeRows(t: Matrix, rels: seq<Relation>): (t1: Matrix)
    requires |t| == |rels| + 1
    ensures |t1| == |t| && t1[0] == t[0]
    ensures forall i :: 1 <= i < |t| ==> |t1[i]| == |t[i]|
    ensures forall i, j :: 1 <= i < |t| && 0 <= j < |t[i]| ==>
      t1[i][j] == if rels[i - 1] == Le then -t[i][j] else t[i][j]
  {
    seq(|t|, i requires 0 <= i < |t| => if i >= 1 && rels[i - 1] == Le then Neg(t[i]) else t[i])
  }

  /** Negating the `<=` rows twice gives back the tableau. */
  lemma NegateLeRowsTwice(t: Matrix, rels: seq<Relation>)
    requires |t| == |rels| + 1
    ensures NegateLeRows(NegateLeRows(t, rels), rels) == t
  {
    var t2 := NegateLeRows(NegateLeRows(t, rels), rels);
    forall i | 0 <= i < |t| ensures t2[i] == t[i] {
      if i >= 1 {
        assert |t2[i]| == |t[i]|;
      }
    }
  }

  function FindDual(t: Matrix, m: nat, n: nat, rels: seq<Relation>): (r: DualForm)
    requires Shaped(t, m, n + m) && |rels| == m
    // the problem's dimensions swap
    ensures r.m == n && r.n == m
    ensures Shaped(r.tableau, r.m, r.n + r.m)
    // the new objective row is the old right-hand side, signed as the row was
    ensures forall i :: 1 <= i <= m ==>
      r.tableau[0][i - 1] == if rels[i - 1] == Le then -t[i][n + m] else t[i][n + m]
    ensures forall j :: m <= j <= m + n ==> r.tableau[0][j] == 0.0
    // the constraint block is the transpose of the old one
    ensures forall j, i :: 1 <= j <= n && 1 <= i <= m ==>
      r.tableau[j][i - 1] == if rels[i - 1] == Le then -t[i][j - 1] else t[i][j - 1]
    ensures UnitBlock(r.tableau, n, m)
    // the new right-hand side is the old objective
    ensures forall j :: 1 <= j <= n ==> r.tableau[j][m + n] == t[0][j - 1]
    // senses: `>=` becomes `<=`, the others keep their sense
    ensures |r.relations| == m
    ensures forall i :: 0 <= i < m ==> r.relations[i] == if rels[i] == Ge then Le else rels[i]
  {
    var t1 := NegateLeRows(t, rels);
    assert IsMatrix(t1, m + 1, n + m + 1);
    var tab := seq(n + 1, j requires 0 <= j <= n => DualRow(t1, m, n, j));
    assert forall j :: 0 <= j <= n ==> tab[j] == DualRow(t1, m, n, j);
    DualBlock(t, m, n, rels, t1, tab);
    DualObjective(t, m, n, rels, t1, tab[0]);
    var rels' := seq(m, i requires 0 <= i < m => if rels[i] == Ge then Le else rels[i]);
    DualForm(tab, n, m, rels')
  }

  /** Entry `(j, i - 1)` of the dual is entry `(i, j - 1)` of the tableau
      after the sense pass. */
  lemma DualBlock(t: Matrix, m: nat, n: nat, rels: seq<Relation>, t1: Matrix, tab: Matrix)
    requires Shaped(t, m, n + m) && |rels| == m && t1 == NegateLeRows(t, rels)
    requires IsMatrix(t1, m + 1, n + m + 1)
    requires IsMatrix(tab, n + 1, m + n + 1)
    requires forall j :: 0 <= j <= n ==> tab[j] == DualRow(t1, m, n, j)
    ensures forall j, i :: 1 <= j <= n && 1 <= i <= m ==>
      tab[j][i - 1] == if rels[i - 1] == Le then -t[i][j - 1] else t[i][j - 1]
  {
    forall j, i | 1 <= j <= n && 1 <= i <= m
      ensures tab[j][i - 1] == if rels[i - 1] == Le then -t[i][j - 1] else t[i][j - 1]
    {
      assert tab[j][i - 1] == t1[i][j - 1];
    }
  }

  /** Row 0 of the dual is the right-hand side after the sense pass. */
  lemma DualObjective(t: Matrix, m: nat, n: nat, rels: seq<Relation>, t1: Matrix, row: Vector)
    requires Shaped(t, m, n + m) && |rels| == m && t1 == NegateLeRows(t, rels)
    requires IsMatrix(t1, m + 1, n + m + 1)
    requires row == DualRow(t1, m, n, 0)
    ensures forall i :: 1 <= i <= m ==>
      row[i - 1] == if rels[i - 1] == Le then -t[i][n + m] else t[i][n + m]
  {
    forall i | 1 <= i <= m
      ensures row[i - 1] == if rels[i - 1] == Le then -t[i][n + m] else t[i][n + m]
    {
      assert row[i - 1] == t1[i][n + m];
    }
  }

  /** Row `j` of the dual tableau; row 0 is the old right-hand side. */
  function DualRow(t1: Matrix, m: nat, n: nat, j: nat): (row: Vector)
    requires IsMatrix(t1, m + 1, n + m + 1) && j <= n
    ensures |row| == m + n + 1
    ensures j == 0 ==> forall k :: 0 <= k < m ==> row[k] == t1[k + 1][n + m]
    ensures j == 0 ==> forall k :: m <= k <= m + n ==> row[k] == 0.0
    ensures j > 0 ==> forall k :: 0 <= k < m ==> row[k] == t1[k + 1][j - 1]
    ensures j > 0 ==> forall k :: m <= k < m + n ==> row[k] == if k == m + j - 1 then 1.0 else 0.0
    ensures j > 0 ==> row[m + n] == t1[0][j - 1]
  {
    seq(m + n + 1, k requires 0 <= k < m + n + 1 =>
      if j == 0 then (if k < m then t1[k + 1][n + m] else 0.0)
      else if k < m then t1[k + 1][j - 1]
      else if k < m + n then (if k == m + j - 1 then 1.0 else 0.0)
      else t1[0][j - 1])
  }

  /** After the dual transformation no `>=` sense is left, so phase 1 is
      needed exactly when an equality row is present. */
  lemma DualLeavesNoGe(t: Matrix, m: nat, n: nat, rels: seq<Relation>)
    requires Shaped(t, m, n + m) && |rels| == m
    ensures forall i :: 0 <= i < m ==> FindDual(t, m, n, rels).relations[i] != Ge
    ensures (exists i :: 0 <= i < m && FindDual(t, m, n, rels).relations[i] != Le)
        <==> (exists i :: 0 <= i < m && rels[i] == Eq)
  {
    var r := FindDual(t, m, n, rels);
    if exists i :: 0 <= i < m && rels[i] == Eq {
      var i :| 0 <= i < m && rels[i] == Eq;
      assert r.relations[i] == Eq;
    }
  }
}

=== FILE: engine.dfy ===
/** The revised simplex loop (`LpProblem._simplex`). The tableau stays fixed
    during a run except for the objective-value cell `t[0][width]`; the run
    keeps the basis inverse `binv` itself and updates it with an eta matrix
    at every pivot. Row 0 holds the costs `c` the run maximises. */
module Engine {
  import opened Matrices
  import opened LpTypes
  import opened Basis
  import opened Tableau
  import opened Pivot

  /** The state `_simplex` carries from one loop pass to the next. */
  datatype Run = Run(tableau: Matrix, m: nat, width: nat, basics: seq<nat>, nonbasics: seq<nat>,
                     binv: Matrix, iteration: nat)

  /** The shapes every array expression of `_simplex` needs. */
  predicate WellFormed(r: Run) {
    && Shaped(r.tableau, r.m, r.width)
    && IsMatrix(r.binv, r.m, r.m)
    && |r.basics| == r.m
    && (forall k :: 0 <= k < |r.basics| ==> r.basics[k] < r.width)
    && (forall c :: 0 <= c < |r.nonbasics| ==> r.nonbasics[c] < r.width)
  }

  /** What the revised method keeps true: the basis is a partition of the
      columns and `binv` is the inverse of the basis matrix. */
  predicate Invariant(r: Run) {
    && WellFormed(r)
    && Partition(r.basics, r.nonbasics, r.width)
    && IsBasisInverse(r.binv, r.tableau, r.m, r.width, r.basics)
  }

  /** `t[0, cols]`. */
  function Costs(t: Matrix, cols: seq<nat>): (c: Vector)
    requires |t| > 0 && forall k :: 0 <= k < |cols| ==> cols[k] < |t[0]|
    ensures |c| == |cols|
  {
    seq(|cols|, k requires 0 <= k < |cols| => t[0][cols[k]])
  }

  /** `x_b = B_inv · t[1:, -1]`. */
  function BasicValues(r: Run): (xb: Vector)
    requires WellFormed(r)
    ensures |xb| == r.m
  {
    MatVec(r.binv, ColumnOf(r.tableau, r.width))
  }

  /** `c_b · x_b`, the objective value of the current basic solution. */
  function Objective(r: Run): real
    requires WellFormed(r)
  {
    Dot(Costs(r.tableau, r.basics), BasicValues(r))
  }

  /** Column `c` of `B_inv · A_N`: how the basic values change per unit of
      the `c`-th nonbasic variable. */
  function Direction(r: Run, c: nat): (d: Vector)
    requires WellFormed(r) && c < |r.nonbasics|
    ensures |d| == r.m
  {
    MatVec(r.binv, ColumnOf(r.tableau, r.nonbasics[c]))
  }

  /** `c_n - (c_b · B_inv) · A_N`. */
  function ReducedCosts(r: Run): (z: Vector)
    requires WellFormed(r)
    ensures |z| == |r.nonbasics|
  {
    var w := VecMat(Costs(r.tableau, r.basics), r.binv, r.m);
    seq(|r.nonbasics|, c requires 0 <= c < |r.nonbasics| =>
      r.tableau[0][r.nonbasics[c]] - Dot(w, ColumnOf(r.tableau, r.nonbasics[c])))
  }

  /** The loop guard `any(tableau[0, nonbasics] > 0)`, on the stored costs. */
  predicate Improvable(r: Run)
    requires WellFormed(r)
  {
    exists c :: 0 <= c < |r.nonbasics| && r.tableau[0][r.nonbasics[c]] > 0.0
  }

  /** The basic solution is feasible. */
  predicate Feasible(r: Run)
    requires WellFormed(r)
  {
    forall i :: 0 <= i < r.m ==> BasicValues(r)[i] >= 0.0
  }

  /** The reduced cost of a column is its cost minus the cost of the basic
      mix that produces it: `c_j - c_b · (B_inv · A_j)`. */
  lemma ReducedCostIsPrice(r: Run, c: nat)
    requires WellFormed(r) && c < |r.nonbasics|
    ensures ReducedCosts(r)[c] ==
      r.tableau[0][r.nonbasics[c]] - Dot(Costs(r.tableau, r.basics), Direction(r, c))
  {
    VecMatDot(Costs(r.tableau, r.basics), r.binv, r.m, ColumnOf(r.tableau, r.nonbasics[c]));
  }

  /** `tableau[0, -1] = z`. */
  function WithObjective(r: Run, z: real): (s: Run)
    requires WellFormed(r)
  {
    r.(tableau := r.tableau[0 := r.tableau[0][r.width := z]])
  }

  /** Writing the objective-value cell changes nothing the method reads
      besides that cell. */
  lemma ObjectiveCellOnly(r: Run, z: real)
    requires WellFormed(r)
    ensures var s := WithObjective(r, z);
      && WellFormed(s)
      && s.tableau[0][r.width] == z
      && (forall j :: 0 <= j <= r.width ==> ColumnOf(s.tableau, j) == ColumnOf(r.tableau, j))
      && (forall j :: 0 <= j < r.width ==> s.tableau[0][j] == r.tableau[0][j])
      && Costs(s.tableau, r.basics) == Costs(r.tableau, r.basics)
      && BasicValues(s) == BasicValues(r)
      && Objective(s) == Objective(r)
      && ReducedCosts(s) == ReducedCosts(r)
      && (Improvable(s) <==> Improvable(r))
      && (Invariant(r) ==> Invariant(s))
  {
    var s := WithObjective(r, z);
    forall j | 0 <= j <= r.width ensures ColumnOf(s.tableau, j) == ColumnOf(r.tableau, j) {
      assert forall i :: 1 <= i <= r.m ==> s.tableau[i] == r.tableau[i];
    }
    assert Costs(s.tableau, r.basics) == Costs(r.tableau, r.basics);
    assert forall c :: 0 <= c < |r.nonbasics| ==>
      ColumnOf(s.tableau, r.nonbasics[c]) == ColumnOf(r.tableau, r.nonbasics[c]);
    assert ReducedCosts(s) == ReducedCosts(r);
  }

  /** The outcome of one pass of the `while` loop. */
  datatype Pass =
    | EarlyExit
    | Converged(run: Run)
    | Unlimited(run: Run, entering: nat)
    | Pivoted(run: Run, entering: nat, leaving: nat)

  /** One pass of the loop body: the early exit when a previous pass recorded
      an objective value of 0, then the optimality test, Dantzig's entering
      rule, the ratio test and the eta update of `B_inv`. */
  function Step(r: Run): (p: Pass)
    requires WellFormed(r)
    ensures p.EarlyExit? <==> r.iteration > 0 && r.tableau[0][r.width] == 0.0
  {
    if r.iteration > 0 && r.tableau[0][r.width] == 0.0 then EarlyExit else Decide(r)
  }

  /** The loop body after the early-exit test. */
  function Decide(r: Run): (p: Pass)
    requires WellFormed(r)
    ensures !p.EarlyExit?
    ensures p.Converged? <==> forall c :: 0 <= c < |r.nonbasics| ==> ReducedCosts(r)[c] <= 0.0
    ensures WellFormed(p.run) && p.run.m == r.m && p.run.width == r.width
    // the objective cell records the value of the basis the pass started from
    ensures p.run.tableau[0][r.width] == Objective(r)
    ensures p.Converged? || p.Unlimited? ==> p.run == WithObjective(r, Objective(r))
    // Dantzig's rule: the entering column is the first largest reduced cost
    ensures p.Unlimited? || p.Pivoted? ==>
      |r.nonbasics| > 0 && p.entering == ArgMax(ReducedCosts(r))
    ensures p.Unlimited? ==>
      && p.entering < |r.nonbasics| && ReducedCosts(r)[p.entering] > 0.0
      && LeavingRow(BasicValues(r), Direction(r, p.entering)).None?
    ensures p.Pivoted? ==>
      && p.entering < |r.nonbasics| && p.leaving < r.m
      && ReducedCosts(r)[p.entering] > 0.0
      && (forall c :: 0 <= c < |r.nonbasics| ==> ReducedCosts(r)[c] <= ReducedCosts(r)[p.entering])
      && LeavingRow(BasicValues(r), Direction(r, p.entering)) == Some(p.leaving)
      && Direction(r, p.entering)[p.leaving] > 0.0
      && p.run == PivotRun(r, p.entering, p.leaving)
  {
    ObjectiveCellOnly(r, Objective(r));
    var z := ReducedCosts(r);
    if forall c :: 0 <= c < |z| ==> z[c] <= 0.0 then Converged(WithObjective(r, Objective(r)))
    else
      var c := ArgMax(z);
      match LeavingRow(BasicValues(r), Direction(r, c))
      case None => Unlimited(WithObjective(r, Objective(r)), c)
      case Some(l) => Pivoted(PivotRun(r, c, l), c, l)
  }

  /** The loop body after the early-exit test, with the ratio test as
      `_simplex` writes it (`RatioTestAsWritten`) in place of the corrected
      `LeavingRow`: either a pass of the same shapes as `Decide`'s, or a
      pivot on a zero entry of the entering column, where `E` divides by
      zero and `B_inv` stops being finite. */
  datatype PassAsWritten = Decided(pass: Pass) | ZeroPivot(entering: nat, leaving: nat)

  function DecideAsWritten(r: Run): (p: PassAsWritten)
    requires WellFormed(r)
    ensures p.Decided? ==> !p.pass.EarlyExit? && WellFormed(p.pass.run)
    ensures p.Decided? && p.pass.Converged? <==>
      forall c :: 0 <= c < |r.nonbasics| ==> ReducedCosts(r)[c] <= 0.0
    ensures p.Decided? && p.pass.Unlimited? ==>
      && |r.nonbasics| > 0 && p.pass.entering == ArgMax(ReducedCosts(r))
      && ReducedCosts(r)[p.pass.entering] > 0.0
      && RatioTestAsWritten(BasicValues(r), Direction(r, p.pass.entering)).None?
    ensures p.Decided? && p.pass.Pivoted? ==>
      && |r.nonbasics| > 0 && p.pass.entering == ArgMax(ReducedCosts(r))
      && RatioTestAsWritten(BasicValues(r), Direction(r, p.pass.entering)) == Some(p.pass.leaving)
      && Direction(r, p.pass.entering)[p.pass.leaving] != 0.0
      && p.pass.run == PivotRun(r, p.pass.entering, p.pass.leaving)
    ensures p.ZeroPivot? ==>
      && |r.nonbasics| > 0 && p.entering == ArgMax(ReducedCosts(r))
      && RatioTestAsWritten(BasicValues(r), Direction(r, p.entering)) == Some(p.leaving)
      && Direction(r, p.entering)[p.leaving] == 0.0
  {
    ObjectiveCellOnly(r, Objective(r));
    var z := ReducedCosts(r);
    if forall c :: 0 <= c < |z| ==> z[c] <= 0.0 then Decided(Converged(WithObjective(r, Objective(r))))
    else
      var c := ArgMax(z);
      match RatioTestAsWritten(BasicValues(r), Direction(r, c))
      case None => Decided(Unlimited(WithObjective(r, Objective(r)), c))
      case Some(l) =>
        if Direction(r, c)[l] == 0.0 then ZeroPivot(c, l)
        else Decided(Pivoted(PivotRun(r, c, l), c, l))
  }

  /** When every basic value and every entry of every entering direction is
      positive, the source's pass and the corrected one coincide. */
  lemma DecideAsWrittenAgrees(r: Run)
    requires WellFormed(r)
    requires forall i :: 0 <= i < r.m ==> BasicValues(r)[i] > 0.0
    requires forall c, i :: 0 <= c < |r.nonbasics| && 0 <= i < r.m ==> Direction(r, c)[i] > 0.0
    ensures DecideAsWritten(r) == Decided(Decide(r))
  {
    var z := ReducedCosts(r);
    if !forall c :: 0 <= c < |z| ==> z[c] <= 0.0 {
      var c := ArgMax(z);
      if r.m > 0 {
        RatioTestsAgree(BasicValues(r), Direction(r, c));
      } else {
        assert LeavingRow(BasicValues(r), Direction(r, c)).None?;
      }
    }
  }

  /** `max x` subject to `x <= 0`, at its slack basis. */
  function DegenerateRun(): Run {
    Run([[1.0, 0.0, 0.0], [1.0, 1.0, 0.0]], 1, 2, [1], [0], [[1.0]], 0)
  }

  /** On `DegenerateRun` the source's ratio test reads the ratio `0/1 = 0`
      as unboundedness and the pass reports 'Unbounded', although the
      corrected pass pivots (to the optimum `x = 0`). */
  lemma DegenerateRunDiverges()
    ensures WellFormed(DegenerateRun())
    ensures DecideAsWritten(DegenerateRun()).Decided?
    ensures DecideAsWritten(DegenerateRun()).pass.Unlimited?
    ensures Decide(DegenerateRun()).Pivoted?
  {
    var r := DegenerateRun();
    assert ColumnOf(r.tableau, 2) == [0.0];
    assert BasicValues(r) == [0.0];
    assert Direction(r, 0) == [1.0];
    RatioTestAsWrittenDegenerate();
    assert ReducedCosts(r)[0] == 1.0;
  }

  /** `max x1` subject to `x2 <= 0, x1 <= 1`, at its slack basis. */
  function ZeroPivotRun(): Run {
    Run([[1.0, 0.0, 0.0, 0.0, 0.0], [0.0, 1.0, 1.0, 0.0, 0.0], [1.0, 0.0, 0.0, 1.0, 1.0]],
        2, 4, [2, 3], [0, 1], [[1.0, 0.0], [0.0, 1.0]], 0)
  }

  /** On `ZeroPivotRun` the source's ratio test returns the `0/0` row and
      the pass pivots on a zero entry, while the corrected pass pivots on
      row 1. */
  lemma ZeroPivotRunDiverges()
    ensures WellFormed(ZeroPivotRun())
    ensures DecideAsWritten(ZeroPivotRun()) == ZeroPivot(0, 0)
    ensures Decide(ZeroPivotRun()).Pivoted? && Decide(ZeroPivotRun()).leaving == 1
  {
    var r := ZeroPivotRun();
    ZeroPivotRunValues();
    ZeroPivotRunCosts();
    RatioTestAsWrittenZeroPivot();
    assert ArgMax(ReducedCosts(r)) == 0;
  }

  lemma ZeroPivotRunValues()
    ensures WellFormed(ZeroPivotRun())
    ensures BasicValues(ZeroPivotRun()) == [0.0, 1.0]
    ensures Direction(ZeroPivotRun(), 0) == [0.0, 1.0]
  {
    var r := ZeroPivotRun();
    assert Unit(2, 0) == [1.0, 0.0] && Unit(2, 1) == [0.0, 1.0];
    assert r.binv == Identity(2);
    assert ColumnOf(r.tableau, 4) == [0.0, 1.0];
    assert ColumnOf(r.tableau, 0) == [0.0, 1.0];
    MatVecIdentity([0.0, 1.0]);
  }

  lemma ZeroPivotRunCosts()
    ensures WellFormed(ZeroPivotRun())
    ensures ReducedCosts(ZeroPivotRun()) == [1.0, 0.0]
  {
    var r := ZeroPivotRun();
    var c := Costs(r.tableau, r.basics);
    assert c == [0.0, 0.0];
    var w := VecMat(c, r.binv, r.m);
    DotZero(c, Col(r.binv, 0));
    DotZero(c, Col(r.binv, 1));
    assert w == [0.0, 0.0];
    DotZero(w, ColumnOf(r.tableau, 0));
    DotZero(w, ColumnOf(r.tableau, 1));
  }

  /** The run after exchanging nonbasic `c` with basic row `l`:
      `B_inv = E · B_inv` and the two index lists swap entries. */
  function PivotRun(r: Run, c: nat, l: nat): (s: Run)
    requires WellFormed(r) && c < |r.nonbasics| && l < r.m && Direction(r, c)[l] != 0.0
    ensures WellFormed(s) && s.m == r.m && s.width == r.width
    ensures (s.basics, s.nonbasics) == Swap(r.basics, r.nonbasics, l, c)
    ensures s.iteration == r.iteration + 1
    ensures s.tableau == WithObjective(r, Objective(r)).tableau
  {
    ObjectiveCellOnly(r, Objective(r));
    var (b, nb) := Swap(r.basics, r.nonbasics, l, c);
    WithObjective(r, Objective(r)).(basics := b, nonbasics := nb,
      binv := MatMul(Eta(Direction(r, c), l), r.binv, r.m), iteration := r.iteration + 1)
  }

  /** A pivot on a nonzero entry of the entering column keeps `binv` the
      inverse of the basis matrix after the exchange. */
  lemma PivotKeepsInverse(binv: Matrix, t: Matrix, m: nat, width: nat, basics: seq<nat>,
                          e: nat, l: nat)
    requires Shaped(t, m, width) && IsBasisInverse(binv, t, m, width, basics)
    requires e < width && l < m && MatVec(binv, ColumnOf(t, e))[l] != 0.0
    ensures IsBasisInverse(MatMul(Eta(MatVec(binv, ColumnOf(t, e)), l), binv, m), t, m, width,
                           basics[l := e])
  {
    var d := MatVec(binv, ColumnOf(t, e));
    var next := MatMul(Eta(d, l), binv, m);
    var b := basics[l := e];
    forall k | 0 <= k < m ensures MatVec(next, ColumnOf(t, b[k])) == Unit(m, k) {
      EtaProduct(d, l, binv, ColumnOf(t, b[k]));
      if k == l {
        EtaSendsDirectionToUnit(d, l);
      } else {
        EtaKeepsOtherUnits(d, l, k);
      }
    }
  }

  /** After a pivot the new basic values are the eta update of the old ones,
      and the entering cost takes the place of the leaving one. */
  lemma PivotRunValues(r: Run, c: nat, l: nat)
    requires WellFormed(r) && c < |r.nonbasics| && l < r.m && Direction(r, c)[l] != 0.0
    ensures BasicValues(PivotRun(r, c, l)) == EtaApply(Direction(r, c), l, BasicValues(r))
    ensures var s := PivotRun(r, c, l);
      Costs(s.tableau, s.basics) == Costs(r.tableau, r.basics)[l := r.tableau[0][r.nonbasics[c]]]
  {
    var s := PivotRun(r, c, l);
    ObjectiveCellOnly(r, Objective(r));
    EtaProduct(Direction(r, c), l, r.binv, ColumnOf(r.tableau, r.width));
    assert ColumnOf(s.tableau, r.width) == ColumnOf(r.tableau, r.width);
  }

  /** Every pass that does not stop early keeps the invariant. */
  lemma StepKeepsInvariant(r: Run)
    requires Invariant(r) && (r.iteration == 0 || r.tableau[0][r.width] != 0.0)
    ensures Invariant(Step(r).run)
  {
    var p := Step(r);
    if p.Pivoted? {
      PivotRunKeepsInvariant(r, p.entering, p.leaving);
    } else {
      ObjectiveCellOnly(r, Objective(r));
    }
  }

  /** An exchange on a nonzero entry of the entering direction keeps the
      invariant. */
  lemma PivotRunKeepsInvariant(r: Run, c: nat, l: nat)
    requires Invariant(r) && c < |r.nonbasics| && l < r.m && Direction(r, c)[l] != 0.0
    ensures Invariant(PivotRun(r, c, l))
  {
    var s := PivotRun(r, c, l);
    ObjectiveCellOnly(r, Objective(r));
    SwapKeepsPartition(r.basics, r.nonbasics, r.width, l, c);
    PivotKeepsInverse(r.binv, r.tableau, r.m, r.width, r.basics, r.nonbasics[c], l);
    InverseKeepsColumns(s.binv, r.tableau, s.tableau, r.m, r.width, s.basics);
  }

  /** `IsBasisInverse` only reads the basic columns of the tableau. */
  lemma InverseKeepsColumns(binv: Matrix, t: Matrix, t': Matrix, m: nat, width: nat, basics: seq<nat>)
    requires Shaped(t, m, width) && Shaped(t', m, width)
    requires forall j :: 0 <= j <= width ==> ColumnOf(t', j) == ColumnOf(t, j)
    requires IsBasisInverse(binv, t, m, width, basics)
    ensures IsBasisInverse(binv, t', m, width, basics)
  {
    forall k | 0 <= k < m ensures MatVec(binv, ColumnOf(t', basics[k])) == Unit(m, k) {
      assert ColumnOf(t', basics[k]) == ColumnOf(t, basics[k]);
    }
  }

  /** Every pass that does not stop early keeps the basic solution feasible. */
  lemma StepKeepsFeasible(r: Run)
    requires Invariant(r) && Feasible(r) && !Step(r).EarlyExit?
    ensures Feasible(Step(r).run)
  {
    var p := Step(r);
    ObjectiveCellOnly(r, Objective(r));
    if p.Pivoted? {
      PivotRunValues(r, p.entering, p.leaving);
      PivotKeepsFeasible(BasicValues(r), Direction(r, p.entering));
    }
  }

  /** A pivot raises the objective by the step length times the entering
      reduced cost, so it never lowers the objective of a feasible basis. */
  lemma StepImproves(r: Run)
    requires WellFormed(r) && Feasible(r) && Step(r).Pivoted?
    ensures Objective(Step(r).run) >= Objective(r)
  {
    var p := Step(r);
    assert Candidate(BasicValues(r), Direction(r, p.entering), p.leaving);
    PivotImproves(r, p.entering, p.leaving);
  }

  /** The same for one exchange of nonbasic `c` with basic row `l`. */
  lemma PivotImproves(r: Run, c: nat, l: nat)
    requires WellFormed(r) && c < |r.nonbasics| && l < r.m
    requires Direction(r, c)[l] > 0.0 && BasicValues(r)[l] >= 0.0 && ReducedCosts(r)[c] > 0.0
    ensures var theta := BasicValues(r)[l] / Direction(r, c)[l];
      && theta >= 0.0
      && Objective(PivotRun(r, c, l)) == Objective(r) + theta * ReducedCosts(r)[c]
      && Objective(PivotRun(r, c, l)) >= Objective(r)
  {
    var xb, d := BasicValues(r), Direction(r, c);
    ObjectiveAfterPivot(r, c, l);
    GainIsNonNegative(xb[l], d[l], ReducedCosts(r)[c]);
  }

  /** The objective after a pivot, in terms of the entering reduced cost. */
  lemma ObjectiveAfterPivot(r: Run, c: nat, l: nat)
    requires WellFormed(r) && c < |r.nonbasics| && l < r.m && Direction(r, c)[l] != 0.0
    ensures Objective(PivotRun(r, c, l)) ==
      Objective(r) + (BasicValues(r)[l] / Direction(r, c)[l]) * ReducedCosts(r)[c]
  {
    var costs, xb, d := Costs(r.tableau, r.basics), BasicValues(r), Direction(r, c);
    var ce := r.tableau[0][r.nonbasics[c]];
    PivotObjectiveTerms(r, c, l);
    EtaObjective(costs, xb, d, l, ce);
    ReducedCostIsPrice(r, c);
  }

  lemma PivotObjectiveTerms(r: Run, c: nat, l: nat)
    requires WellFormed(r) && c < |r.nonbasics| && l < r.m && Direction(r, c)[l] != 0.0
    ensures Objective(PivotRun(r, c, l)) == Dot(
      Costs(r.tableau, r.basics)[l := r.tableau[0][r.nonbasics[c]]],
      EtaApply(Direction(r, c), l, BasicValues(r)))
    ensures Objective(r) == Dot(Costs(r.tableau, r.basics), BasicValues(r))
  {
    PivotRunValues(r, c, l);
  }

  lemma GainIsNonNegative(x: real, y: real, gain: real)
    requires x >= 0.0 && y > 0.0 && gain > 0.0
    ensures x / y >= 0.0 && (x / y) * gain >= 0.0
  {
  }

  /** The eta update as a move along the entering direction: the basic
      values drop by `theta · d` and the entering variable takes the value
      `theta` in the pivot row. */
  lemma EtaApplyAsMove(xb: Vector, d: Vector, l: nat)
    requires |xb| == |d| && l < |d| && d[l] != 0.0
    ensures EtaApply(d, l, xb)[l] == xb[l] / d[l]
    ensures var theta, u := xb[l] / d[l], Unit(|d|, l);
      forall i :: 0 <= i < |d| ==> EtaApply(d, l, xb)[i] == xb[i] - theta * d[i] + theta * u[i]
  {
    var theta, u := xb[l] / d[l], Unit(|d|, l);
    var v := EtaApply(d, l, xb);
    forall i | 0 <= i < |d| ensures v[i] == xb[i] - theta * d[i] + theta * u[i] {
      if i == l {
        assert xb[l] - theta * d[l] == 0.0;
      } else {
        assert (d[i] / d[l]) * xb[l] == theta * d[i];
      }
    }
  }

  /** The objective after the eta update of the basic values `xb`, with the
      entering cost `ce` in the pivot row `l`. */
  lemma EtaObjective(costs: Vector, xb: Vector, d: Vector, l: nat, ce: real)
    requires |costs| == |xb| == |d| && l < |d| && d[l] != 0.0
    ensures Dot(costs[l := ce], EtaApply(d, l, xb))
         == Dot(costs, xb) + (xb[l] / d[l]) * (ce - Dot(costs, d))
  {
    EtaApplyAsMove(xb, d, l);
    DotUnitRight(costs, |d|, l);
    MovedObjective(costs, xb, d, l, ce, xb[l] / d[l], EtaApply(d, l, xb), Unit(|d|, l));
  }

  /** The same for any move `v` of `xb` by `theta` along `d` and `u` that
      puts `theta` in row `l`. */
  lemma MovedObjective(costs: Vector, xb: Vector, d: Vector, l: nat, ce: real, theta: real,
                       v: Vector, u: Vector)
    requires |costs| == |xb| == |d| == |v| == |u| && l < |d| && v[l] == theta
    requires Dot(costs, u) == costs[l]
    requires forall i :: 0 <= i < |d| ==> v[i] == xb[i] - theta * d[i] + theta * u[i]
    ensures Dot(costs[l := ce], v) == Dot(costs, xb) + theta * (ce - Dot(costs, d))
  {
    MoveObjective(costs, xb, d, l, theta, v, u);
    PivotObjective(costs, v, l, ce, theta, Dot(costs, xb), Dot(costs, d));
  }

  /** The value of the costs along a move of `x` by `theta` along `d`
      and `u`, where the costs pick out entry `l` of `u`. */
  lemma MoveObjective(costs: Vector, xb: Vector, d: Vector, l: nat, theta: real, v: Vector, u: Vector)
    requires |costs| == |xb| == |d| == |v| == |u| && l < |d|
    requires Dot(costs, u) == costs[l]
    requires forall i :: 0 <= i < |d| ==> v[i] == xb[i] - theta * d[i] + theta * u[i]
    ensures Dot(costs, v) == Dot(costs, xb) - theta * Dot(costs, d) + theta * costs[l]
  {
    DotCombine(costs, xb, d, u, v, theta);
  }

  /** The algebra of `PivotImproves`: `c' · v == c · x + theta (c_e - c · d)`
      where `v` is the move of `x` by `theta` along `d` into row `l` and `c'`
      has the entering cost in the pivot row. */
  lemma PivotObjective(costs: Vector, v: Vector, l: nat, ce: real, theta: real, cx: real, cd: real)
    requires |costs| == |v| && l < |v| && v[l] == theta
    requires Dot(costs, v) == cx - theta * cd + theta * costs[l]
    ensures Dot(costs[l := ce], v) == cx + theta * (ce - cd)
  {
    DotUpdateFirst(costs, v, l, ce);
    MoveAlgebra(Dot(costs[l := ce], v), Dot(costs, v), cx, cd, costs[l], ce, theta);
  }

  lemma MoveAlgebra(after: real, cv: real, cx: real, cd: real, cl: real, ce: real, theta: real)
    requires after == cv + (ce - cl) * theta
    requires cv == cx - theta * cd + theta * cl
    ensures after == cx + theta * (ce - cd)
  {
  }

  /** How `_simplex` leaves its loop. */
  datatype Exit =
    | Finished(run: Run)          // the guard failed or no reduced cost is positive
    | EarlyReturn(run: Run)       // `return` on a recorded objective value of 0
    | UnboundedReturn(run: Run)   // `return` with status 'Unbounded'
    | OutOfFuel(run: Run)         // the loop did not end within the pass budget

  /** The `while` loop, run for at most `fuel` passes, as the docstring of
      `_simplex` describes it: it stops at the optimality test, at
      unboundedness or when the guard fails, and never because pass 1
      recorded an objective value of 0. `SimplexAsWritten` is the loop with
      that early exit. */
  function Simplex(r: Run, fuel: nat): (e: Exit)
    requires WellFormed(r)
    ensures WellFormed(e.run) && e.run.m == r.m && e.run.width == r.width
    ensures !e.EarlyReturn?
    ensures e.Finished? ==>
      !Improvable(e.run) || forall c :: 0 <= c < |e.run.nonbasics| ==> ReducedCosts(e.run)[c] <= 0.0
    // the loop keeps the invariant and feasibility and never lowers the objective
    ensures Invariant(r) ==> Invariant(e.run)
    ensures Invariant(r) && Feasible(r) ==> Feasible(e.run) && Objective(e.run) >= Objective(r)
    // only the objective-value cell of the tableau is ever written
    ensures e.run.tableau[1..] == r.tableau[1..]
    ensures forall j :: 0 <= j < r.width ==> e.run.tableau[0][j] == r.tableau[0][j]
    decreases fuel
  {
    if !Improvable(r) then Finished(r)
    else if fuel == 0 then OutOfFuel(r)
    else
      var p := Decide(r);
      DecideKeeps(r);
      if p.Converged? then
        ObjectiveCellOnly(r, Objective(r));
        Finished(p.run)
      else if p.Unlimited? then UnboundedReturn(p.run)
      else Simplex(p.run, fuel - 1)
  }

  /** One pass after the early-exit test keeps the invariant and
      feasibility, does not lower the objective of a feasible basis, and
      writes only the objective-value cell of the tableau. */
  lemma DecideKeeps(r: Run)
    requires WellFormed(r)
    ensures Invariant(r) ==> Invariant(Decide(r).run)
    ensures Invariant(r) && Feasible(r) ==>
      Feasible(Decide(r).run) && Objective(Decide(r).run) >= Objective(r)
    ensures Decide(r).run.tableau[1..] == r.tableau[1..]
    ensures forall j :: 0 <= j < r.width ==> Decide(r).run.tableau[0][j] == r.tableau[0][j]
  {
    var p := Decide(r);
    ObjectiveCellOnly(r, Objective(r));
    var t := WithObjective(r, Objective(r)).tableau;
    assert p.run.tableau == t;
    assert t[1..] == r.tableau[1..];
    if p.Pivoted? && Invariant(r) {
      PivotRunKeepsInvariant(r, p.entering, p.leaving);
      if Feasible(r) {
        PivotRunValues(r, p.entering, p.leaving);
        PivotKeepsFeasible(BasicValues(r), Direction(r, p.entering));
        PivotImproves(r, p.entering, p.leaving);
      }
    }
  }

  /** The `while` loop of `_simplex` as written, with the early exit of
      `Step`, run for at most `fuel` passes. */
  function SimplexAsWritten(r: Run, fuel: nat): (e: Exit)
    requires WellFormed(r)
    ensures WellFormed(e.run) && e.run.m == r.m && e.run.width == r.width
    ensures e.Finished? ==>
      !Improvable(e.run) || forall c :: 0 <= c < |e.run.nonbasics| ==> ReducedCosts(e.run)[c] <= 0.0
    ensures Invariant(r) ==> Invariant(e.run)
    ensures Invariant(r) && Feasible(r) ==> Feasible(e.run) && Objective(e.run) >= Objective(r)
    decreases fuel
  {
    if !Improvable(r) then Finished(r)
    else if fuel == 0 then OutOfFuel(r)
    else
      var p := Step(r);
      PassKeeps(r);
      match p
      case EarlyExit => EarlyReturn(r)
      case Converged(s) =>
        ObjectiveCellOnly(r, Objective(r));
        Finished(s)
      case Unlimited(s, _) => UnboundedReturn(s)
      case Pivoted(s, _, _) => SimplexAsWritten(s, fuel - 1)
  }

  /** The basic columns cost nothing in the stored row 0. This holds at the
      slack start of a one-phase run and at the start of phase 1. */
  predicate ZeroBasicCosts(r: Run)
    requires WellFormed(r)
  {
    forall k :: 0 <= k < |r.basics| ==> r.tableau[0][r.basics[k]] == 0.0
  }

  /** Over a basis of zero stored costs, `c_b · x_b` is 0. */
  lemma ZeroBasicCostsObjective(r: Run)
    requires WellFormed(r) && ZeroBasicCosts(r)
    ensures Objective(r) == 0.0
  {
    DotZero(Costs(r.tableau, r.basics), BasicValues(r));
  }

  /** As written, a run that starts from a basis of zero stored costs pivots
      at most once: pass 1 records `Z = c_b · x_b = 0` before it pivots, and
      pass 2 then takes the early exit. */
  lemma AtMostOnePivot(r: Run, fuel: nat)
    requires WellFormed(r) && r.iteration == 0 && ZeroBasicCosts(r)
    ensures SimplexAsWritten(r, fuel).run.iteration <= 1
    // so of any two rows, one ends with the basic column it started with
    ensures var b := SimplexAsWritten(r, fuel).run.basics;
      forall k, k' :: 0 <= k < k' < |r.basics| ==> b[k] == r.basics[k] || b[k'] == r.basics[k']
  {
    if Improvable(r) && fuel > 0 {
      var p := Step(r);
      ZeroBasicCostsObjective(r);
      if p.Pivoted? {
        assert p.run.tableau[0][r.width] == 0.0 && p.run.iteration == 1;
        assert SimplexAsWritten(r, fuel) == SimplexAsWritten(p.run, fuel - 1);
        if Improvable(p.run) && fuel - 1 > 0 {
          assert Step(p.run) == EarlyExit;
        }
      }
    }
  }

  /** As written, such a run whose first pass pivots and leaves a positive
      stored cost among the nonbasic columns returns early on pass 2, before
      the read-back, whatever the pass budget. */
  lemma OnePivotThenEarlyReturn(r: Run, fuel: nat)
    requires WellFormed(r) && r.iteration == 0 && ZeroBasicCosts(r) && Improvable(r)
    requires Step(r).Pivoted? && Improvable(Step(r).run)
    ensures SimplexAsWritten(r, fuel + 2) == EarlyReturn(Step(r).run)
  {
    var p := Step(r);
    ZeroBasicCostsObjective(r);
    assert p.run.tableau[0][r.width] == 0.0 && p.run.iteration == 1;
    assert Step(p.run) == EarlyExit;
  }

  lemma PassKeeps(r: Run)
    requires WellFormed(r)
    ensures Invariant(r) && !Step(r).EarlyExit? ==> Invariant(Step(r).run)
    ensures Invariant(r) && Feasible(r) && !Step(r).EarlyExit? ==>
      Feasible(Step(r).run) && Objective(Step(r).run) >= Objective(r)
  {
    if Invariant(r) && !Step(r).EarlyExit? {
      PassKeepsInvariant(r);
    }
  }

  /** One pass that does not stop early keeps the invariant and feasibility
      and does not lower the objective of a feasible basis. */
  lemma PassKeepsInvariant(r: Run)
    requires Invariant(r) && (r.iteration == 0 || r.tableau[0][r.width] != 0.0)
    ensures Invariant(Step(r).run)
    ensures Feasible(r) ==> Feasible(Step(r).run) && Objective(Step(r).run) >= Objective(r)
  {
    StepKeepsInvariant(r);
    ObjectiveCellOnly(r, Objective(r));
    if Feasible(r) {
      StepKeepsFeasible(r);
      if Step(r).Pivoted? {
        StepImproves(r);
      }
    }
  }

  /** The basic solution, the objective value and the updated tableau that
      `_simplex` reads back after its loop. */
  datatype Solution = Solution(tableau: Matrix, z: real, values: Vector)

  /** `sol[basics[i]] = x_b[i]` for `i` in order, then `solution[i] = sol[i]`
      or 0: a later row overwrites an earlier one with the same column. */
  function Scatter(basics: seq<nat>, xb: Vector, size: nat): (s: Vector)
    requires |basics| == |xb|
    ensures |s| == size
    ensures forall i :: 0 <= i < size && i !in basics ==> s[i] == 0.0
    ensures forall k :: (0 <= k < |basics| && basics[k] < size &&
      forall k' :: k < k' < |basics| ==> basics[k'] != basics[k]) ==> s[basics[k]] == xb[k]
    decreases |basics|
  {
    if |basics| == 0 then Zeros(size)
    else
      var k := |basics| - 1;
      var s := Scatter(basics[..k], xb[..k], size);
      var t := if basics[k] < size then s[basics[k] := xb[k]] else s;
      assert basics == basics[..k] + [basics[k]] && xb == xb[..k] + [xb[k]];
      ScatterWrites(basics[..k], xb[..k], basics[k], xb[k], size, s, t);
      t
  }

  /** The last write of a scatter lands on top of the earlier ones. */
  lemma ScatterWrites(prefix: seq<nat>, xs: Vector, b: nat, y: real, size: nat, s: Vector, t: Vector)
    requires |prefix| == |xs| && |s| == size
    requires forall i :: 0 <= i < size && i !in prefix ==> s[i] == 0.0
    requires forall k :: (0 <= k < |prefix| && prefix[k] < size &&
      forall k' :: k < k' < |prefix| ==> prefix[k'] != prefix[k]) ==> s[prefix[k]] == xs[k]
    requires t == if b < size then s[b := y] else s
    ensures |t| == size
    ensures forall i :: 0 <= i < size && i !in prefix + [b] ==> t[i] == 0.0
    ensures var basics, xb := prefix + [b], xs + [y];
      forall k :: (0 <= k < |basics| && basics[k] < size &&
        forall k' :: k < k' < |basics| ==> basics[k'] != basics[k]) ==> t[basics[k]] == xb[k]
  {
    var basics, xb := prefix + [b], xs + [y];
    forall k | 0 <= k < |basics| && basics[k] < size &&
      (forall k' :: k < k' < |basics| ==> basics[k'] != basics[k])
      ensures t[basics[k]] == xb[k]
    {
      if k < |prefix| {
        assert basics[k] == prefix[k] && xb[k] == xs[k];
        assert b != prefix[k] by { assert basics[|prefix|] == b; }
        assert forall k' :: k < k' < |prefix| ==> prefix[k'] != prefix[k] by {
          assert forall k' :: k < k' < |prefix| ==> basics[k'] == prefix[k'];
        }
      }
    }
  }

  /** The read-back after the loop: `x_b` and `Z = c_b · x_b` are recomputed,
      written into the right-hand-side column and the objective cell, and
      scattered into a solution vector of `size = n + m` entries. */
  function ReadBack(r: Run, size: nat): (s: Solution)
    requires WellFormed(r)
    ensures Shaped(s.tableau, r.m, r.width)
    ensures s.z == Objective(r) && s.tableau[0][r.width] == s.z
    ensures ColumnOf(s.tableau, r.width) == BasicValues(r)
    ensures forall i, j :: 0 <= i <= r.m && 0 <= j < r.width ==> s.tableau[i][j] == r.tableau[i][j]
    ensures |s.values| == size
  {
    var xb := BasicValues(r);
    var z := Objective(r);
    Solution(WithRhs(r.tableau, r.m, r.width, z, xb), z, Scatter(r.basics, xb, size))
  }

  /** `tableau[1:, -1] = x_b` and `tableau[0, -1] = z`. */
  function WithRhs(t: Matrix, m: nat, width: nat, z: real, xb: Vector): (t': Matrix)
    requires Shaped(t, m, width) && |xb| == m
    ensures Shaped(t', m, width)
    ensures t'[0][width] == z && ColumnOf(t', width) == xb
    ensures forall i, j :: 0 <= i <= m && 0 <= j < width ==> t'[i][j] == t[i][j]
  {
    seq(m + 1, i requires 0 <= i <= m =>
      if i == 0 then t[0][width := z] else t[i][width := xb[i - 1]])
  }

  /** With distinct basics the read-back puts each basic value at its column
      and zero everywhere else; a feasible basis gives a non-negative point. */
  lemma ReadBackValues(r: Run, size: nat)
    requires WellFormed(r) && Distinct(r.basics)
    ensures var s := ReadBack(r, size);
      && (forall k :: 0 <= k < r.m && r.basics[k] < size ==> s.values[r.basics[k]] == BasicValues(r)[k])
      && (forall i :: 0 <= i < size && i !in r.basics ==> s.values[i] == 0.0)
      && (Feasible(r) ==> forall i :: 0 <= i < size ==> s.values[i] >= 0.0)
  {
    var s := ReadBack(r, size);
    var xb := BasicValues(r);
    forall k | 0 <= k < r.m && r.basics[k] < size ensures s.values[r.basics[k]] == xb[k] {
      assert forall k' :: k < k' < r.m ==> r.basics[k'] != r.basics[k];
    }
    if Feasible(r) {
      forall i | 0 <= i < size ensures s.values[i] >= 0.0 {
        if i in r.basics {
          var k :| 0 <= k < r.m && r.basics[k] == i;
          assert forall k' :: k < k' < r.m ==> r.basics[k'] != r.basics[k];
        }
      }
    }
  }

  /** The reported objective value is the objective row applied to the
      reported point: `Z == c · x` over the tableau's columns. */
  lemma ReadBackObjective(r: Run, size: nat)
    requires WellFormed(r) && Distinct(r.basics) && r.width <= size
    ensures Dot(r.tableau[0][..r.width], ReadBack(r, size).values[..r.width]) == ReadBack(r, size).z
  {
    var xb := BasicValues(r);
    ScatterPrefix(r.basics, xb, size, r.width);
    ScatterDot(r.tableau[0][..r.width], r.basics, xb);
    assert forall k :: 0 <= k < r.m ==> r.tableau[0][..r.width][r.basics[k]] == r.tableau[0][r.basics[k]];
    assert Costs([r.tableau[0][..r.width]], r.basics) == Costs(r.tableau, r.basics);
  }

  /** Dropping the columns past `width` from a scatter onto columns below it. */
  lemma {:induction false} ScatterPrefix(basics: seq<nat>, xb: Vector, size: nat, width: nat)
    requires |basics| == |xb| && width <= size
    requires forall k :: 0 <= k < |basics| ==> basics[k] < width
    ensures Scatter(basics, xb, size)[..width] == Scatter(basics, xb, width)
    decreases |basics|
  {
    if |basics| > 0 {
      var k := |basics| - 1;
      ScatterPrefix(basics[..k], xb[..k], size, width);
    }
  }

  /** `c · Scatter(basics, xb) == c_b · xb` when the basics are distinct. */
  lemma {:induction false} ScatterDot(c: Vector, basics: seq<nat>, xb: Vector)
    requires |basics| == |xb| && Distinct(basics)
    requires forall k :: 0 <= k < |basics| ==> basics[k] < |c|
    ensures Dot(c, Scatter(basics, xb, |c|)) == Dot(Costs([c], basics), xb)
    decreases |basics|
  {
    if |basics| == 0 {
      DotZero(Scatter(basics, xb, |c|), c);
      DotComm(c, Scatter(basics, xb, |c|));
    } else {
      var k := |basics| - 1;
      assert basics == basics[..k] + [basics[k]] && xb == xb[..k] + [xb[k]];
      assert Distinct(basics[..k]) && basics[k] !in basics[..k];
      ScatterDot(c, basics[..k], xb[..k]);
      ScatterDotStep(c, basics[..k], xb[..k], basics[k], xb[k]);
    }
  }

  /** The inductive step of `ScatterDot`: the last basic adds its term. */
  lemma ScatterDotStep(c: Vector, prefix: seq<nat>, xs: Vector, b: nat, y: real)
    requires |prefix| == |xs| && b < |c| && b !in prefix
    requires forall k :: 0 <= k < |prefix| ==> prefix[k] < |c|
    requires Dot(c, Scatter(prefix, xs, |c|)) == Dot(Costs([c], prefix), xs)
    ensures Dot(c, Scatter(prefix + [b], xs + [y], |c|)) == Dot(Costs([c], prefix + [b]), xs + [y])
  {
    ScatterLast(c, prefix, xs, b, y);
    CostsLast(c, prefix, xs, b, y);
  }

  /** Scattering one more basic value onto a column no earlier basic uses. */
  lemma ScatterSnoc(prefix: seq<nat>, xs: Vector, b: nat, y: real, size: nat)
    requires |prefix| == |xs| && b < size && b !in prefix
    ensures Scatter(prefix, xs, size)[b] == 0.0
    ensures Scatter(prefix + [b], xs + [y], size) == Scatter(prefix, xs, size)[b := y]
  {
    assert (prefix + [b])[..|prefix|] == prefix && (xs + [y])[..|xs|] == xs;
  }

  /** The last basic's entry of a scatter, in a dot product. */
  lemma ScatterLast(c: Vector, prefix: seq<nat>, xs: Vector, b: nat, y: real)
    requires |prefix| == |xs| && b < |c| && b !in prefix
    ensures Dot(c, Scatter(prefix + [b], xs + [y], |c|)) == Dot(c, Scatter(prefix, xs, |c|)) + c[b] * y
  {
    ScatterSnoc(prefix, xs, b, y, |c|);
    DotFill(c, Scatter(prefix, xs, |c|), b, y);
  }

  /** The last basic's term of `c_b · x_b`. */
  lemma CostsLast(c: Vector, prefix: seq<nat>, xs: Vector, b: nat, y: real)
    requires |prefix| == |xs| && b < |c|
    requires forall k :: 0 <= k < |prefix| ==> prefix[k] < |c|
    ensures Dot(Costs([c], prefix + [b]), xs + [y]) == Dot(Costs([c], prefix), xs) + c[b] * y
  {
    var cb := Costs([c], prefix + [b]);
    var v := xs + [y];
    assert cb[..|cb| - 1] == Costs([c], prefix) && cb[|cb| - 1] == c[b];
    assert v[..|v| - 1] == xs && v[|v| - 1] == y;
    DotSnoc(cb, v);
  }
}

=== FILE: lp_types.dfy ===
/** The vocabulary shared by every stage of the solver. */
module LpTypes {

  /** A constraint row's relational operator: `<=`, `>=` or `==`. */
  datatype Relation = Le | Ge | Eq

  /** The optimisation sense the problem is created with (`'max'` or `'min'`). */
  datatype Goal = Maximize | Minimize

  /** The values the solver's `status` field takes. */
  datatype Status = Unsolved | Optimal | Unbounded | Infeasible

  datatype Option<T> = None | Some(value: T)

  /** Number of entries of `rels` equal to `r`. */
  function Count(rels: seq<Relation>, r: Relation): nat
    decreases |rels|
  {
    if |rels| == 0 then 0
    else (if rels[0] == r then 1 else 0) + Count(rels[1..], r)
  }
}

=== FILE: matrices.dfy ===
/** Dense vectors and matrices over `real`, standing in for the numpy arrays
    the solver works on. A matrix is a sequence of rows. */
module Matrices {

  type Vector = seq<real>
  type Matrix = seq<seq<real>>

  /** `a` has `rows` rows of exactly `cols` entries each. */
  predicate IsMatrix(a: Matrix, rows: nat, cols: nat) {
    |a| == rows && forall i :: 0 <= i < rows ==> |a[i]| == cols
  }

  function Zeros(n: nat): Vector {
    seq(n, _ => 0.0)
  }

  /** The `k`-th unit vector of length `n`. */
  function Unit(n: nat, k: nat): Vector {
    seq(n, i => if i == k then 1.0 else 0.0)
  }

  function Identity(n: nat): Matrix {
    seq(n, i requires 0 <= i < n => Unit(n, i))
  }

  function Neg(v: Vector): Vector {
    seq(|v|, i requires 0 <= i < |v| => -v[i])
  }

  function Add(a: Vector, b: Vector): Vector
    requires |a| == |b|
  {
    seq(|a|, i requires 0 <= i < |a| => a[i] + b[i])
  }

  function Sub(a: Vector, b: Vector): Vector
    requires |a| == |b|
  {
    seq(|a|, i requires 0 <= i < |a| => a[i] - b[i])
  }

  function Scale(c: real, v: Vector): Vector {
    seq(|v|, i requires 0 <= i < |v| => c * v[i])
  }

  /** The dot product `a · b`. It is a plain wrapper around the recursive
      sum so that a product is a single term wherever it appears. */
  function Dot(a: Vector, b: Vector): real
    requires |a| == |b|
  {
    SumOfProducts(a, b)
  }

  /** `a[0] * b[0] + ... + a[n-1] * b[n-1]`. */
  function SumOfProducts(a: Vector, b: Vector): real
    requires |a| == |b|
    decreases |a|
  {
    if |a| == 0 then 0.0 else a[0] * b[0] + SumOfProducts(a[1..], b[1..])
  }

  /** Column `j` of `a`. */
  function Col(a: Matrix, j: nat): Vector
    requires forall i :: 0 <= i < |a| ==> j < |a[i]|
  {
    seq(|a|, i requires 0 <= i < |a| => a[i][j])
  }

  /** The product `a · v`. */
  function MatVec(a: Matrix, v: Vector): Vector
    requires forall i :: 0 <= i < |a| ==> |a[i]| == |v|
  {
    seq(|a|, i requires 0 <= i < |a| => Dot(a[i], v))
  }

  /** The row-vector product `v · a`, where `a` has `cols` columns. */
  function VecMat(v: Vector, a: Matrix, cols: nat): Vector
    requires IsMatrix(a, |v|, cols)
  {
    seq(cols, j requires 0 <= j < cols => Dot(v, Col(a, j)))
  }

  /** The product `a · b`, where `b` has `cols` columns. */
  function MatMul(a: Matrix, b: Matrix, cols: nat): Matrix
    requires IsMatrix(b, |b|, cols)
    requires forall i :: 0 <= i < |a| ==> |a[i]| == |b|
  {
    seq(|a|, i requires 0 <= i < |a| =>
      seq(cols, j requires 0 <= j < cols => Dot(a[i], Col(b, j))))
  }

  /** The transpose of `a`, which has `cols` columns. */
  function Transpose(a: Matrix, cols: nat): Matrix
    requires IsMatrix(a, |a|, cols)
  {
    seq(cols, j requires 0 <= j < cols => Col(a, j))
  }

  lemma {:induction false} DotNeg(a: Vector, b: Vector)
    requires |a| == |b|
    ensures Dot(Neg(a), b) == -Dot(a, b)
    decreases |a|
  {
    if |a| > 0 {
      assert Neg(a)[1..] == Neg(a[1..]);
      DotNeg(a[1..], b[1..]);
    }
  }

  lemma {:induction false} DotAdd(a: Vector, b: Vector, v: Vector)
    requires |a| == |b| == |v|
    ensures Dot(Add(a, b), v) == Dot(a, v) + Dot(b, v)
    decreases |a|
  {
    if |a| > 0 {
      assert Add(a, b)[1..] == Add(a[1..], b[1..]);
      DotAdd(a[1..], b[1..], v[1..]);
    }
  }

  lemma {:induction false} DotSub(a: Vector, b: Vector, v: Vector)
    requires |a| == |b| == |v|
    ensures Dot(Sub(a, b), v) == Dot(a, v) - Dot(b, v)
    decreases |a|
  {
    if |a| > 0 {
      assert Sub(a, b)[1..] == Sub(a[1..], b[1..]);
      DotSub(a[1..], b[1..], v[1..]);
    }
  }

  lemma {:induction false} DotScale(c: real, a: Vector, v: Vector)
    requires |a| == |v|
    ensures Dot(Scale(c, a), v) == c * Dot(a, v)
    decreases |a|
  {
    if |a| > 0 {
      assert Scale(c, a)[1..] == Scale(c, a[1..]) by {
        forall j | 0 <= j < |a| - 1 ensures Scale(c, a)[1..][j] == Scale(c, a[1..])[j] {
          assert Scale(c, a)[1..][j] == c * a[j + 1];
        }
      }
      DotScale(c, a[1..], v[1..]);
    }
  }

  /** A vector with a single nonzero entry `k` picks out `v[k]`. */
  lemma {:induction false} DotSingle(a: Vector, v: Vector, k: nat)
    requires |a| == |v| && k < |a|
    requires forall i :: 0 <= i < |a| && i != k ==> a[i] == 0.0
    ensures Dot(a, v) == a[k] * v[k]
    decreases |a|
  {
    if k == 0 {
      DotZero(a[1..], v[1..]);
    } else {
      DotSingle(a[1..], v[1..], k - 1);
    }
  }

  lemma {:induction false} DotZero(a: Vector, v: Vector)
    requires |a| == |v|
    requires forall i :: 0 <= i < |a| ==> a[i] == 0.0
    ensures Dot(a, v) == 0.0
    decreases |a|
  {
    if |a| > 0 {
      DotZero(a[1..], v[1..]);
    }
  }

  /** A vector whose only nonzero entries are `i` and `k` (distinct). */
  lemma {:induction false} DotTwo(a: Vector, v: Vector, i: nat, k: nat)
    requires |a| == |v| && i < |a| && k < |a| && i != k
    requires forall j :: 0 <= j < |a| && j != i && j != k ==> a[j] == 0.0
    ensures Dot(a, v) == a[i] * v[i] + a[k] * v[k]
  {
    var p := a[k := 0.0];
    var q := Sub(a, p);
    SplitTwo(a, p, q);
    DotAdd(p, q, v);
    DotSingle(p, v, i);
    DotSingle(q, v, k);
  }

  lemma SplitTwo(a: Vector, p: Vector, q: Vector)
    requires |a| == |p| && q == Sub(a, p)
    ensures a == Add(p, q)
  {
  }

  lemma DotUnit(n: nat, k: nat, v: Vector)
    requires |v| == n && k < n
    ensures Dot(Unit(n, k), v) == v[k]
  {
    DotSingle(Unit(n, k), v, k);
  }

  /** The identity leaves every vector unchanged. */
  lemma MatVecIdentity(v: Vector)
    ensures MatVec(Identity(|v|), v) == v
  {
    forall i | 0 <= i < |v|
      ensures MatVec(Identity(|v|), v)[i] == v[i]
    {
      DotUnit(|v|, i, v);
    }
  }

  lemma {:induction false} DotComm(a: Vector, b: Vector)
    requires |a| == |b|
    ensures Dot(a, b) == Dot(b, a)
    decreases |a|
  {
    if |a| > 0 {
      DotComm(a[1..], b[1..]);
    }
  }

  /** Multiplying by a unit vector on the right picks out one entry. */
  lemma DotUnitRight(v: Vector, n: nat, k: nat)
    requires |v| == n && k < n
    ensures Dot(v, Unit(n, k)) == v[k]
  {
    DotComm(v, Unit(n, k));
    DotUnit(n, k, v);
  }

  /** Associativity of the row-vector, matrix and column-vector products:
      `(v · X) · a == v · (X · a)`. */
  lemma {:induction false} VecMatDot(v: Vector, x: Matrix, cols: nat, a: Vector)
    requires IsMatrix(x, |v|, cols) && |a| == cols
    ensures Dot(VecMat(v, x, cols), a) == Dot(v, MatVec(x, a))
    decreases |v|
  {
    if |v| == 0 {
      DotZero(VecMat(v, x, cols), a);
    } else {
      VecMatSplit(v, x, cols);
      assert MatVec(x, a)[1..] == MatVec(x[1..], a);
      VecMatDot(v[1..], x[1..], cols, a);
      DotAdd(Scale(v[0], x[0]), VecMat(v[1..], x[1..], cols), a);
      DotScale(v[0], x[0], a);
    }
  }

  /** The first row's share of `v · X`. */
  lemma VecMatSplit(v: Vector, x: Matrix, cols: nat)
    requires IsMatrix(x, |v|, cols) && |v| > 0
    ensures VecMat(v, x, cols) == Add(Scale(v[0], x[0]), VecMat(v[1..], x[1..], cols))
  {
    var rest := VecMat(v[1..], x[1..], cols);
    forall j | 0 <= j < cols
      ensures VecMat(v, x, cols)[j] == Add(Scale(v[0], x[0]), rest)[j]
    {
      assert Col(x, j)[1..] == Col(x[1..], j);
    }
  }

  /** Changing one entry of `b` changes `a · b` by that entry's share. */
  lemma {:induction false} DotUpdate(a: Vector, b: Vector, j: nat, y: real)
    requires |a| == |b| && j < |a|
    ensures Dot(a, b[j := y]) == Dot(a, b) + a[j] * (y - b[j])
    decreases |a|
  {
    if j == 0 {
      assert b[j := y][1..] == b[1..];
    } else {
      assert b[j := y][1..] == b[1..][j - 1 := y];
      DotUpdate(a[1..], b[1..], j - 1, y);
    }
  }

  /** Changing one entry of `a` changes `a · b` by that entry's share. */
  lemma {:induction false} DotUpdateFirst(a: Vector, b: Vector, j: nat, y: real)
    requires |a| == |b| && j < |a|
    ensures Dot(a[j := y], b) == Dot(a, b) + (y - a[j]) * b[j]
    decreases |a|
  {
    if j == 0 {
      assert a[j := y][1..] == a[1..];
    } else {
      assert a[j := y][1..] == a[1..][j - 1 := y];
      DotUpdateFirst(a[1..], b[1..], j - 1, y);
    }
  }

  /** The dot product is linear in its second argument:
      `c · (x - t d + t u) == c · x - t (c · d) + t (c · u)`. */
  lemma {:induction false} DotCombine(c: Vector, x: Vector, d: Vector, u: Vector, v: Vector, t: real)
    requires |c| == |x| == |d| == |u| == |v|
    requires forall i :: 0 <= i < |v| ==> v[i] == x[i] - t * d[i] + t * u[i]
    ensures Dot(c, v) == Dot(c, x) - t * Dot(c, d) + t * Dot(c, u)
    decreases |c|
  {
    if |c| > 0 {
      DotCombine(c[1..], x[1..], d[1..], u[1..], v[1..], t);
      assert c[0] * v[0] == c[0] * x[0] - t * (c[0] * d[0]) + t * (c[0] * u[0]);
    }
  }

  /** Filling a zero entry of `b` adds that entry's term to `a · b`. */
  lemma DotFill(a: Vector, b: Vector, j: nat, y: real)
    requires |a| == |b| && j < |a| && b[j] == 0.0
    ensures Dot(a, b[j := y]) == Dot(a, b) + a[j] * y
  {
    DotUpdate(a, b, j, y);
  }

  /** Splitting off the last term of a dot product. */
  lemma {:induction false} DotSnoc(a: Vector, b: Vector)
    requires |a| == |b| > 0
    ensures Dot(a, b) == Dot(a[..|a| - 1], b[..|b| - 1]) + a[|a| - 1] * b[|b| - 1]
    decreases |a|
  {
    if |a| == 1 {
      assert Dot(a[1..], b[1..]) == 0.0;
    } else {
      DotSnoc(a[1..], b[1..]);
      assert a[1..][..|a| - 2] == a[..|a| - 1][1..];
      assert b[1..][..|b| - 2] == b[..|b| - 1][1..];
      assert Dot(a[..|a| - 1], b[..|b| - 1]) ==
        a[0] * b[0] + Dot(a[..|a| - 1][1..], b[..|b| - 1][1..]);
    }
  }

  /** Trailing zero coefficients add nothing to a dot product. */
  lemma {:induction false} DotZeroTail(a: Vector, b: Vector, n: nat)
    requires |a| == |b| && n <= |a|
    requires forall j :: n <= j < |a| ==> a[j] == 0.0
    ensures Dot(a, b) == Dot(a[..n], b[..n])
    decreases |a|
  {
    if |a| > n {
      var k := |a| - 1;
      DotSnoc(a, b);
      DotZeroTail(a[..k], b[..k], n);
      assert a[..k][..n] == a[..n];
      assert b[..k][..n] == b[..n];
    } else {
      assert a[..n] == a && b[..n] == b;
    }
  }
}

=== FILE: normalise.dfy ===
/** Input normalisation (`LpProblem.rhs`): every constraint row with a
    negative right-hand side is negated and its `<=`/`>=` sense flipped, so
    that all right-hand sides are non-negative; the objective value `Z = 0`
    is then put in front of the right-hand-side list. */
module Normalise {
  import opened Matrices
  import opened LpTypes

  /** The sense a row takes when both of its sides are negated. */
  function Flip(r: Relation): (f: Relation)
    ensures r == Le <==> f == Ge
    ensures r == Ge <==> f == Le
    ensures r == Eq <==> f == Eq
  {
    match r
    case Le => Ge
    case Ge => Le
    case Eq => Eq
  }

  /** The constraint rows, senses and right-hand sides after normalisation;
      `rhs` has the objective value `Z` in front (one entry more than rows). */
  datatype Normalised = Normalised(constraints: Matrix, relations: seq<Relation>, rhs: Vector)

  function NormaliseRow(row: Vector, rel: Relation, b: real): (Vector, Relation, real) {
    if b < 0.0 then (Neg(row), Flip(rel), -b) else (row, rel, b)
  }

  function NormaliseRhs(cons: Matrix, rels: seq<Relation>, rhs: Vector): (r: Normalised)
    requires |cons| == |rhs| && |rels| == |rhs|
    ensures |r.constraints| == |cons| && |r.relations| == |rels| && |r.rhs| == |rhs| + 1
    ensures r.rhs[0] == 0.0
    ensures forall i :: 0 <= i < |rhs| && rhs[i] < 0.0 ==>
      && r.constraints[i] == Neg(cons[i])
      && r.relations[i] == Flip(rels[i])
      && r.rhs[i + 1] == -rhs[i]
    ensures forall i :: 0 <= i < |rhs| && rhs[i] >= 0.0 ==>
      r.constraints[i] == cons[i] && r.relations[i] == rels[i] && r.rhs[i + 1] == rhs[i]
    ensures forall i :: 0 <= i < |r.rhs| ==> r.rhs[i] >= 0.0
    ensures forall i :: 0 <= i < |cons| ==> |r.constraints[i]| == |cons[i]|
  {
    var m := |rhs|;
    var rows := seq(m, i requires 0 <= i < m => NormaliseRow(cons[i], rels[i], rhs[i]));
    Normalised(
      seq(m, i requires 0 <= i < m => rows[i].0),
      seq(m, i requires 0 <= i < m => rows[i].1),
      [0.0] + seq(m, i requires 0 <= i < m => rows[i].2))
  }

  /** Point `x` satisfies the constraint `row · x  rel  b`. */
  predicate Satisfies(row: Vector, rel: Relation, b: real, x: Vector)
    requires |row| == |x|
  {
    match rel
    case Le => Dot(row, x) <= b
    case Ge => Dot(row, x) >= b
    case Eq => Dot(row, x) == b
  }

  /** Normalisation does not change the feasible region: a point satisfies
      each original row exactly when it satisfies the normalised row. */
  lemma NormalisePreservesFeasibleSet(cons: Matrix, rels: seq<Relation>, rhs: Vector, x: Vector)
    requires |cons| == |rhs| && |rels| == |rhs|
    requires forall i :: 0 <= i < |cons| ==> |cons[i]| == |x|
    ensures forall i :: 0 <= i < |rhs| ==>
      (Satisfies(cons[i], rels[i], rhs[i], x) <==>
       Satisfies(NormaliseRhs(cons, rels, rhs).constraints[i], NormaliseRhs(cons, rels, rhs).relations[i],
                 NormaliseRhs(cons, rels, rhs).rhs[i + 1], x))
  {
    var r := NormaliseRhs(cons, rels, rhs);
    forall i | 0 <= i < |rhs| && rhs[i] < 0.0
      ensures Satisfies(cons[i], rels[i], rhs[i], x) <==>
              Satisfies(r.constraints[i], r.relations[i], r.rhs[i + 1], x)
    {
      DotNeg(cons[i], x);
    }
  }

  /** Normalising an already normalised system changes nothing. */
  lemma NormaliseIdempotent(cons: Matrix, rels: seq<Relation>, rhs: Vector)
    requires |cons| == |rhs| && |rels| == |rhs|
    ensures NormaliseRhs(NormaliseRhs(cons, rels, rhs).constraints, NormaliseRhs(cons, rels, rhs).relations,
                         NormaliseRhs(cons, rels, rhs).rhs[1..]) == NormaliseRhs(cons, rels, rhs)
  {
    var r := NormaliseRhs(cons, rels, rhs);
    var s := NormaliseRhs(r.constraints, r.relations, r.rhs[1..]);
    assert s.constraints == r.constraints;
    assert s.relations == r.relations;
    assert s.rhs == r.rhs;
  }
}

=== FILE: phase_one.dfy ===
/** Phase-1 set-up (`LpProblem._add_artificials`). Every `>=` row gets a
    surplus column (inserted after the structural columns) and an artificial
    column, every `==` row an artificial column; an artificial column takes
    the place of its row's slack column. Row 0 is then rebuilt as the
    auxiliary objective: zero on the structural and surplus columns, minus
    each row whose basic variable is artificial, and finally negated. */
module PhaseOne {
  import opened Matrices
  import opened LpTypes
  import opened Basis
  import opened Tableau

  /** Artificial column for row `i`: a `1` in row 0 (the marker the solver
      later searches for) and a `1` in constraint row `i + 1`. */
  function ArtificialColumn(m: nat, i: nat): Vector {
    seq(m + 1, r => if r == 0 || r == i + 1 then 1.0 else 0.0)
  }

  /** Surplus column for row `i`: a `-1` in constraint row `i + 1`. */
  function SurplusColumn(m: nat, i: nat): Vector {
    seq(m + 1, r => if r == i + 1 then -1.0 else 0.0)
  }

  lemma CountSuffix(rels: seq<Relation>, i: nat, x: Relation)
    requires i < |rels|
    ensures Count(rels[i..], x) == (if rels[i] == x then 1 else 0) + Count(rels[i + 1..], x)
  {
    assert rels[i..][1..] == rels[i + 1..];
  }

  /** The column insertions of the loop over rows `i ..` on a column-major
      copy of the tableau: `cols[n + q]` is the slack column of row `q`, and
      `n` counts the structural plus surplus columns inserted so far. */
  function InsertColumns(cols: seq<Vector>, rels: seq<Relation>, i: nat, n: nat): (r: (seq<Vector>, nat))
    requires i <= |rels| && n + |rels| <= |cols|
    requires forall j :: 0 <= j < |cols| ==> |cols[j]| == |rels| + 1
    ensures r.1 == n + Count(rels[i..], Ge)
    ensures |r.0| == |cols| + Count(rels[i..], Ge)
    ensures forall j :: 0 <= j < |r.0| ==> |r.0[j]| == |rels| + 1
    decreases |rels| - i
  {
    var m := |rels|;
    if i == m then
      (cols, n)
    else
      CountSuffix(rels, i, Ge);
      match rels[i]
      case Le => InsertColumns(cols, rels, i + 1, n)
      case Eq => InsertColumns(cols[n + i := ArtificialColumn(m, i)], rels, i + 1, n)
      case Ge => InsertColumns(GeColumns(cols, m, n, i), rels, i + 1, n + 1)
  }

  /** The two hstacks of a `>=` row: a surplus column inserted at `n`, then
      the artificial column over the (shifted) slack column of row `i`. */
  function GeColumns(cols: seq<Vector>, m: nat, n: nat, i: nat): (c: seq<Vector>)
    requires n + i < |cols|
    ensures |c| == |cols| + 1
    ensures forall j :: 0 <= j < n ==> c[j] == cols[j]
    ensures c[n] == SurplusColumn(m, i)
    ensures c[n + 1 + i] == ArtificialColumn(m, i)
    ensures forall j :: n < j < |c| && j != n + 1 + i ==> c[j] == cols[j - 1]
  {
    var c1 := cols[..n] + [SurplusColumn(m, i)] + cols[n..];
    assert forall j :: n < j < |c1| ==> c1[j] == cols[j - 1];
    c1[n + 1 + i := ArtificialColumn(m, i)]
  }

  /** `col` is the surplus column of some `>=` row. */
  ghost predicate IsSurplusColumn(rels: seq<Relation>, col: Vector) {
    exists q :: 0 <= q < |rels| && rels[q] == Ge && col == SurplusColumn(|rels|, q)
  }

  /** Where each column ends up after the insertions for rows `i ..`. */
  ghost predicate Layout(cols: seq<Vector>, rels: seq<Relation>, i: nat, n: nat, r: seq<Vector>, n1: nat)
    requires i <= |rels| && n <= n1 && n1 + |rels| <= |r| && n + |r| - n1 == |cols|
  {
    // structural columns stay in front
    && (forall j :: 0 <= j < n ==> r[j] == cols[j])
    // then one surplus column per `>=` row still to be processed
    && (forall j :: n <= j < n1 ==> IsSurplusColumn(rels, r[j]))
    // rows already processed keep their column
    && (forall j :: n1 <= j < n1 + i ==> r[j] == cols[j - n1 + n])
    // a row still to be processed gets an artificial column unless it is `<=`
    && (forall j :: n1 + i <= j < n1 + |rels| && j - n1 < |rels| ==>
          r[j] == if rels[j - n1] == Le then cols[j - n1 + n] else ArtificialColumn(|rels|, j - n1))
    // the columns after the slack block (the right-hand side) only move
    && (forall j :: n1 + |rels| <= j < |r| ==> r[j] == cols[j - n1 + n])
  }

  lemma {:induction false} InsertColumnsLayout(cols: seq<Vector>, rels: seq<Relation>, i: nat, n: nat)
    requires i <= |rels| && n + |rels| <= |cols|
    requires forall j :: 0 <= j < |cols| ==> |cols[j]| == |rels| + 1
    ensures Layout(cols, rels, i, n, InsertColumns(cols, rels, i, n).0, InsertColumns(cols, rels, i, n).1)
    decreases |rels| - i
  {
    var m := |rels|;
    if i == m {
      LayoutDone(cols, rels, n);
    } else {
      CountSuffix(rels, i, Ge);
      match rels[i]
      case Le =>
        InsertColumnsLayout(cols, rels, i + 1, n);
        var (r, n1) := InsertColumns(cols, rels, i + 1, n);
        assert InsertColumns(cols, rels, i, n) == (r, n1);
        LayoutLe(cols, rels, i, n, r, n1);
      case Eq =>
        var c := cols[n + i := ArtificialColumn(m, i)];
        InsertColumnsLayout(c, rels, i + 1, n);
        var (r, n1) := InsertColumns(c, rels, i + 1, n);
        assert InsertColumns(cols, rels, i, n) == (r, n1);
        LayoutEq(cols, rels, i, n, r, n1);
      case Ge =>
        var c := GeColumns(cols, m, n, i);
        InsertColumnsLayout(c, rels, i + 1, n + 1);
        var (r, n1) := InsertColumns(c, rels, i + 1, n + 1);
        assert InsertColumns(cols, rels, i, n) == (r, n1);
        LayoutGe(cols, rels, i, n, r, n1);
    }
  }

  /** With every row processed, every column is where it started. */
  lemma LayoutDone(cols: seq<Vector>, rels: seq<Relation>, n: nat)
    requires n + |rels| <= |cols|
    ensures Layout(cols, rels, |rels|, n, cols, n)
  {
  }

  lemma LayoutLe(cols: seq<Vector>, rels: seq<Relation>, i: nat, n: nat, r: seq<Vector>, n1: nat)
    requires i < |rels| && rels[i] == Le
    requires n <= n1 && n1 + |rels| <= |r| && n + |r| - n1 == |cols|
    requires Layout(cols, rels, i + 1, n, r, n1)
    ensures Layout(cols, rels, i, n, r, n1)
  {
  }

  lemma LayoutEq(cols: seq<Vector>, rels: seq<Relation>, i: nat, n: nat, r: seq<Vector>, n1: nat)
    requires i < |rels| && rels[i] == Eq && n + i < |cols|
    requires n <= n1 && n1 + |rels| <= |r| && n + |r| - n1 == |cols|
    requires Layout(cols[n + i := ArtificialColumn(|rels|, i)], rels, i + 1, n, r, n1)
    ensures Layout(cols, rels, i, n, r, n1)
  {
    var c := cols[n + i := ArtificialColumn(|rels|, i)];
    assert forall j :: 0 <= j < |cols| && j != n + i ==> c[j] == cols[j];
  }

  lemma LayoutGe(cols: seq<Vector>, rels: seq<Relation>, i: nat, n: nat, r: seq<Vector>, n1: nat)
    requires i < |rels| && rels[i] == Ge && n + |rels| <= |cols|
    requires n + 1 <= n1 && n1 + |rels| <= |r| && n + 1 + |r| - n1 == |cols| + 1
    requires Layout(GeColumns(cols, |rels|, n, i), rels, i + 1, n + 1, r, n1)
    ensures Layout(cols, rels, i, n, r, n1)
  {
    var c := GeColumns(cols, |rels|, n, i);
    assert r[n] == SurplusColumn(|rels|, i);
    assert IsSurplusColumn(rels, r[n]);
  }

  /** `np.where(tableau[0] == 1)` intersected with `basics`: the basic
      columns whose row-0 entry is the artificial marker `1`. */
  function MarkedColumns(row0: Vector, basics: seq<nat>): (art: seq<nat>)
    requires forall k :: 0 <= k < |basics| ==> basics[k] < |row0|
    ensures forall a :: a in art <==> a in basics && row0[a] == 1.0
    ensures Distinct(basics) ==> Distinct(art)
    decreases |basics|
  {
    if |basics| == 0 then []
    else
      var rest := MarkedColumns(row0, basics[1..]);
      assert forall a :: a in basics <==> a == basics[0] || a in basics[1..];
      if row0[basics[0]] == 1.0 then [basics[0]] + rest else rest
  }

  /** Sum of the entries in column `j` of the rows whose basic variable is
      one of `art` (the basic column `a` sits in row `a - n + 1`). */
  function ColumnSum(t: Matrix, art: seq<nat>, n: nat, j: nat): real
    requires forall k :: 0 <= k < |art| ==> n <= art[k] && art[k] - n + 1 < |t| && j < |t[art[k] - n + 1]|
    decreases |art|
  {
    if |art| == 0 then 0.0 else t[art[0] - n + 1][j] + ColumnSum(t, art[1..], n, j)
  }

  /** `for i in artificial_indexes: row -= tableau[basics.index(i) + 1]`. */
  function SubtractRows(row: Vector, t: Matrix, art: seq<nat>, n: nat): (r: Vector)
    requires forall k :: 0 <= k < |art| ==> n <= art[k] && art[k] - n + 1 < |t| && |t[art[k] - n + 1]| == |row|
    ensures |r| == |row|
    ensures forall j :: 0 <= j < |row| ==> r[j] == row[j] - ColumnSum(t, art, n, j)
    decreases |art|
  {
    if |art| == 0 then row
    else SubtractRows(Sub(row, t[art[0] - n + 1]), t, art[1..], n)
  }

  datatype PhaseOneForm = PhaseOneForm(
    tableau: Matrix, n: nat, basics: seq<nat>, nonbasics: seq<nat>,
    artificials: seq<nat>, artificialCount: nat, senseEquals: nat)

  /** Rows of the tableau rebuilt from its columns. */
  function Rows(cols: seq<Vector>, height: nat): (t: Matrix)
    requires forall j :: 0 <= j < |cols| ==> |cols[j]| == height
    ensures IsMatrix(t, height, |cols|)
    ensures forall i, j :: 0 <= i < height && 0 <= j < |cols| ==> t[i][j] == cols[j][i]
  {
    seq(height, i requires 0 <= i < height => seq(|cols|, j requires 0 <= j < |cols| => cols[j][i]))
  }

  function Columns(t: Matrix, height: nat, width: nat): (cols: seq<Vector>)
    requires IsMatrix(t, height, width)
    ensures |cols| == width
    ensures forall j :: 0 <= j < width ==> |cols[j]| == height
    ensures forall i, j :: 0 <= i < height && 0 <= j < width ==> cols[j][i] == t[i][j]
  {
    seq(width, j requires 0 <= j < width => seq(height, i requires 0 <= i < height => t[i][j]))
  }

  /** The tableau after the column insertions of the loop over all rows,
      before row 0 is rebuilt; the second component is the new `n`. */
  function Augmented(t: Matrix, m: nat, n: nat, rels: seq<Relation>): (r: (Matrix, nat))
    requires Shaped(t, m, n + m) && |rels| == m
    ensures r.1 == n + Count(rels, Ge)
    ensures Shaped(r.0, m, r.1 + m)
  {
    var cols := Columns(t, m + 1, n + m + 1);
    assert rels[0..] == rels;
    var (cols1, n1) := InsertColumns(cols, rels, 0, n);
    (Rows(cols1, m + 1), n1)
  }

  /** Where the columns of `t` end up in `t1` after the insertions, `n1`
      being the new `n`: the structural columns and the right-hand side
      stay, the inserted columns below the slack block are surplus columns,
      and the slack column of each `<=` row survives while that of each
      other row becomes its artificial column. */
  ghost predicate LaidOut(t: Matrix, m: nat, n: nat, rels: seq<Relation>, t1: Matrix, n1: nat)
    requires Shaped(t, m, n + m) && |rels| == m && Shaped(t1, m, n1 + m) && n <= n1
  {
    && (forall i, j :: 0 <= i <= m && 0 <= j < n ==> t1[i][j] == t[i][j])
    && (forall i :: 0 <= i <= m ==> t1[i][n1 + m] == t[i][n + m])
    && (forall j :: n <= j < n1 ==> IsSurplusColumn(rels, Col(t1, j)))
    && (forall i, j :: 0 <= i <= m && n1 <= j < n1 + m ==>
          t1[i][j] == if rels[j - n1] == Le then t[i][j - n1 + n] else ArtificialColumn(m, j - n1)[i])
  }

  /** Where the columns of the tableau end up after the insertions. */
  lemma AugmentedLayout(t: Matrix, m: nat, n: nat, rels: seq<Relation>)
    requires Shaped(t, m, n + m) && |rels| == m
    ensures LaidOut(t, m, n, rels, Augmented(t, m, n, rels).0, Augmented(t, m, n, rels).1)
  {
    var cols := Columns(t, m + 1, n + m + 1);
    assert rels[0..] == rels;
    var (cols1, n1) := InsertColumns(cols, rels, 0, n);
    InsertColumnsLayout(cols, rels, 0, n);
    RowsOfLayout(t, cols, rels, n, cols1, n1);
    assert Augmented(t, m, n, rels) == (Rows(cols1, m + 1), n1);
  }

  lemma RowsOfLayout(t: Matrix, cols: seq<Vector>, rels: seq<Relation>, n: nat, cols1: seq<Vector>, n1: nat)
    requires Shaped(t, |rels|, n + |rels|) && cols == Columns(t, |rels| + 1, n + |rels| + 1)
    requires n <= n1 && n1 + |rels| + 1 == |cols1| && n + |cols1| - n1 == |cols|
    requires forall j :: 0 <= j < |cols1| ==> |cols1[j]| == |rels| + 1
    requires Layout(cols, rels, 0, n, cols1, n1)
    ensures Shaped(Rows(cols1, |rels| + 1), |rels|, n1 + |rels|)
    ensures LaidOut(t, |rels|, n, rels, Rows(cols1, |rels| + 1), n1)
  {
    var m := |rels|;
    var t1 := Rows(cols1, m + 1);
    forall j | n <= j < n1 ensures IsSurplusColumn(rels, Col(t1, j)) {
      assert Col(t1, j) == cols1[j];
    }
    forall i, j | 0 <= i <= m && n1 <= j < n1 + m
      ensures t1[i][j] == if rels[j - n1] == Le then t[i][j - n1 + n] else ArtificialColumn(m, j - n1)[i]
    {
      assert t1[i][j] == cols1[j][i];
      if rels[j - n1] == Le {
        assert cols1[j] == cols[j - n1 + n];
      }
    }
    forall i | 0 <= i <= m ensures t1[i][n1 + m] == t[i][n + m] {
      assert t1[i][n1 + m] == cols1[n1 + m][i];
      assert cols1[n1 + m] == cols[n + m];
    }
    forall i, j | 0 <= i <= m && 0 <= j < n ensures t1[i][j] == t[i][j] {
      assert cols1[j] == cols[j];
    }
  }

  function AddArtificials(t: Matrix, m: nat, n: nat, rels: seq<Relation>): (r: PhaseOneForm)
    requires Shaped(t, m, n + m) && |rels| == m
    ensures r.n == n + Count(rels, Ge)
    ensures Shaped(r.tableau, m, r.n + m)
    ensures (r.basics, r.nonbasics) == InitialBasis(r.n, m)
    ensures r.artificialCount == Count(rels, Ge) + Count(rels, Eq)
    ensures r.senseEquals == Count(rels, Eq)
    ensures Distinct(r.artificials)
    ensures forall a :: a in r.artificials <==> a in r.basics && Augmented(t, m, n, rels).0[0][a] == 1.0
    ensures forall k :: 0 <= k < |r.artificials| ==> r.n <= r.artificials[k] < r.n + m
    ensures r.artificials == MarkedColumns(Augmented(t, m, n, rels).0[0], r.basics)
    // the constraint rows are those of the augmented tableau
    ensures r.tableau[1..] == Augmented(t, m, n, rels).0[1..]
    // row 0 is the phase-1 objective row built from the augmented tableau
    ensures r.tableau[0] == PhaseOneRow(Augmented(t, m, n, rels).0, m, r.n, r.artificials)
  {
    var a := Augmented(t, m, n, rels);
    FormOf(a.0, a.1, rels)
  }

  /** The phase-1 form of an augmented tableau `t1` with `n1` structural
      and surplus columns. */
  function FormOf(t1: Matrix, n1: nat, rels: seq<Relation>): (r: PhaseOneForm)
    requires Shaped(t1, |rels|, n1 + |rels|)
    ensures r.n == n1
    ensures Shaped(r.tableau, |rels|, n1 + |rels|)
    ensures (r.basics, r.nonbasics) == InitialBasis(n1, |rels|)
    ensures r.artificialCount == Count(rels, Ge) + Count(rels, Eq)
    ensures r.senseEquals == Count(rels, Eq)
    ensures Distinct(r.artificials)
    ensures forall a :: a in r.artificials <==> a in r.basics && t1[0][a] == 1.0
    ensures forall k :: 0 <= k < |r.artificials| ==> n1 <= r.artificials[k] < n1 + |rels|
    ensures r.artificials == MarkedColumns(t1[0], r.basics)
    ensures r.tableau[1..] == t1[1..]
    ensures r.tableau[0] == PhaseOneRow(t1, |rels|, n1, r.artificials)
  {
    var m := |rels|;
    var (basics, nonbasics) := InitialBasis(n1, m);
    var art := MarkedColumns(t1[0], basics);
    assert forall k :: 0 <= k < |art| ==> n1 <= art[k] < n1 + m by {
      forall k | 0 <= k < |art| ensures n1 <= art[k] < n1 + m {
        assert art[k] in art;
        var k' :| 0 <= k' < m && basics[k'] == art[k];
      }
    }
    PhaseOneForm(t1[0 := PhaseOneRow(t1, m, n1, art)], n1, basics, nonbasics, art,
                 Count(rels, Ge) + Count(rels, Eq), Count(rels, Eq))
  }

  /** Row 0 for phase 1: structural and surplus entries zeroed, minus the
      rows of the basic artificial columns, then negated (`-Z` to `Z`). */
  function PhaseOneRow(t1: Matrix, m: nat, n1: nat, art: seq<nat>): (row: Vector)
    requires Shaped(t1, m, n1 + m)
    requires forall k :: 0 <= k < |art| ==> n1 <= art[k] < n1 + m
    ensures |row| == n1 + m + 1
    ensures forall j :: 0 <= j < n1 ==> row[j] == ColumnSum(t1, art, n1, j)
    ensures forall j :: n1 <= j <= n1 + m ==> row[j] == ColumnSum(t1, art, n1, j) - t1[0][j]
  {
    var row0 := seq(n1 + m + 1, j requires 0 <= j < n1 + m + 1 => if j < n1 then 0.0 else t1[0][j]);
    Neg(SubtractRows(row0, t1, art, n1))
  }

  /** Adding up the rows of distinct basic columns `art` in a column of the
      identity block picks out that column's own row, if it is among them. */
  lemma {:induction false} ColumnSumUnit(t1: Matrix, m: nat, n1: nat, art: seq<nat>, q: nat)
    requires IsMatrix(t1, m + 1, n1 + m + 1) && UnitBlock(t1, m, n1) && q < m
    requires Distinct(art) && forall k :: 0 <= k < |art| ==> n1 <= art[k] < n1 + m
    ensures ColumnSum(t1, art, n1, n1 + q) == if n1 + q in art then 1.0 else 0.0
    decreases |art|
  {
    if |art| > 0 {
      assert Distinct(art[1..]);
      ColumnSumUnit(t1, m, n1, art[1..], q);
      assert n1 + q in art <==> n1 + q == art[0] || n1 + q in art[1..];
      if art[0] == n1 + q {
        assert n1 + q !in art[1..];
      }
    }
  }

  /** In the augmented tableau the basic block is an identity below row 0,
      and row 0 carries the marker `1` exactly over the artificial columns. */
  lemma AugmentedBlock(t: Matrix, m: nat, n: nat, rels: seq<Relation>)
    requires Shaped(t, m, n + m) && |rels| == m
    requires UnitBlock(t, m, n)
    requires forall j :: n <= j < n + m ==> t[0][j] == 0.0
    ensures UnitBlock(Augmented(t, m, n, rels).0, m, Augmented(t, m, n, rels).1)
    ensures forall q :: 0 <= q < m ==>
      Augmented(t, m, n, rels).0[0][Augmented(t, m, n, rels).1 + q] == if rels[q] == Le then 0.0 else 1.0
  {
    var (t1, n1) := Augmented(t, m, n, rels);
    AugmentedLayout(t, m, n, rels);
    forall i, j | 1 <= i <= m && n1 <= j < n1 + m
      ensures t1[i][j] == if j == n1 + i - 1 then 1.0 else 0.0
    {
      if rels[j - n1] == Le {
        assert t1[i][j] == t[i][j - n1 + n];
      } else {
        assert t1[i][j] == ArtificialColumn(m, j - n1)[i];
      }
    }
    forall q | 0 <= q < m ensures t1[0][n1 + q] == if rels[q] == Le then 0.0 else 1.0 {
      if rels[q] == Le {
        assert t1[0][n1 + q] == t[0][n + q];
      } else {
        assert t1[0][n1 + q] == ArtificialColumn(m, q)[0];
      }
    }
  }

  /** The artificial columns are exactly the basic columns of the rows whose
      sense is not `<=`, in row order. */
  lemma ArtificialsAreNonLeRows(t: Matrix, m: nat, n: nat, rels: seq<Relation>)
    requires Shaped(t, m, n + m) && |rels| == m
    requires UnitBlock(t, m, n)
    requires forall j :: n <= j < n + m ==> t[0][j] == 0.0
    ensures var r := AddArtificials(t, m, n, rels);
      r.artificials == NonLeColumns(rels, r.n)
  {
    var a := Augmented(t, m, n, rels);
    AugmentedBlock(t, m, n, rels);
    FormArtificials(a.0, a.1, rels);
    assert AddArtificials(t, m, n, rels) == FormOf(a.0, a.1, rels);
  }

  lemma FormArtificials(t1: Matrix, n1: nat, rels: seq<Relation>)
    requires Shaped(t1, |rels|, n1 + |rels|)
    requires forall q :: 0 <= q < |rels| ==> t1[0][n1 + q] == if rels[q] == Le then 0.0 else 1.0
    ensures FormOf(t1, n1, rels).artificials == NonLeColumns(rels, n1)
  {
    MarkedRange(t1[0], InitialBasis(n1, |rels|).0, rels, n1);
  }

  /** The columns `base + q` of the rows `q` whose sense is not `<=`. */
  function NonLeColumns(rels: seq<Relation>, base: nat): (cols: seq<nat>)
    ensures forall c :: c in cols <==> base <= c < base + |rels| && rels[c - base] != Le
    decreases |rels|
  {
    if |rels| == 0 then []
    else
      var rest := NonLeColumns(rels[1..], base + 1);
      if rels[0] != Le then [base] + rest else rest
  }

  /** The marked columns of the basis `base, ..., base + |rels| - 1` are
      those of the rows whose row-0 marker is `1`, the rows not `<=`. */
  lemma {:induction false} MarkedRange(row0: Vector, basics: seq<nat>, rels: seq<Relation>, base: nat)
    requires |basics| == |rels| && |row0| >= base + |rels|
    requires forall k :: 0 <= k < |basics| ==> basics[k] == base + k
    requires forall q :: 0 <= q < |rels| ==> row0[base + q] == if rels[q] == Le then 0.0 else 1.0
    ensures MarkedColumns(row0, basics) == NonLeColumns(rels, base)
    decreases |basics|
  {
    if |basics| > 0 {
      assert row0[basics[0]] == if rels[0] == Le then 0.0 else 1.0 by {
        assert basics[0] == base + 0;
      }
      MarkedRange(row0, basics[1..], rels[1..], base + 1);
    }
  }

  /** The column insertions leave the right-hand side in place. */
  lemma ArtificialsKeepRhs(t: Matrix, m: nat, n: nat, rels: seq<Relation>)
    requires Shaped(t, m, n + m) && |rels| == m
    ensures var r := AddArtificials(t, m, n, rels);
      ColumnOf(r.tableau, r.n + m) == ColumnOf(t, n + m)
  {
    var a := Augmented(t, m, n, rels);
    AugmentedLayout(t, m, n, rels);
    assert AddArtificials(t, m, n, rels) == FormOf(a.0, a.1, rels);
    SameRhs(FormOf(a.0, a.1, rels).tableau, a.0, t, m, a.1 + m, n + m);
  }

  /** Phase 1 starts from `B_inv = I`: the basic block is an identity. */
  lemma PhaseOneBasisIsIdentity(t: Matrix, m: nat, n: nat, rels: seq<Relation>)
    requires Shaped(t, m, n + m) && |rels| == m
    requires UnitBlock(t, m, n)
    requires forall j :: n <= j < n + m ==> t[0][j] == 0.0
    ensures var r := AddArtificials(t, m, n, rels);
      UnitBlock(r.tableau, m, r.n) && IsBasisInverse(Identity(m), r.tableau, m, r.n + m, r.basics)
  {
    var r := AddArtificials(t, m, n, rels);
    var (t1, n1) := Augmented(t, m, n, rels);
    AugmentedBlock(t, m, n, rels);
    forall i, j | 1 <= i <= m && n1 <= j < n1 + m
      ensures r.tableau[i][j] == if j == n1 + i - 1 then 1.0 else 0.0
    {
      assert r.tableau[i] == r.tableau[1..][i - 1] == t1[1..][i - 1] == t1[i];
    }
    UnitBlockInverse(r.tableau, m, r.n);
  }

  /** The auxiliary objective row vanishes on every basic column, i.e. it is
      already expressed in reduced costs with respect to the starting basis. */
  lemma PhaseOneRowReduced(t: Matrix, m: nat, n: nat, rels: seq<Relation>)
    requires Shaped(t, m, n + m) && |rels| == m
    requires UnitBlock(t, m, n)
    requires forall j :: n <= j < n + m ==> t[0][j] == 0.0
    ensures var r := AddArtificials(t, m, n, rels);
      forall k :: 0 <= k < m ==> r.tableau[0][r.basics[k]] == 0.0
  {
    var (t1, n1) := Augmented(t, m, n, rels);
    var (basics, _) := InitialBasis(n1, m);
    var art := MarkedColumns(t1[0], basics);
    AugmentedBlock(t, m, n, rels);
    BlockMarks(art, basics, t1[0], n1, rels);
    assert Distinct(art);
    MarkedRowVanishes(t1, m, n1, art);
  }

  /** Over the identity block the row-0 entries are the markers `0` or `1`,
      and the marked basic columns are those carrying `1`. */
  lemma BlockMarks(art: seq<nat>, basics: seq<nat>, row0: Vector, n1: nat, rels: seq<Relation>)
    requires |basics| == |rels| && |row0| >= n1 + |rels|
    requires forall k :: 0 <= k < |basics| ==> basics[k] == n1 + k
    requires forall a :: a in art <==> a in basics && row0[a] == 1.0
    requires forall q :: 0 <= q < |rels| ==> row0[n1 + q] == if rels[q] == Le then 0.0 else 1.0
    ensures forall j :: n1 <= j < n1 + |rels| ==> row0[j] == 0.0 || row0[j] == 1.0
    ensures forall j :: n1 <= j < n1 + |rels| ==> (j in art <==> row0[j] == 1.0)
    ensures forall k :: 0 <= k < |art| ==> n1 <= art[k] < n1 + |rels|
  {
    forall j | n1 <= j < n1 + |rels| ensures row0[j] == 0.0 || row0[j] == 1.0 {
      assert row0[n1 + (j - n1)] == if rels[j - n1] == Le then 0.0 else 1.0;
    }
    forall k | 0 <= k < |art| ensures n1 <= art[k] < n1 + |rels| {
      assert art[k] in art;
      var k' :| 0 <= k' < |basics| && basics[k'] == art[k];
    }
    forall j | n1 <= j < n1 + |rels| ensures j in art <==> row0[j] == 1.0 {
      assert basics[j - n1] == j;
    }
  }

  /** Helper for `PhaseOneRowReduced`, stated over the augmented tableau:
      row 0 carries `1` exactly over the marked columns and `0` elsewhere in
      the identity block. */
  lemma MarkedRowVanishes(t1: Matrix, m: nat, n1: nat, art: seq<nat>)
    requires Shaped(t1, m, n1 + m) && UnitBlock(t1, m, n1)
    requires Distinct(art) && forall k :: 0 <= k < |art| ==> n1 <= art[k] < n1 + m
    requires forall j :: n1 <= j < n1 + m ==> t1[0][j] == 0.0 || t1[0][j] == 1.0
    requires forall j :: n1 <= j < n1 + m ==> (j in art <==> t1[0][j] == 1.0)
    ensures forall j :: n1 <= j < n1 + m ==> PhaseOneRow(t1, m, n1, art)[j] == 0.0
  {
    var row := PhaseOneRow(t1, m, n1, art);
    forall j | n1 <= j < n1 + m ensures row[j] == 0.0 {
      ColumnSumUnit(t1, m, n1, art, j - n1);
      assert row[j] == ColumnSum(t1, art, n1, j) - t1[0][j];
    }
  }
}

=== FILE: phase_two.dfy ===
/** The hand-over from phase 1 to phase 2 (`LpProblem.remove_artificials`
    and `LpProblem.remove_inconsistency`): the artificial columns are deleted
    from the tableau, the basis lists are renumbered to the remaining
    columns, and the saved objective row is put back in row 0 and reduced
    against the rows of the basic columns. */
module PhaseTwo {
  import opened Matrices
  import opened LpTypes
  import opened Basis
  import opened Tableau
  import opened Pivot

  /** How many of the columns in `art` lie below column `j`. */
  function Below(art: seq<nat>, j: nat): (c: nat)
    ensures c <= j
    decreases j
  {
    if j == 0 then 0 else Below(art, j - 1) + (if j - 1 in art then 1 else 0)
  }

  /** The index column `j` takes once the columns in `art` are deleted. */
  function Shift(art: seq<nat>, j: nat): nat {
    j - Below(art, j)
  }

  /** The columns `0 .. w-1` that survive the deletion, in increasing order. */
  function Kept(art: seq<nat>, w: nat): (ks: seq<nat>)
    ensures |ks| == w - Below(art, w)
    ensures forall k :: 0 <= k < |ks| ==> ks[k] < w && ks[k] !in art
    decreases w
  {
    if w == 0 then [] else Kept(art, w - 1) + (if w - 1 in art then [] else [w - 1])
  }

  /** The surviving columns are listed in increasing order, and the
      surviving column `j` sits at position `Shift(art, j)`. */
  lemma KeptPositions(art: seq<nat>, w: nat)
    ensures var ks := Kept(art, w);
      && (forall k, k' :: 0 <= k < k' < |ks| ==> ks[k] < ks[k'])
      && (forall j :: 0 <= j < w && j !in art ==> Shift(art, j) < |ks| && ks[Shift(art, j)] == j)
  {
    KeptIncreasing(art, w);
    forall j | 0 <= j < w && j !in art
      ensures Shift(art, j) < |Kept(art, w)| && Kept(art, w)[Shift(art, j)] == j
    {
      KeptAt(art, w, j);
    }
  }

  lemma {:induction false} KeptIncreasing(art: seq<nat>, w: nat)
    ensures forall k, k' :: 0 <= k < k' < |Kept(art, w)| ==> Kept(art, w)[k] < Kept(art, w)[k']
    decreases w
  {
    if w > 0 {
      KeptIncreasing(art, w - 1);
      var prev := Kept(art, w - 1);
      var ks := Kept(art, w);
      assert ks == prev + (if w - 1 in art then [] else [w - 1]);
      assert forall k :: 0 <= k < |prev| ==> ks[k] == prev[k];
    }
  }

  lemma {:induction false} KeptAt(art: seq<nat>, w: nat, j: nat)
    requires j < w && j !in art
    ensures Shift(art, j) < |Kept(art, w)| && Kept(art, w)[Shift(art, j)] == j
    decreases w
  {
    var prev := Kept(art, w - 1);
    assert Kept(art, w) == prev + (if w - 1 in art then [] else [w - 1]);
    if j < w - 1 {
      KeptAt(art, w - 1, j);
    }
  }

  /** Two surviving columns keep distinct indices. */
  lemma ShiftInjective(art: seq<nat>, w: nat, i: nat, j: nat)
    requires i < w && j < w && i !in art && j !in art
    ensures Shift(art, i) == Shift(art, j) <==> i == j
  {
    var ks := Kept(art, w);
    KeptPositions(art, w);
    assert ks[Shift(art, i)] == i && ks[Shift(art, j)] == j;
  }

  /** The renumbered list of distinct surviving columns is duplicate-free
      and lies below the new width. */
  lemma ShiftedDistinct(s: seq<nat>, art: seq<nat>, w: nat)
    requires Distinct(s) && forall k :: 0 <= k < |s| ==> s[k] < w && s[k] !in art
    ensures var r := seq(|s|, k requires 0 <= k < |s| => Shift(art, s[k]));
      Distinct(r) && forall k :: 0 <= k < |r| ==> r[k] < w - Below(art, w)
  {
    KeptPositions(art, w);
    forall k, k' | 0 <= k < k' < |s| ensures Shift(art, s[k]) != Shift(art, s[k']) {
      ShiftInjective(art, w, s[k], s[k']);
    }
  }

  /** Every index of the narrowed tableau is the new index of a surviving
      column. */
  lemma ShiftOnto(art: seq<nat>, w: nat, k: nat) returns (j: nat)
    requires k < w - Below(art, w)
    ensures j < w && j !in art && Shift(art, j) == k
  {
    var ks := Kept(art, w);
    KeptPositions(art, w);
    j := ks[k];
  }

  /** `np.delete(t, art, axis=1)` for a matrix whose rows have `w` entries. */
  function DeleteColumns(t: Matrix, art: seq<nat>, w: nat): (t': Matrix)
    requires forall i :: 0 <= i < |t| ==> |t[i]| == w
    ensures IsMatrix(t', |t|, w - Below(art, w))
    ensures forall j :: 0 <= j < w && j !in art ==> Shift(art, j) < w - Below(art, w)
    ensures forall i, j :: 0 <= i < |t| && 0 <= j < w && j !in art ==> t'[i][Shift(art, j)] == t[i][j]
  {
    var ks := Kept(art, w);
    KeptPositions(art, w);
    seq(|t|, i requires 0 <= i < |t| => seq(|ks|, k requires 0 <= k < |ks| => t[i][ks[k]]))
  }

  /** The entries of `s` that are not in `art`, in order. */
  function Without(s: seq<nat>, art: seq<nat>): (r: seq<nat>)
    ensures forall x :: x in r <==> x in s && x !in art
    ensures Distinct(s) ==> Distinct(r)
    decreases |s|
  {
    if |s| == 0 then []
    else
      var rest := Without(s[1..], art);
      assert forall x :: x in s <==> x == s[0] || x in s[1..];
      if s[0] in art then rest else [s[0]] + rest
  }

  /** The basis lists once the artificial columns are gone: `None` when an
      artificial column is still basic (the source then fails on
      `nonbasics[i]`), otherwise both lists renumbered with `Shift`, the
      artificial columns dropped from the nonbasic list. */
  function RenumberBasis(basics: seq<nat>, nonbasics: seq<nat>, art: seq<nat>): (r: Option<(seq<nat>, seq<nat>)>)
    ensures r.None? <==> exists k :: 0 <= k < |basics| && basics[k] in art
    ensures r.Some? ==> |r.value.0| == |basics|
  {
    if exists k :: 0 <= k < |basics| && basics[k] in art then None
    else
      var kept := Without(nonbasics, art);
      Some((seq(|basics|, k requires 0 <= k < |basics| => Shift(art, basics[k])),
            seq(|kept|, k requires 0 <= k < |kept| => Shift(art, kept[k]))))
  }

  /** A surviving column is in the renumbered list exactly when it was in
      the original one. */
  lemma ShiftedMembers(s: seq<nat>, art: seq<nat>, w: nat)
    requires forall k :: 0 <= k < |s| ==> s[k] < w && s[k] !in art
    ensures var r := seq(|s|, k requires 0 <= k < |s| => Shift(art, s[k]));
      forall j :: 0 <= j < w && j !in art ==> (Shift(art, j) in r <==> j in s)
  {
    var r := seq(|s|, k requires 0 <= k < |s| => Shift(art, s[k]));
    forall j | 0 <= j < w && j !in art ensures Shift(art, j) in r <==> j in s {
      if j in s {
        var k :| 0 <= k < |s| && s[k] == j;
        assert r[k] == Shift(art, j);
      }
      if Shift(art, j) in r {
        var k :| 0 <= k < |r| && r[k] == Shift(art, j);
        ShiftInjective(art, w, s[k], j);
      }
    }
  }

  /** Renumbering keeps the basis a partition of the remaining columns, and
      each basic column keeps its row. */
  lemma RenumberKeepsPartition(basics: seq<nat>, nonbasics: seq<nat>, width: nat, art: seq<nat>)
    requires Partition(basics, nonbasics, width)
    requires RenumberBasis(basics, nonbasics, art).Some?
    ensures var (b, nb) := RenumberBasis(basics, nonbasics, art).value;
      && Partition(b, nb, width - Below(art, width))
      && (forall k :: 0 <= k < |basics| ==> b[k] == Shift(art, basics[k]))
      && (forall j :: 0 <= j < width && j !in art ==> (j in nonbasics <==> Shift(art, j) in nb))
  {
    var (b, nb) := RenumberBasis(basics, nonbasics, art).value;
    var kept := Without(nonbasics, art);
    assert forall k :: 0 <= k < |basics| ==> basics[k] < width && basics[k] !in art by {
      forall k | 0 <= k < |basics| ensures basics[k] < width && basics[k] !in art {
        assert basics[k] in basics;
      }
    }
    assert forall k :: 0 <= k < |kept| ==> kept[k] < width && kept[k] !in art by {
      forall k | 0 <= k < |kept| ensures kept[k] < width && kept[k] !in art {
        assert kept[k] in kept;
      }
    }
    ShiftedDistinct(basics, art, width);
    ShiftedDistinct(kept, art, width);
    ShiftedMembers(basics, art, width);
    ShiftedMembers(kept, art, width);
    CoverAfterShift(b, nb, basics, kept, art, width);
  }

  lemma CoverAfterShift(b: seq<nat>, nb: seq<nat>, basics: seq<nat>, kept: seq<nat>, art: seq<nat>, width: nat)
    requires forall j :: 0 <= j < width && j !in art ==> (j in basics || j in kept)
    requires forall j :: 0 <= j < width && j !in art ==> (Shift(art, j) in b <==> j in basics)
    requires forall j :: 0 <= j < width && j !in art ==> (Shift(art, j) in nb <==> j in kept)
    ensures forall x :: 0 <= x < width - Below(art, width) ==> x in b || x in nb
  {
    forall x | 0 <= x < width - Below(art, width) ensures x in b || x in nb {
      var j := ShiftOnto(art, width, x);
    }
  }

  /** The tableau and basis lists after `remove_artificials`, or the failure
      when an artificial column is still basic. */
  datatype Removal =
    | Removed(tableau: Matrix, width: nat, basics: seq<nat>, nonbasics: seq<nat>)
    | ArtificialBasic

  /** The right-hand-side column is never among the deleted ones. */
  lemma BelowPastWidth(art: seq<nat>, width: nat)
    requires forall k :: 0 <= k < |art| ==> art[k] < width
    ensures Below(art, width + 1) == Below(art, width)
    ensures width !in art
  {
  }

  /** `remove_artificials`: the artificial columns are deleted and the basis
      lists follow the columns to their new indices. */
  function RemoveArtificials(t: Matrix, m: nat, width: nat, basics: seq<nat>, nonbasics: seq<nat>,
                             art: seq<nat>): (r: Removal)
    requires Shaped(t, m, width)
    requires forall k :: 0 <= k < |art| ==> art[k] < width
    ensures r.ArtificialBasic? <==> exists k :: 0 <= k < |basics| && basics[k] in art
    ensures r.Removed? ==> r.width == width - Below(art, width) && Shaped(r.tableau, m, r.width)
    // every surviving column, the right-hand side included, keeps its entries
    ensures r.Removed? ==> forall i, j :: 0 <= i <= m && 0 <= j <= width && j !in art ==>
      Shift(art, j) <= r.width && r.tableau[i][Shift(art, j)] == t[i][j]
    ensures r.Removed? ==> Shift(art, width) == r.width
    ensures r.Removed? ==> Some((r.basics, r.nonbasics)) == RenumberBasis(basics, nonbasics, art)
  {
    match RenumberBasis(basics, nonbasics, art)
    case None => ArtificialBasic
    case Some((b, nb)) =>
      BelowPastWidth(art, width);
      Removed(DeleteColumns(t, art, width + 1), width - Below(art, width), b, nb)
  }

  /** Deleting non-basic columns keeps the revised method's invariant: the
      renumbered lists partition the narrowed tableau, the basis inverse
      still inverts the (unchanged) basis columns, and the right-hand side
      is unchanged. */
  lemma RemovalKeepsBasis(t: Matrix, m: nat, width: nat, basics: seq<nat>, nonbasics: seq<nat>,
                          art: seq<nat>, binv: Matrix)
    requires Shaped(t, m, width) && forall k :: 0 <= k < |art| ==> art[k] < width
    requires Partition(basics, nonbasics, width) && IsBasisInverse(binv, t, m, width, basics)
    requires RemoveArtificials(t, m, width, basics, nonbasics, art).Removed?
    ensures var r := RemoveArtificials(t, m, width, basics, nonbasics, art);
      && Partition(r.basics, r.nonbasics, r.width)
      && IsBasisInverse(binv, r.tableau, m, r.width, r.basics)
      && ColumnOf(r.tableau, r.width) == ColumnOf(t, width)
  {
    var r := RemoveArtificials(t, m, width, basics, nonbasics, art);
    var b := r.basics;
    RenumberKeepsPartition(basics, nonbasics, width, art);
    assert Partition(b, r.nonbasics, r.width);
    SurvivingColumns(t, r.tableau, m, width, r.width, art);
    forall k | 0 <= k < m ensures basics[k] !in art && b[k] == Shift(art, basics[k]) && b[k] < r.width {
      assert basics[k] in basics && b[k] in b;
    }
    InverseAfterRenumber(binv, t, r.tableau, m, width, r.width, basics, b, art);
  }

  /** Column `j` of the old tableau is column `Shift(art, j)` of the new one. */
  lemma SurvivingColumns(t: Matrix, t2: Matrix, m: nat, width: nat, width2: nat, art: seq<nat>)
    requires Shaped(t, m, width) && Shaped(t2, m, width2)
    requires forall i, j :: 0 <= i <= m && 0 <= j <= width && j !in art ==>
      Shift(art, j) <= width2 && t2[i][Shift(art, j)] == t[i][j]
    ensures forall j :: 0 <= j <= width && j !in art ==>
      Shift(art, j) <= width2 && ColumnOf(t2, Shift(art, j)) == ColumnOf(t, j)
  {
    forall j | 0 <= j <= width && j !in art
      ensures Shift(art, j) <= width2 && ColumnOf(t2, Shift(art, j)) == ColumnOf(t, j)
    {
      var c2, c := ColumnOf(t2, Shift(art, j)), ColumnOf(t, j);
      forall i | 0 <= i < m ensures c2[i] == c[i] {
        assert t2[i + 1][Shift(art, j)] == t[i + 1][j];
      }
      assert Shift(art, j) <= width2 by {
        assert t2[0][Shift(art, j)] == t[0][j];
      }
      assert |c2| == |c|;
      assert c2 == c;
    }
  }

  lemma InverseAfterRenumber(binv: Matrix, t: Matrix, t2: Matrix, m: nat, width: nat, width2: nat,
                             basics: seq<nat>, b: seq<nat>, art: seq<nat>)
    requires Shaped(t, m, width) && Shaped(t2, m, width2) && IsBasisInverse(binv, t, m, width, basics)
    requires |b| == m && forall k :: 0 <= k < m ==> basics[k] !in art && b[k] == Shift(art, basics[k]) && b[k] < width2
    requires forall j :: 0 <= j <= width && j !in art ==>
      Shift(art, j) <= width2 && ColumnOf(t2, Shift(art, j)) == ColumnOf(t, j)
    ensures IsBasisInverse(binv, t2, m, width2, b)
  {
    forall k | 0 <= k < m ensures MatVec(binv, ColumnOf(t2, b[k])) == Unit(m, k) {
      assert ColumnOf(t2, b[k]) == ColumnOf(t, basics[k]);
    }
  }

  /** `basics.index(x)`: the first position holding `x`. */
  function IndexOf(s: seq<int>, x: int): (i: nat)
    requires x in s
    ensures i < |s| && s[i] == x
    ensures forall k :: 0 <= k < i ==> s[k] != x
    decreases |s|
  {
    if s[0] == x then 0 else 1 + IndexOf(s[1..], x)
  }

  /** The second loop of `remove_artificials`, from position `k` on: a basic
      column above any artificial one is lowered by the total `count` of
      artificial columns, and the entry lowered is the first one holding
      that value (`basics.index(basic)`). */
  function ShiftAsWritten(cur: seq<int>, k: nat, art: seq<nat>, count: nat): (r: seq<int>)
    requires k <= |cur|
    ensures |r| == |cur|
    // entries are only ever lowered
    ensures forall i :: 0 <= i < |cur| ==> r[i] <= cur[i]
    // nothing changes when no artificial column lies below the basics still to visit
    ensures (forall i, a :: k <= i < |cur| && 0 <= a < |art| ==> cur[i] <= art[a]) ==> r == cur
    decreases |cur| - k
  {
    if k == |cur| then cur
    else
      var b := cur[k];
      if exists a :: 0 <= a < |art| && art[a] < b then
        ShiftAsWritten(cur[IndexOf(cur, b) := b - count], k + 1, art, count)
      else ShiftAsWritten(cur, k + 1, art, count)
  }

  /** `remove_artificials` on the basis lists, as written. A basic
      artificial column `i` makes the source read `nonbasics[i]`, past the
      end of that list (every artificial index is at least its length);
      otherwise the basics are lowered as above and the nonbasic list is
      left as it was. */
  function RenumberBasisAsWritten(basics: seq<nat>, nonbasics: seq<nat>, art: seq<nat>, count: nat)
    : (r: Option<(seq<int>, seq<nat>)>)
    requires forall k :: 0 <= k < |art| ==> art[k] >= |nonbasics|
    ensures r.None? <==> exists k :: 0 <= k < |basics| && basics[k] in art
    ensures r.Some? ==> |r.value.0| == |basics| && r.value.1 == nonbasics
  {
    if exists k :: 0 <= k < |basics| && basics[k] in art then None
    else Some((ShiftAsWritten(basics, 0, art, count), nonbasics))
  }

  /** Three constraint rows, the middle one `<=` and the others `==`, with
      artificial columns 2 and 4 and the slack column 3 basic in row 1. The
      source lowers column 3 by both artificials to 1, which is also the
      basic of row 2, and leaves the deleted column 4 in the nonbasic list
      although the narrowed tableau has only 3 variable columns. */
  lemma RenumberAsWrittenCollides()
    ensures Partition([0, 3, 1], [2, 4], 5)
    ensures RenumberBasisAsWritten([0, 3, 1], [2, 4], [2, 4], 2) == Some(([0, 1, 1], [2, 4]))
    ensures 5 - Below([2, 4], 5) == 3
  {
    ExampleBasis();
    ExampleBelow();
    ShiftAsWrittenExample();
    assert !exists k :: 0 <= k < 3 && [0, 3, 1][k] in [2, 4];
  }

  /** One `==` row, maximise `x` subject to `2x == 4`: phase 1 ends with `x`
      basic and the artificial column 1 nonbasic. The source keeps the
      nonbasic list `[1]`, and after the deletion index 1 is the
      right-hand-side column of the narrowed tableau, which `_c_n` and `_A`
      then read as a variable column. */
  lemma RenumberAsWrittenNamesRhs()
    ensures Partition([0], [1], 2)
    ensures RenumberBasisAsWritten([0], [1], [1], 1) == Some(([0], [1]))
    ensures 2 - Below([1], 2) == 1
  {
    assert Below([1], 1) == 0;
    assert !exists k :: 0 <= k < 1 && [0][k] in [1];
    assert ShiftAsWritten([0], 0, [1], 1) == [0];
  }

  lemma ExampleBasis()
    ensures Partition([0, 3, 1], [2, 4], 5)
  {
    var b: seq<nat>, nb: seq<nat> := [0, 3, 1], [2, 4];
    assert forall j :: j in b <==> j == 0 || j == 3 || j == 1;
    assert forall j :: j in nb <==> j == 2 || j == 4;
  }

  lemma ExampleBelow()
    ensures Below([2, 4], 1) == 0 && Below([2, 4], 3) == 1 && Below([2, 4], 5) == 2
  {
    var art: seq<nat> := [2, 4];
    assert 0 !in art && 1 !in art && 2 in art && 3 !in art && 4 in art;
  }

  lemma ShiftAsWrittenExample()
    ensures ShiftAsWritten([0, 3, 1], 0, [2, 4], 2) == [0, 1, 1]
  {
    ShiftAsWrittenFirst();
    ShiftAsWrittenSecond();
    ShiftAsWrittenThird();
  }

  lemma ShiftAsWrittenFirst()
    ensures ShiftAsWritten([0, 3, 1], 0, [2, 4], 2) == ShiftAsWritten([0, 3, 1], 1, [2, 4], 2)
  {
    var art: seq<nat> := [2, 4];
    assert !exists a :: 0 <= a < 2 && art[a] < 0;
  }

  lemma ShiftAsWrittenSecond()
    ensures ShiftAsWritten([0, 3, 1], 1, [2, 4], 2) == ShiftAsWritten([0, 1, 1], 2, [2, 4], 2)
  {
    var art: seq<nat> := [2, 4];
    assert IndexOf([0, 3, 1], 3) == 1;
    assert art[0] < 3;
    assert [0, 3, 1][1 := 3 - 2] == [0, 1, 1];
  }

  lemma ShiftAsWrittenThird()
    ensures ShiftAsWritten([0, 1, 1], 2, [2, 4], 2) == [0, 1, 1]
  {
    var art: seq<nat> := [2, 4];
    assert !exists a :: 0 <= a < 2 && art[a] < 1;
    assert ShiftAsWritten([0, 1, 1], 2, art, 2) == ShiftAsWritten([0, 1, 1], 3, art, 2);
  }

  /** What `remove_inconsistency` leaves behind. */
  datatype Repair =
    | Repaired(row: Vector)   // it returns True and row 0 holds `row`
    | Inconsistent            // it returns False: a ratio was `+inf`
    | NonFinite               // a ratio was `-inf` or NaN: the source carries on with a non-finite row
    | Misshapen               // numpy cannot assign the saved row to row 0

  /** The saved objective row as it is assigned to a row of `len` entries:
      `obj[:-sense_equals]` when there are equality rows, else `obj`; a
      one-entry row is broadcast, any other length mismatch is an error. */
  function SavedRow(obj: Vector, senseEquals: nat, len: nat): (r: Option<Vector>)
    ensures r.Some? ==> |r.value| == len
    ensures senseEquals == 0 && |obj| == len ==> r == Some(obj)
    ensures 0 < senseEquals <= |obj| && |obj| - senseEquals == len ==> r == Some(obj[..len])
  {
    var row := if senseEquals == 0 then obj
      else if senseEquals <= |obj| then obj[..|obj| - senseEquals]
      else [];
    if |row| == len then Some(row)
    else if |row| == 1 then Some(seq(len, _ => row[0]))
    else None
  }

  /** Every basic column from the `k`-th on has a nonzero entry in the row
      that `remove_inconsistency` divides by for it. */
  predicate PivotsNonZero(t: Matrix, m: nat, width: nat, basics: seq<nat>, k: nat)
    requires Shaped(t, m, width) && |basics| == m && k <= m
    requires forall i :: 0 <= i < m ==> basics[i] < width
  {
    forall j :: k <= j < m ==> t[IndexOf(basics, basics[j]) + 1][basics[j]] != 0.0
  }

  /** The loop of `remove_inconsistency` from the `k`-th basic column on:
      row 0 loses the multiple of the basic column's row that zeroes its
      entry in that column, as long as the ratio is finite. */
  function Eliminate(row: Vector, t: Matrix, m: nat, width: nat, basics: seq<nat>, k: nat): (r: Repair)
    requires Shaped(t, m, width) && |row| == width + 1 && |basics| == m && k <= m
    requires forall i :: 0 <= i < m ==> basics[i] < width
    ensures r.Repaired? ==> |r.row| == width + 1
    ensures !r.Misshapen?
    // every ratio is finite exactly when no divisor is zero; a zero divisor
    // ends the loop with `False` (+inf) or a non-finite ratio
    ensures r.Repaired? <==> PivotsNonZero(t, m, width, basics, k)
    decreases m - k
  {
    if k == m then Repaired(row)
    else
      var b := basics[k];
      var i := IndexOf(basics, b);
      match Quotient(row[b], t[i + 1][b])
      case PosInf => Inconsistent
      case Finite(f) => Eliminate(Sub(row, Scale(f, t[i + 1])), t, m, width, basics, k + 1)
      case _ => NonFinite
  }

  /** `remove_inconsistency(obj)`: the saved row goes into row 0 and is
      reduced against the basic rows. */
  function RemoveInconsistency(t: Matrix, m: nat, width: nat, basics: seq<nat>, obj: Vector,
                               senseEquals: nat): (r: Repair)
    requires Shaped(t, m, width) && |basics| == m
    requires forall i :: 0 <= i < m ==> basics[i] < width
    ensures r.Misshapen? <==> SavedRow(obj, senseEquals, width + 1).None?
    ensures r.Repaired? ==> |r.row| == width + 1
    ensures r.Repaired? <==>
      SavedRow(obj, senseEquals, width + 1).Some? && PivotsNonZero(t, m, width, basics, 0)
    ensures r.Inconsistent? ==> !PivotsNonZero(t, m, width, basics, 0)
  {
    match SavedRow(obj, senseEquals, width + 1)
    case None => Misshapen
    case Some(row) => Eliminate(row, t, m, width, basics, 0)
  }

  /** A row read as an affine function of a point `x`: its coefficients
      times `x`, minus its last (right-hand-side) entry. For a constraint
      row, the value is 0 exactly when `x` satisfies it with equality. */
  function Value(row: Vector, x: Vector): real
    requires |row| == |x| + 1
  {
    Dot(row[..|x|], x) - row[|x|]
  }

  /** `x` satisfies every constraint row of the tableau with equality. */
  predicate Solves(t: Matrix, m: nat, width: nat, x: Vector)
    requires Shaped(t, m, width) && |x| == width
  {
    forall i :: 1 <= i <= m ==> Value(t[i], x) == 0.0
  }

  /** Subtracting a multiple of a row subtracts the same multiple of its value. */
  lemma ValueOfCombination(row: Vector, p: Vector, f: real, x: Vector)
    requires |row| == |p| == |x| + 1
    ensures Value(Sub(row, Scale(f, p)), x) == Value(row, x) - f * Value(p, x)
  {
    var w := |x|;
    var q := Sub(row, Scale(f, p));
    CombinationPrefix(row, p, f, w);
    DotSub(row[..w], Scale(f, p[..w]), x);
    DotScale(f, p[..w], x);
    assert q[w] == row[w] - f * p[w];
    ValueAlgebra(Dot(row[..w], x), Dot(p[..w], x), row[w], p[w], f);
  }

  /** Subtracting a multiple of a row that vanishes at `x` keeps the value at `x`. */
  lemma CombinationKeepsValue(row: Vector, p: Vector, f: real, x: Vector)
    requires |row| == |p| == |x| + 1 && Value(p, x) == 0.0
    ensures Value(Sub(row, Scale(f, p)), x) == Value(row, x)
  {
    ValueOfCombination(row, p, f, x);
  }

  lemma SolvedRow(t: Matrix, m: nat, width: nat, x: Vector, i: nat)
    requires Shaped(t, m, width) && |x| == width && Solves(t, m, width, x) && i < m
    ensures Value(t[i + 1], x) == 0.0
  {
  }

  lemma CombinationPrefix(row: Vector, p: Vector, f: real, w: nat)
    requires |row| == |p| && w <= |row|
    ensures Sub(row, Scale(f, p))[..w] == Sub(row[..w], Scale(f, p[..w]))
  {
    var lhs := Sub(row, Scale(f, p))[..w];
    var rhs := Sub(row[..w], Scale(f, p[..w]));
    assert |lhs| == w == |rhs|;
    forall k | 0 <= k < w ensures lhs[k] == rhs[k] {
      assert lhs[k] == row[k] - f * p[k];
    }
  }

  lemma ValueAlgebra(a: real, b: real, r: real, s: real, f: real)
    ensures (a - f * b) - (r - f * s) == (a - r) - f * (b - s)
  {
  }

  /** The repair subtracts multiples of constraint rows only, so on every
      point that solves the constraints the repaired row takes the same
      value as the saved objective row. */
  lemma {:induction false} EliminateKeepsValue(row: Vector, t: Matrix, m: nat, width: nat, basics: seq<nat>,
                                               k: nat, x: Vector)
    requires Shaped(t, m, width) && |row| == width + 1 && |basics| == m && k <= m
    requires forall i :: 0 <= i < m ==> basics[i] < width
    requires |x| == width && Solves(t, m, width, x)
    ensures var r := Eliminate(row, t, m, width, basics, k); r.Repaired? ==> Value(r.row, x) == Value(row, x)
    decreases m - k
  {
    if k < m {
      var b := basics[k];
      var i := IndexOf(basics, b);
      var q := Quotient(row[b], t[i + 1][b]);
      if q.Finite? {
        var p := t[i + 1];
        var row' := Sub(row, Scale(q.value, p));
        EliminateStep(row, t, m, width, basics, k);
        EliminateKeepsValue(row', t, m, width, basics, k + 1, x);
        SolvedRow(t, m, width, x, i);
        CombinationKeepsValue(row, p, q.value, x);
      }
    }
  }

  /** One step of the repair: a finite quotient reduces the row against
      the `k`-th basic row and moves on to `k + 1`. */
  lemma EliminateStep(row: Vector, t: Matrix, m: nat, width: nat, basics: seq<nat>, k: nat)
    requires Shaped(t, m, width) && |row| == width + 1 && |basics| == m && k < m
    requires forall i :: 0 <= i < m ==> basics[i] < width
    ensures var i := IndexOf(basics, basics[k]);
      var q := Quotient(row[basics[k]], t[i + 1][basics[k]]);
      q.Finite? ==>
        Eliminate(row, t, m, width, basics, k) == Eliminate(Sub(row, Scale(q.value, t[i + 1])), t, m, width, basics, k + 1)
  {
  }

  /** Reducing against a row that is 1 in basic column `k` and 0 in the other
      basic columns clears column `k` and keeps the earlier zeros. */
  lemma ZeroesKept(row: Vector, p: Vector, basics: seq<nat>, k: nat)
    requires |row| == |p| && k < |basics|
    requires forall i :: 0 <= i < |basics| ==> basics[i] < |row|
    requires forall i :: 0 <= i < |basics| ==> p[basics[i]] == if i == k then 1.0 else 0.0
    requires forall i :: 0 <= i < k ==> row[basics[i]] == 0.0
    ensures var row' := Sub(row, Scale(row[basics[k]], p));
      forall i :: 0 <= i <= k ==> row'[basics[i]] == 0.0
  {
    var row' := Sub(row, Scale(row[basics[k]], p));
    forall i | 0 <= i <= k ensures row'[basics[i]] == 0.0 {
      assert row'[basics[i]] == row[basics[i]] - row[basics[k]] * p[basics[i]];
    }
  }

  /** `basics.index(basics[k]) == k` for a duplicate-free list. */
  lemma IndexOfDistinct(s: seq<nat>, k: nat)
    requires Distinct(s) && k < |s|
    ensures IndexOf(s, s[k]) == k
  {
  }

  /** With the basic columns an identity in row order, row `k + 1` has a 1
      in the `k`-th basic column and 0 in every other basic column. */
  lemma UnitRow(t: Matrix, m: nat, width: nat, basics: seq<nat>, k: nat)
    requires Shaped(t, m, width) && |basics| == m && k < m
    requires forall i :: 0 <= i < m ==> basics[i] < width
    requires forall i :: 0 <= i < m ==> ColumnOf(t, basics[i]) == Unit(m, i)
    ensures forall i :: 0 <= i < m ==> t[k + 1][basics[i]] == if i == k then 1.0 else 0.0
  {
    forall i | 0 <= i < m ensures t[k + 1][basics[i]] == if i == k then 1.0 else 0.0 {
      assert t[k + 1][basics[i]] == ColumnOf(t, basics[i])[k];
    }
  }

  /** When the basic columns of the constraint rows form an identity in row
      order, the repair always succeeds and leaves row 0 zero on every basic
      column: the row is then in reduced-cost form for that basis. */
  lemma {:induction false} UnitBasisRepairs(row: Vector, t: Matrix, m: nat, width: nat, basics: seq<nat>, k: nat)
    requires Shaped(t, m, width) && |row| == width + 1 && |basics| == m && k <= m
    requires forall i :: 0 <= i < m ==> basics[i] < width
    requires Distinct(basics)
    requires forall i :: 0 <= i < m ==> ColumnOf(t, basics[i]) == Unit(m, i)
    requires forall i :: 0 <= i < k ==> row[basics[i]] == 0.0
    ensures var r := Eliminate(row, t, m, width, basics, k);
      r.Repaired? && forall i :: 0 <= i < m ==> r.row[basics[i]] == 0.0
    decreases m - k
  {
    if k < m {
      var b := basics[k];
      IndexOfDistinct(basics, k);
      UnitRow(t, m, width, basics, k);
      var p := t[k + 1];
      assert Quotient(row[b], p[b]) == Finite(row[b]);
      var row' := Sub(row, Scale(row[b], p));
      EliminateStep(row, t, m, width, basics, k);
      ZeroesKept(row, p, basics, k);
      UnitBasisRepairs(row', t, m, width, basics, k + 1);
    }
  }
}

=== FILE: pivot.dfy ===
/** One pivot of the revised simplex method (`LpProblem._simplex`): the
    entering column by Dantzig's rule, the leaving row by the minimum-ratio
    test, and the update of the basis inverse by an elementary (eta) matrix. */
module Pivot {
  import opened Matrices
  import opened LpTypes

  /** `np.argmax`: the first index holding the largest entry. */
  function ArgMax(v: Vector): (k: nat)
    requires |v| > 0
    ensures k < |v|
    ensures forall i :: 0 <= i < |v| ==> v[i] <= v[k]
    ensures forall i :: 0 <= i < k ==> v[i] < v[k]
    decreases |v|
  {
    if |v| == 1 then 0
    else
      var k := ArgMax(v[..|v| - 1]);
      assert forall i :: 0 <= i < |v| - 1 ==> v[..|v| - 1][i] == v[i];
      if v[|v| - 1] > v[k] then |v| - 1 else k
  }

  /** Row `i` limits the entering step: its entry in the entering column is
      positive and its basic value is non-negative. */
  predicate Candidate(xb: Vector, d: Vector, i: nat)
    requires |xb| == |d| && i < |d|
  {
    d[i] > 0.0 && xb[i] >= 0.0
  }

  /** The minimum-ratio test: among the candidate rows, the first one with the
      smallest ratio `xb[i] / d[i]`; `None` when no row limits the step. */
  function LeavingRow(xb: Vector, d: Vector): (r: Option<nat>)
    requires |xb| == |d|
    ensures r.None? <==> forall i :: 0 <= i < |d| ==> !Candidate(xb, d, i)
    ensures r.Some? ==> r.value < |d| && Candidate(xb, d, r.value)
    ensures r.Some? ==> forall i :: 0 <= i < |d| && Candidate(xb, d, i) ==>
      xb[r.value] / d[r.value] <= xb[i] / d[i]
    ensures r.Some? ==> forall i :: 0 <= i < r.value && Candidate(xb, d, i) ==>
      xb[r.value] / d[r.value] < xb[i] / d[i]
    decreases |d|
  {
    if |d| == 0 then None
    else
      var k := |d| - 1;
      var prev := LeavingRow(xb[..k], d[..k]);
      assert forall i :: 0 <= i < k ==> xb[..k][i] == xb[i] && d[..k][i] == d[i];
      assert forall i :: 0 <= i < k ==> (Candidate(xb[..k], d[..k], i) <==> Candidate(xb, d, i));
      if !Candidate(xb, d, k) then prev
      else if prev.None? then Some(k)
      else if xb[k] / d[k] < xb[prev.value] / d[prev.value] then Some(k)
      else prev
  }

  /** When no row limits the step and the basic values are non-negative, the
      entering variable can grow without bound: every point of the ray
      `xb - s·d`, `s >= 0`, keeps the basic values non-negative. */
  lemma UnboundedRay(xb: Vector, d: Vector, s: real)
    requires |xb| == |d| && LeavingRow(xb, d).None? && s >= 0.0
    requires forall i :: 0 <= i < |xb| ==> xb[i] >= 0.0
    ensures forall i :: 0 <= i < |d| ==> xb[i] - s * d[i] >= 0.0
  {
    forall i | 0 <= i < |d| ensures xb[i] - s * d[i] >= 0.0 {
      assert !Candidate(xb, d, i);
      assert d[i] <= 0.0;
      assert s * d[i] <= 0.0;
    }
  }

  /** The elementary matrix `E`: the identity with column `r` replaced by
      `-d / d[r]`, whose entry `r` is `1 / d[r]`. */
  function Eta(d: Vector, r: nat): (e: Matrix)
    requires r < |d| && d[r] != 0.0
    ensures IsMatrix(e, |d|, |d|)
    // `E` differs from the identity in column `r` only
    ensures forall i, j :: 0 <= i < |d| && 0 <= j < |d| && j != r ==>
      e[i][j] == if i == j then 1.0 else 0.0
    // and that column times the pivot is `e_r - d` off the pivot row, 1 on it
    ensures e[r][r] * d[r] == 1.0
    ensures forall i :: 0 <= i < |d| && i != r ==> e[i][r] * d[r] == -d[i]
  {
    seq(|d|, i requires 0 <= i < |d| =>
      seq(|d|, j requires 0 <= j < |d| =>
        if j == r then (if i == r then 1.0 / d[r] else -(d[i] / d[r]))
        else if i == j then 1.0 else 0.0))
  }

  /** The effect of `E` on a vector `u`: row `r` is divided by the pivot and
      `d[i] / d[r]` times it is taken off every other row. */
  function EtaApply(d: Vector, r: nat, u: Vector): (v: Vector)
    requires r < |d| && d[r] != 0.0 && |u| == |d|
    ensures |v| == |d|
  {
    seq(|d|, i requires 0 <= i < |d| =>
      if i == r then (1.0 / d[r]) * u[r] else u[i] - (d[i] / d[r]) * u[r])
  }

  /** Entry `(i, j)` of `E · x`. */
  lemma EtaEntry(d: Vector, r: nat, x: Matrix, cols: nat, i: nat, j: nat)
    requires r < |d| && d[r] != 0.0 && IsMatrix(x, |d|, cols) && i < |d| && j < cols
    ensures Dot(Eta(d, r)[i], Col(x, j)) ==
      if i == r then (1.0 / d[r]) * x[r][j] else x[i][j] - (d[i] / d[r]) * x[r][j]
  {
    var e := Eta(d, r)[i];
    if i == r {
      DotSingle(e, Col(x, j), r);
    } else {
      DotTwo(e, Col(x, j), i, r);
    }
  }

  /** Row `i` of `E · x`. */
  lemma EtaRow(d: Vector, r: nat, x: Matrix, cols: nat, i: nat)
    requires r < |d| && d[r] != 0.0 && IsMatrix(x, |d|, cols) && i < |d|
    ensures MatMul(Eta(d, r), x, cols)[i] == EtaRowValue(d, r, x, i)
  {
    var row := MatMul(Eta(d, r), x, cols)[i];
    var want := EtaRowValue(d, r, x, i);
    forall j | 0 <= j < cols ensures row[j] == want[j] {
      EtaEntry(d, r, x, cols, i, j);
    }
  }

  /** `(E · x) · u == E · (x · u)`, with `E · _` written out as `EtaApply`. */
  lemma EtaProduct(d: Vector, r: nat, x: Matrix, u: Vector)
    requires r < |d| && d[r] != 0.0 && IsMatrix(x, |d|, |u|)
    ensures MatVec(MatMul(Eta(d, r), x, |u|), u) == EtaApply(d, r, MatVec(x, u))
  {
    var p := MatMul(Eta(d, r), x, |u|);
    forall i | 0 <= i < |d| ensures p[i] == EtaRowValue(d, r, x, i) {
      EtaRow(d, r, x, |u|, i);
    }
    RowOperationProduct(d, r, x, p, u);
  }

  /** Row `i` of `E · x`: the pivot row is divided by the pivot, the others
      lose `d[i] / d[r]` times the pivot row. */
  function EtaRowValue(d: Vector, r: nat, x: Matrix, i: nat): Vector
    requires r < |d| && d[r] != 0.0 && |x| == |d| && i < |d|
    requires forall k :: 0 <= k < |x| ==> |x[k]| == |x[r]|
  {
    if i == r then Scale(1.0 / d[r], x[r]) else Sub(x[i], Scale(d[i] / d[r], x[r]))
  }

  /** A matrix whose rows are the eta row operations applied to `x` sends `u`
      to the eta update of `x · u`. */
  lemma RowOperationProduct(d: Vector, r: nat, x: Matrix, p: Matrix, u: Vector)
    requires r < |d| && d[r] != 0.0 && IsMatrix(x, |d|, |u|) && IsMatrix(p, |d|, |u|)
    requires forall i :: 0 <= i < |d| ==> p[i] == EtaRowValue(d, r, x, i)
    ensures MatVec(p, u) == EtaApply(d, r, MatVec(x, u))
  {
    forall i | 0 <= i < |d| ensures MatVec(p, u)[i] == EtaApply(d, r, MatVec(x, u))[i] {
      RowOperationEntry(d, r, x, p[i], u, i);
    }
  }

  lemma RowOperationEntry(d: Vector, r: nat, x: Matrix, row: Vector, u: Vector, i: nat)
    requires r < |d| && d[r] != 0.0 && IsMatrix(x, |d|, |u|) && i < |d|
    requires row == EtaRowValue(d, r, x, i)
    ensures Dot(row, u) == EtaApply(d, r, MatVec(x, u))[i]
  {
    var w := MatVec(x, u);
    if i == r {
      assert row == Scale(1.0 / d[r], x[r]);
      PivotRowEntry(d, r, x, row, u, w);
    } else {
      assert row == Sub(x[i], Scale(d[i] / d[r], x[r]));
      OtherRowEntry(d, r, x, row, u, w, i);
    }
  }

  lemma PivotRowEntry(d: Vector, r: nat, x: Matrix, row: Vector, u: Vector, w: Vector)
    requires r < |d| && d[r] != 0.0 && IsMatrix(x, |d|, |u|)
    requires row == Scale(1.0 / d[r], x[r]) && w == MatVec(x, u)
    ensures Dot(row, u) == EtaApply(d, r, w)[r]
  {
    assert w[r] == Dot(x[r], u);
    ScaledRowDot(row, x[r], u, 1.0 / d[r]);
  }

  lemma OtherRowEntry(d: Vector, r: nat, x: Matrix, row: Vector, u: Vector, w: Vector, i: nat)
    requires r < |d| && d[r] != 0.0 && IsMatrix(x, |d|, |u|) && i < |d| && i != r
    requires row == Sub(x[i], Scale(d[i] / d[r], x[r])) && w == MatVec(x, u)
    ensures Dot(row, u) == EtaApply(d, r, w)[i]
  {
    assert w[i] == Dot(x[i], u) && w[r] == Dot(x[r], u);
    ReducedRowDot(row, x[i], x[r], u, d[i] / d[r]);
  }

  lemma ScaledRowDot(row: Vector, v: Vector, u: Vector, c: real)
    requires |v| == |u| && row == Scale(c, v)
    ensures Dot(row, u) == c * Dot(v, u)
  {
    DotScale(c, v, u);
  }

  lemma ReducedRowDot(row: Vector, a: Vector, v: Vector, u: Vector, c: real)
    requires |a| == |v| == |u| && row == Sub(a, Scale(c, v))
    ensures Dot(row, u) == Dot(a, u) - c * Dot(v, u)
  {
    DotSub(a, Scale(c, v), u);
    DotScale(c, v, u);
  }

  /** `E` sends the entering column `d` to the `r`-th unit vector ... */
  lemma EtaSendsDirectionToUnit(d: Vector, r: nat)
    requires r < |d| && d[r] != 0.0
    ensures EtaApply(d, r, d) == Unit(|d|, r)
  {
    forall i | 0 <= i < |d| ensures EtaApply(d, r, d)[i] == Unit(|d|, r)[i] {
      if i != r {
        assert (d[i] / d[r]) * d[r] == d[i];
      }
    }
  }

  /** ... and leaves every other unit vector in place. */
  lemma EtaKeepsOtherUnits(d: Vector, r: nat, k: nat)
    requires r < |d| && d[r] != 0.0 && k < |d| && k != r
    ensures EtaApply(d, r, Unit(|d|, k)) == Unit(|d|, k)
  {
  }

  /** A pivot on the row the ratio test picks keeps the basic values
      non-negative. */
  lemma PivotKeepsFeasible(xb: Vector, d: Vector)
    requires |xb| == |d| && LeavingRow(xb, d).Some?
    requires forall i :: 0 <= i < |xb| ==> xb[i] >= 0.0
    ensures forall i :: 0 <= i < |d| ==> EtaApply(d, LeavingRow(xb, d).value, xb)[i] >= 0.0
  {
    var r := LeavingRow(xb, d).value;
    assert Candidate(xb, d, r);
    forall i | 0 <= i < |d| ensures EtaApply(d, r, xb)[i] >= 0.0 {
      if d[i] > 0.0 {
        assert Candidate(xb, d, i);
      }
      FeasibleEntry(xb, d, r, i);
    }
  }

  lemma FeasibleEntry(xb: Vector, d: Vector, r: nat, i: nat)
    requires |xb| == |d| && r < |d| && i < |d| && d[r] > 0.0 && xb[r] >= 0.0 && xb[i] >= 0.0
    requires d[i] > 0.0 ==> xb[r] / d[r] <= xb[i] / d[i]
    ensures EtaApply(d, r, xb)[i] >= 0.0
  {
    if i != r {
      RatioStep(xb[i], d[i], xb[r], d[r]);
    }
  }

  /** One row of `PivotKeepsFeasible`, in plain arithmetic. */
  lemma RatioStep(xi: real, di: real, xr: real, dr: real)
    requires dr > 0.0 && xr >= 0.0 && xi >= 0.0
    requires di > 0.0 ==> xr / dr <= xi / di
    ensures xi - (di / dr) * xr >= 0.0
  {
    var theta := xr / dr;
    assert theta >= 0.0;
    assert (di / dr) * xr == di * theta;
    if di > 0.0 {
      assert di * theta <= di * (xi / di);
    } else {
      assert di * theta <= 0.0;
    }
  }

  /** A ratio as numpy computes `x_b / A[:, c]` in IEEE-754 arithmetic with
      the division warnings silenced. */
  datatype Ratio = Finite(value: real) | PosInf | NegInf | NaN

  function Quotient(x: real, d: real): Ratio {
    if d != 0.0 then Finite(x / d)
    else if x > 0.0 then PosInf
    else if x < 0.0 then NegInf
    else NaN
  }

  /** `theta <= 0` for one entry; every comparison with NaN is false. */
  predicate AtMostZero(q: Ratio) {
    match q
    case Finite(v) => v <= 0.0
    case NegInf => true
    case _ => false
  }

  /** `theta[theta < 0] = np.inf` for one entry. */
  function Mask(q: Ratio): Ratio {
    match q
    case Finite(v) => if v < 0.0 then PosInf else q
    case NegInf => PosInf
    case _ => q
  }

  function Rank(q: Ratio): nat {
    match q
    case NegInf => 0
    case Finite(_) => 1
    case _ => 2
  }

  /** The strict order numpy uses among values that are not NaN. */
  predicate Less(a: Ratio, b: Ratio) {
    Rank(a) < Rank(b) || (a.Finite? && b.Finite? && a.value < b.value)
  }

  /** `np.argmin`: the first NaN if there is one, else the first minimum. */
  function ArgMinAsWritten(qs: seq<Ratio>): (k: nat)
    requires |qs| > 0
    ensures k < |qs|
    ensures (exists i :: 0 <= i < |qs| && qs[i].NaN?) ==>
      qs[k].NaN? && forall i :: 0 <= i < k ==> !qs[i].NaN?
    ensures (forall i :: 0 <= i < |qs| ==> !qs[i].NaN?) ==>
      && (forall i :: 0 <= i < |qs| ==> !Less(qs[i], qs[k]))
      && (forall i :: 0 <= i < k ==> Less(qs[k], qs[i]))
    ensures (forall i :: 0 <= i < |qs| ==> qs[i].Finite?) ==>
      && (forall i :: 0 <= i < |qs| ==> qs[k].value <= qs[i].value)
      && (forall i :: 0 <= i < k ==> qs[k].value < qs[i].value)
    decreases |qs|
  {
    if |qs| == 1 then 0
    else
      var last := |qs| - 1;
      var k := ArgMinAsWritten(qs[..last]);
      assert forall i :: 0 <= i < last ==> qs[..last][i] == qs[i];
      if qs[k].NaN? then k
      else if qs[last].NaN? then last
      else if Less(qs[last], qs[k]) then last
      else k
  }

  /** The ratio test as `_simplex` writes it: `Unbounded` (here `None`) when
      every ratio is `<= 0`, otherwise `np.argmin` of the ratios with the
      negative ones replaced by infinity. */
  function RatioTestAsWritten(xb: Vector, d: Vector): (r: Option<nat>)
    requires |xb| == |d|
    ensures r.None? <==> forall i :: 0 <= i < |d| ==> AtMostZero(Quotient(xb[i], d[i]))
    ensures r.Some? ==> r.value < |d|
    // a `0/0` row, if there is one, is the row returned
    ensures r.Some? && (exists i :: 0 <= i < |d| && xb[i] == 0.0 && d[i] == 0.0) ==>
      xb[r.value] == 0.0 && d[r.value] == 0.0
  {
    var theta := seq(|d|, i requires 0 <= i < |d| => Quotient(xb[i], d[i]));
    assert forall i :: 0 <= i < |d| ==> theta[i] == Quotient(xb[i], d[i]);
    if forall i :: 0 <= i < |d| ==> AtMostZero(theta[i]) then None
    else
      var masked := seq(|d|, i requires 0 <= i < |d| => Mask(theta[i]));
      assert forall i :: 0 <= i < |d| ==> (masked[i].NaN? <==> xb[i] == 0.0 && d[i] == 0.0);
      Some(ArgMinAsWritten(masked))
  }

  /** A degenerate row (basic value 0, positive column entry) has ratio 0,
      which the test `all(theta <= 0)` reads as unboundedness, although the
      row limits the step to 0. */
  lemma RatioTestAsWrittenDegenerate()
    ensures RatioTestAsWritten([0.0], [1.0]).None?
    ensures LeavingRow([0.0], [1.0]) == Some(0)
  {
    assert Quotient(0.0, 1.0) == Finite(0.0);
    assert LeavingRow([0.0], [1.0])
        == (if LeavingRow([0.0][..0], [1.0][..0]).None? then Some(0) else Some(0));
  }

  /** A zero basic value over a zero column entry gives `0/0 = NaN`, which
      `np.argmin` returns first: the pivot element is then 0. */
  lemma RatioTestAsWrittenZeroPivot()
    ensures RatioTestAsWritten([0.0, 1.0], [0.0, 1.0]) == Some(0)
    ensures LeavingRow([0.0, 1.0], [0.0, 1.0]) == Some(1)
  {
    var xb, d := [0.0, 1.0], [0.0, 1.0];
    var theta := seq(2, i requires 0 <= i < 2 => Quotient(xb[i], d[i]));
    assert theta[0] == NaN && theta[1] == Finite(1.0);
    assert !AtMostZero(theta[1]);
    var masked := seq(2, i requires 0 <= i < 2 => Mask(theta[i]));
    assert masked[0].NaN?;
    assert ArgMinAsWritten(masked) == 0;
    assert xb[..1] == [0.0] && d[..1] == [0.0];
    assert LeavingRow([0.0], [0.0]).None?;
  }

  /** Away from those cases the two tests agree: when every row has a
      positive column entry and a positive basic value, both pick the same
      row. */
  lemma RatioTestsAgree(xb: Vector, d: Vector)
    requires |xb| == |d| > 0
    requires forall i :: 0 <= i < |d| ==> d[i] > 0.0 && xb[i] > 0.0
    ensures RatioTestAsWritten(xb, d) == LeavingRow(xb, d)
  {
    var vals := seq(|d|, i requires 0 <= i < |d| => xb[i] / d[i]);
    var k := AsWrittenPicksFirstMinimum(xb, d, vals);
    var r := LeavingRow(xb, d);
    assert Candidate(xb, d, 0);
    assert forall i :: 0 <= i < |d| ==> Candidate(xb, d, i);
    FirstMinimumUnique(vals, k, r.value);
  }

  /** Under the hypothesis of `RatioTestsAgree`, the as-written test picks the
      first minimum of the ratios. */
  lemma AsWrittenPicksFirstMinimum(xb: Vector, d: Vector, vals: seq<real>) returns (k: nat)
    requires |xb| == |d| > 0
    requires forall i :: 0 <= i < |d| ==> d[i] > 0.0 && xb[i] > 0.0
    requires vals == seq(|d|, i requires 0 <= i < |d| => xb[i] / d[i])
    ensures RatioTestAsWritten(xb, d) == Some(k) && k < |d|
    ensures forall i :: 0 <= i < |d| ==> vals[k] <= vals[i]
    ensures forall i :: 0 <= i < k ==> vals[k] < vals[i]
  {
    var theta := seq(|d|, i requires 0 <= i < |d| => Quotient(xb[i], d[i]));
    assert theta[0] == Finite(vals[0]);
    assert !AtMostZero(theta[0]);
    var masked := seq(|d|, i requires 0 <= i < |d| => Mask(theta[i]));
    assert forall i :: 0 <= i < |d| ==> masked[i] == Finite(vals[i]);
    k := ArgMinAsWritten(masked);
  }

  lemma FirstMinimumUnique(vals: seq<real>, k: nat, r: nat)
    requires k < |vals| && r < |vals|
    requires forall i :: 0 <= i < |vals| ==> vals[k] <= vals[i] && vals[r] <= vals[i]
    requires forall i :: 0 <= i < k ==> vals[k] < vals[i]
    requires forall i :: 0 <= i < r ==> vals[r] < vals[i]
    ensures k == r
  {
    assert vals[k] == vals[r];
  }
}

=== FILE: scenario.dfy ===
/** A one-phase run of `_simplex` on a small problem, followed pass by pass:
    maximise `3 x1 + 5 x2` subject to `x1 <= 4`, `2 x2 <= 12` and
    `3 x1 + 2 x2 <= 18`. Its optimum is `x = (2, 6)` with value 36, which
    takes two pivots. As written, the loop stops after the first. */
module Scenario {
  import opened Matrices
  import opened LpTypes
  import opened Tableau
  import opened Pivot
  import opened Engine
  import opened Solver

  /** The tableau `_simplex` starts from: objective row, then one row per
      constraint, with slack columns 2 to 4 and the right-hand side last. */
  function Wyndor(): Matrix {
    [[3.0, 5.0, 0.0, 0.0, 0.0, 0.0],
     [1.0, 0.0, 1.0, 0.0, 0.0, 4.0],
     [0.0, 2.0, 0.0, 1.0, 0.0, 12.0],
     [3.0, 2.0, 0.0, 0.0, 1.0, 18.0]]
  }

  /** The run at the slack basis. */
  function Start(): Run {
    var t := Wyndor();
    assert Shaped(t, 3, 5) && UnitBlock(t, 3, 2);
    StartRun(t, 3, 2)
  }

  /** The run after the first pivot: `x2` replaces the slack of row 2. */
  function Second(): Run {
    var r := Start();
    StartFacts();
    PivotRun(r, 1, 1)
  }

  /** The run after the second pivot: `x1` replaces the slack of row 3. */
  function Third(): Run {
    var s := Second();
    SecondFacts();
    PivotRun(s, 0, 2)
  }

  lemma StartShape()
    ensures Invariant(Start()) && Start().iteration == 0
    ensures Start().basics == [2, 3, 4] && Start().nonbasics == [0, 1]
    ensures Start().tableau == Wyndor() && Start().binv == Identity(3)
  {
  }

  lemma StartCosts()
    ensures Invariant(Start()) && ZeroBasicCosts(Start())
    ensures Costs(Wyndor(), Start().basics) == [0.0, 0.0, 0.0]
  {
    StartShape();
  }

  lemma StartValues()
    ensures Invariant(Start())
    ensures BasicValues(Start()) == [4.0, 12.0, 18.0]
  {
    StartShape();
    assert ColumnOf(Wyndor(), 5) == [4.0, 12.0, 18.0];
  }

  lemma StartDirection()
    ensures Invariant(Start()) && |Start().nonbasics| == 2
    ensures Direction(Start(), 1) == [0.0, 2.0, 2.0]
  {
    StartShape();
    var t := Wyndor();
    assert ColumnOf(t, 1) == [0.0, 2.0, 2.0];
    MatVecIdentity(ColumnOf(t, 1));
  }

  lemma StartPrices()
    ensures Invariant(Start()) && |Start().nonbasics| == 2
    ensures ReducedCosts(Start()) == [3.0, 5.0]
  {
    var r := Start();
    StartShape();
    StartCosts();
    var cb := Costs(r.tableau, r.basics);
    ReducedCostIsPrice(r, 0);
    ReducedCostIsPrice(r, 1);
    DotZero(cb, Direction(r, 0));
    DotZero(cb, Direction(r, 1));
  }

  /** At the slack basis the stored costs of the basic columns are 0, `x2`
      enters with reduced cost 5, and the ratio test picks row 2 (12/2 < 18/2). */
  lemma StartFacts()
    ensures Invariant(Start()) && Start().iteration == 0 && ZeroBasicCosts(Start())
    ensures Start().basics == [2, 3, 4] && Start().nonbasics == [0, 1]
    ensures ReducedCosts(Start()) == [3.0, 5.0] && ArgMax(ReducedCosts(Start())) == 1
    ensures Direction(Start(), 1) == [0.0, 2.0, 2.0]
    ensures BasicValues(Start()) == [4.0, 12.0, 18.0]
    ensures LeavingRow(BasicValues(Start()), Direction(Start(), 1)) == Some(1)
  {
    StartShape();
    StartCosts();
    StartValues();
    StartDirection();
    StartPrices();
    RowTwoLeaves([4.0, 12.0, 18.0], [0.0, 2.0, 2.0]);
  }

  lemma RowTwoLeaves(xb: Vector, d: Vector)
    requires xb == [4.0, 12.0, 18.0] && d == [0.0, 2.0, 2.0]
    ensures LeavingRow(xb, d) == Some(1)
  {
    assert Candidate(xb, d, 1) && Candidate(xb, d, 2) && !Candidate(xb, d, 0);
  }

  /** The ratio test as written picks row 2 as well: row 1 divides 4 by 0,
      which gives `+inf`, and the first minimum of `[inf, 6, 9]` is 6. */
  lemma RowTwoLeavesAsWritten(xb: Vector, d: Vector)
    requires xb == [4.0, 12.0, 18.0] && d == [0.0, 2.0, 2.0]
    ensures RatioTestAsWritten(xb, d) == Some(1)
  {
    var theta := seq(|d|, i requires 0 <= i < |d| => Quotient(xb[i], d[i]));
    assert theta == [PosInf, Finite(6.0), Finite(9.0)];
    assert !AtMostZero(theta[1]);
    var masked := seq(|d|, i requires 0 <= i < |d| => Mask(theta[i]));
    assert masked == theta;
    var k := ArgMinAsWritten(masked);
    assert Less(masked[1], masked[0]) && Less(masked[1], masked[2]);
    assert k == 1;
  }

  /** The first pass of `_simplex` pivots `x2` in on row 2, in the pass as
      written and in the corrected one. */
  lemma FirstPass()
    ensures Step(Start()) == Decide(Start()) == Pivoted(Second(), 1, 1)
    ensures DecideAsWritten(Start()) == Decided(Pivoted(Second(), 1, 1))
  {
    StartFacts();
    FirstPassAsWritten(Start(), Second());
  }

  lemma FirstPassAsWritten(r: Run, s: Run)
    requires WellFormed(r) && |r.nonbasics| == 2
    requires ReducedCosts(r) == [3.0, 5.0] && ArgMax(ReducedCosts(r)) == 1
    requires BasicValues(r) == [4.0, 12.0, 18.0] && Direction(r, 1) == [0.0, 2.0, 2.0]
    requires s == PivotRun(r, 1, 1)
    ensures DecideAsWritten(r) == Decided(Pivoted(s, 1, 1))
  {
    RowTwoLeavesAsWritten(BasicValues(r), Direction(r, 1));
    assert ReducedCosts(r)[1] > 0.0;
  }

  /** `E` for the first pivot: row 2 is halved and taken off row 3. */
  lemma FirstEta(u: Vector)
    requires |u| == 3
    ensures EtaApply([0.0, 2.0, 2.0], 1, u) == [u[0], 0.5 * u[1], u[2] - u[1]]
  {
    var d := [0.0, 2.0, 2.0];
    assert d[0] / d[1] == 0.0 && 1.0 / d[1] == 0.5 && d[2] / d[1] == 1.0;
  }

  lemma SecondShape()
    ensures WellFormed(Second()) && Second().iteration == 1
    ensures Second().basics == [2, 1, 4] && Second().nonbasics == [0, 3]
    ensures Second().tableau == Wyndor()
    ensures Second().binv == MatMul(Eta([0.0, 2.0, 2.0], 1), Identity(3), 3)
  {
    StartShape();
    StartFacts();
    ZeroBasicCostsObjective(Start());
    FirstPivot(Start(), Second());
  }

  lemma FirstPivot(r: Run, s: Run)
    requires WellFormed(r) && r.iteration == 0 && r.tableau == Wyndor() && r.binv == Identity(3)
    requires r.basics == [2, 3, 4] && r.nonbasics == [0, 1] && Objective(r) == 0.0
    requires Direction(r, 1) == [0.0, 2.0, 2.0] && s == PivotRun(r, 1, 1)
    ensures WellFormed(s) && s.iteration == 1
    ensures s.basics == [2, 1, 4] && s.nonbasics == [0, 3]
    ensures s.tableau == Wyndor()
    ensures s.binv == MatMul(Eta([0.0, 2.0, 2.0], 1), Identity(3), 3)
  {
    UnchangedCell(Wyndor(), 5, Objective(r));
  }

  /** Writing a cell of row 0 with the value it holds changes nothing. */
  lemma UnchangedCell(t: Matrix, j: nat, z: real)
    requires |t| > 0 && j < |t[0]| && t[0][j] == z
    ensures t[0 := t[0][j := z]] == t
  {
    assert t[0][j := z] == t[0];
  }

  lemma SecondDirection(c: nat)
    requires c < 2
    ensures WellFormed(Second()) && |Second().nonbasics| == 2
    ensures Direction(Second(), c) ==
      EtaApply([0.0, 2.0, 2.0], 1, ColumnOf(Wyndor(), Second().nonbasics[c]))
  {
    SecondShape();
    var u := ColumnOf(Wyndor(), Second().nonbasics[c]);
    EtaProduct([0.0, 2.0, 2.0], 1, Identity(3), u);
    MatVecIdentity(u);
  }

  lemma SecondDirections()
    ensures WellFormed(Second()) && |Second().nonbasics| == 2
    ensures Direction(Second(), 0) == [1.0, 0.0, 3.0]
    ensures Direction(Second(), 1) == [0.0, 0.5, -1.0]
  {
    SecondShape();
    SecondDirection(0);
    SecondDirection(1);
    var t := Wyndor();
    assert ColumnOf(t, 0) == [1.0, 0.0, 3.0];
    assert ColumnOf(t, 3) == [0.0, 1.0, 0.0];
    FirstEta(ColumnOf(t, 0));
    FirstEta(ColumnOf(t, 3));
  }

  lemma SecondValues()
    ensures WellFormed(Second())
    ensures BasicValues(Second()) == [4.0, 6.0, 6.0]
    ensures Costs(Second().tableau, Second().basics) == [0.0, 5.0, 0.0]
  {
    StartFacts();
    SecondShape();
    FirstPivotValues(Start(), Second());
  }

  lemma FirstPivotValues(r: Run, s: Run)
    requires WellFormed(r) && r.tableau == Wyndor() && r.basics == [2, 3, 4] && r.nonbasics == [0, 1]
    requires BasicValues(r) == [4.0, 12.0, 18.0] && Direction(r, 1) == [0.0, 2.0, 2.0]
    requires s == PivotRun(r, 1, 1)
    ensures WellFormed(s)
    ensures BasicValues(s) == [4.0, 6.0, 6.0]
    ensures Costs(s.tableau, s.basics) == [0.0, 5.0, 0.0]
  {
    PivotRunValues(r, 1, 1);
    FirstEta([4.0, 12.0, 18.0]);
  }

  lemma SecondPrices()
    ensures WellFormed(Second()) && |Second().nonbasics| == 2
    ensures ReducedCosts(Second()) == [3.0, -2.5]
  {
    SecondShape();
    SecondValues();
    SecondDirections();
    PricesAfterFirst(Second());
  }

  lemma PricesAfterFirst(s: Run)
    requires WellFormed(s) && s.tableau == Wyndor() && s.nonbasics == [0, 3]
    requires Costs(s.tableau, s.basics) == [0.0, 5.0, 0.0]
    requires Direction(s, 0) == [1.0, 0.0, 3.0] && Direction(s, 1) == [0.0, 0.5, -1.0]
    ensures ReducedCosts(s) == [3.0, -2.5]
  {
    ReducedCostIsPrice(s, 0);
    ReducedCostIsPrice(s, 1);
    assert Dot([0.0, 5.0, 0.0], [1.0, 0.0, 3.0]) == 0.0;
    assert Dot([0.0, 5.0, 0.0], [0.0, 0.5, -1.0]) == 2.5;
  }

  lemma RowThreeLeaves(xb: Vector, d: Vector)
    requires xb == [4.0, 6.0, 6.0] && d == [1.0, 0.0, 3.0]
    ensures LeavingRow(xb, d) == Some(2)
  {
    assert Candidate(xb, d, 0) && Candidate(xb, d, 2) && !Candidate(xb, d, 1);
  }

  /** After the first pivot the basis is `[2, 1, 4]` with values `[4, 6, 6]`;
      `x1` still has reduced cost 3 and enters, and the ratio test picks row
      3 (6/3 < 4/1). */
  lemma SecondFacts()
    ensures WellFormed(Second()) && Second().iteration == 1
    ensures Second().basics == [2, 1, 4] && Second().nonbasics == [0, 3]
    ensures Second().tableau == Wyndor()
    ensures BasicValues(Second()) == [4.0, 6.0, 6.0]
    ensures ReducedCosts(Second()) == [3.0, -2.5] && ArgMax(ReducedCosts(Second())) == 0
    ensures Direction(Second(), 0) == [1.0, 0.0, 3.0]
    ensures LeavingRow(BasicValues(Second()), Direction(Second(), 0)) == Some(2)
  {
    SecondShape();
    SecondValues();
    SecondDirections();
    SecondPrices();
    RowThreeLeaves([4.0, 6.0, 6.0], [1.0, 0.0, 3.0]);
  }

  /** The second pass of the corrected loop pivots `x1` in on row 3. */
  lemma SecondPass()
    ensures WellFormed(Second()) && Decide(Second()) == Pivoted(Third(), 0, 2)
  {
    SecondFacts();
  }

  /** `E` for the second pivot applied to `[4, 6, 6]`: row 3 is divided by 3
      and a third of it is taken off row 1. */
  lemma SecondEta()
    ensures EtaApply([1.0, 0.0, 3.0], 2, [4.0, 6.0, 6.0]) == [2.0, 6.0, 2.0]
  {
  }

  lemma ThirdShape()
    ensures WellFormed(Third()) && Third().iteration == 2
    ensures Third().basics == [2, 1, 0] && Third().nonbasics == [4, 3]
    ensures Costs(Third().tableau, Third().basics) == [0.0, 5.0, 3.0]
  {
    SecondShape();
    SecondFacts();
    SecondPivot(Second(), Third());
  }

  lemma SecondPivot(s: Run, u: Run)
    requires WellFormed(s) && s.iteration == 1 && s.tableau == Wyndor()
    requires s.basics == [2, 1, 4] && s.nonbasics == [0, 3]
    requires Direction(s, 0)[2] != 0.0 && u == PivotRun(s, 0, 2)
    ensures WellFormed(u) && u.iteration == 2
    ensures u.basics == [2, 1, 0] && u.nonbasics == [4, 3]
    ensures Costs(u.tableau, u.basics) == [0.0, 5.0, 3.0]
  {
    assert forall j :: 0 <= j < 5 ==> u.tableau[0][j] == Wyndor()[0][j];
  }

  lemma ThirdValues()
    ensures WellFormed(Third())
    ensures BasicValues(Third()) == [2.0, 6.0, 2.0]
  {
    var s := Second();
    SecondFacts();
    PivotRunValues(s, 0, 2);
    SecondEta();
  }

  /** After the second pivot the basis is `[2, 1, 0]` with values
      `[2, 6, 2]`, and neither nonbasic column has a positive stored cost. */
  lemma ThirdFacts()
    ensures WellFormed(Third()) && Third().iteration == 2
    ensures Third().basics == [2, 1, 0] && Third().nonbasics == [4, 3]
    ensures BasicValues(Third()) == [2.0, 6.0, 2.0]
    ensures Objective(Third()) == 36.0
    ensures !Improvable(Third())
  {
    ThirdShape();
    ThirdValues();
    assert Dot([0.0, 5.0, 3.0], [2.0, 6.0, 2.0]) == 36.0;
  }

  lemma SecondObjective()
    ensures WellFormed(Second()) && Objective(Second()) == 30.0
  {
    SecondShape();
    SecondValues();
    assert Dot([0.0, 5.0, 0.0], [4.0, 6.0, 6.0]) == 30.0;
  }

  /** As written, the run returns early on pass 2: pass 1 recorded `Z = 0`
      and row 0 still has a positive cost. The basis then holds `x = (0, 6)`
      of value 30, and nothing is read back. */
  lemma WyndorReturnsEarly(fuel: nat)
    ensures SimplexAsWritten(Start(), fuel + 2) == EarlyReturn(Second())
    ensures SimplexAsWritten(Start(), fuel + 2).run.tableau[0][5] == 0.0
    ensures Objective(Second()) == 30.0
  {
    StartFacts();
    FirstPass();
    SecondShape();
    SecondObjective();
    EarlyReturnAfter(Start(), Second(), fuel);
  }

  lemma EarlyReturnAfter(r: Run, s: Run, fuel: nat)
    requires WellFormed(r) && r.iteration == 0 && ZeroBasicCosts(r)
    requires r.tableau == Wyndor() && r.nonbasics == [0, 1] && Step(r) == Pivoted(s, 1, 1)
    requires WellFormed(s) && s.tableau == Wyndor() && s.nonbasics == [0, 3]
    ensures SimplexAsWritten(r, fuel + 2) == EarlyReturn(s)
    ensures s.tableau[0][5] == 0.0
  {
    assert r.tableau[0][r.nonbasics[0]] > 0.0;
    assert s.tableau[0][s.nonbasics[0]] > 0.0;
    OnePivotThenEarlyReturn(r, fuel);
  }

  /** The corrected loop takes the second pivot and stops at the optimum
      `x = (2, 6)` of value 36, which the read-back over the `n + m = 5`
      columns of the one-phase run reports as 'Optimal', with the slack of
      row 1 at 2 and the other slacks at 0. */
  lemma WyndorSolved(fuel: nat, before: Report)
    ensures Simplex(Start(), fuel + 2) == Finished(Third())
    ensures Objective(Third()) == 36.0
    ensures var pe := RunPhase(Start(), 5, before, fuel + 2);
      && pe.report.status == Optimal && pe.report.solution.Some?
      && pe.report.solution.value.z == 36.0
      && pe.report.solution.value.values == [2.0, 6.0, 2.0, 0.0, 0.0]
  {
    StartShape();
    FirstPass();
    SecondShape();
    SecondPass();
    ThirdFacts();
    SolvedAfter(Start(), Second(), Third(), fuel, before);
  }

  lemma SolvedAfter(r: Run, s: Run, u: Run, fuel: nat, before: Report)
    requires WellFormed(r) && r.tableau == Wyndor() && r.nonbasics == [0, 1]
    requires Decide(r) == Pivoted(s, 1, 1)
    requires WellFormed(s) && s.tableau == Wyndor() && s.nonbasics == [0, 3]
    requires Decide(s) == Pivoted(u, 0, 2)
    requires WellFormed(u) && u.basics == [2, 1, 0] && !Improvable(u)
    requires BasicValues(u) == [2.0, 6.0, 2.0] && Objective(u) == 36.0
    ensures Simplex(r, fuel + 2) == Finished(u)
    ensures var pe := RunPhase(r, 5, before, fuel + 2);
      && pe.report.status == Optimal && pe.report.solution.Some?
      && pe.report.solution.value.z == 36.0
      && pe.report.solution.value.values == [2.0, 6.0, 2.0, 0.0, 0.0]
  {
    TwoPivots(r, s, u, fuel);
    FinishedReport36(r, u, fuel + 2, before);
  }

  lemma TwoPivots(r: Run, s: Run, u: Run, fuel: nat)
    requires WellFormed(r) && r.tableau == Wyndor() && r.nonbasics == [0, 1]
    requires Decide(r) == Pivoted(s, 1, 1)
    requires WellFormed(s) && s.tableau == Wyndor() && s.nonbasics == [0, 3]
    requires Decide(s) == Pivoted(u, 0, 2)
    requires WellFormed(u) && !Improvable(u)
    ensures Simplex(r, fuel + 2) == Finished(u)
  {
    assert r.tableau[0][r.nonbasics[0]] > 0.0;
    assert s.tableau[0][s.nonbasics[0]] > 0.0;
    PivotPass(r, fuel + 1);
    PivotPass(s, fuel);
  }

  /** A pass of the corrected loop that pivots hands the rest of the budget
      to the exchanged run. */
  lemma PivotPass(r: Run, fuel: nat)
    requires WellFormed(r) && Improvable(r) && Decide(r).Pivoted?
    ensures Simplex(r, fuel + 1) == Simplex(Decide(r).run, fuel)
  {
  }

  lemma FinishedReport36(r: Run, u: Run, fuel: nat, before: Report)
    requires WellFormed(r) && Simplex(r, fuel) == Finished(u)
    requires WellFormed(u) && u.basics == [2, 1, 0]
    requires BasicValues(u) == [2.0, 6.0, 2.0] && Objective(u) == 36.0
    ensures var pe := RunPhase(r, 5, before, fuel);
      && pe.report.status == Optimal && pe.report.solution.Some?
      && pe.report.solution.value.z == 36.0
      && pe.report.solution.value.values == [2.0, 6.0, 2.0, 0.0, 0.0]
  {
    var sol := ReadBack(u, 5);
    assert sol.values == Scatter([2, 1, 0], [2.0, 6.0, 2.0], 5);
    ScatterThird(sol.values);
  }

  /** The read-back over all `n + m = 5` columns: `x1 = 2`, `x2 = 6`, the
      slack of row 1 is 2, and the two nonbasic slacks are 0. */
  lemma ScatterThird(v: Vector)
    requires v == Scatter([2, 1, 0], [2.0, 6.0, 2.0], 5)
    ensures v == [2.0, 6.0, 2.0, 0.0, 0.0]
  {
    var b: seq<nat> := [2, 1, 0];
    assert b[0] == 2 && b[1] == 1 && b[2] == 0;
    assert 3 !in b && 4 !in b;
    assert v[0] == 2.0 && v[1] == 6.0 && v[2] == 2.0 && v[3] == 0.0 && v[4] == 0.0;
  }
}

=== FILE: solver.dfy ===
/** `LpProblem.solve` and the set-up that precedes it: the problem is
    normalised and put into tableau form (through the dual for a
    minimisation), then solved in one phase when every sense is `<=` and in
    two phases otherwise. Phase 2 starts from the basis and the basis inverse
    phase 1 ends with and from the original right-hand side. */
module Solver {
  import opened Matrices
  import opened LpTypes
  import opened Basis
  import opened Normalise
  import opened Tableau
  import opened Dual
  import opened PhaseOne
  import opened PhaseTwo
  import opened Engine
  import Pivot

  /** What a caller hands to `LpProblem`: the sense of the objective, the
      objective coefficients, the constraint rows with their senses and the
      right-hand side. */
  datatype Problem = Problem(goal: Goal, objective: Vector, constraints: Matrix,
                             relations: seq<Relation>, rhs: Vector)

  /** The shapes the setters document: `m` rows of `n` coefficients, one
      sense and one right-hand side per row. */
  predicate WellPosed(p: Problem) {
    && |p.relations| == |p.constraints|
    && |p.rhs| == |p.constraints|
    && forall i :: 0 <= i < |p.constraints| ==> |p.constraints[i]| == |p.objective|
  }

  /** The state after `rhs` and `_tableau_format`: the tableau, its
      dimensions, the sense list and the `two_phase` flag. */
  datatype Setup = Setup(tableau: Matrix, m: nat, n: nat, relations: seq<Relation>, twoPhase: bool)

  function SetUp(p: Problem): (s: Setup)
    requires WellPosed(p)
    ensures Shaped(s.tableau, s.m, s.n + s.m) && UnitBlock(s.tableau, s.m, s.n)
    ensures forall j :: s.n <= j <= s.n + s.m ==> s.tableau[0][j] == 0.0
    ensures |s.relations| == |p.relations|
    ensures s.twoPhase <==> exists i :: 0 <= i < |s.relations| && s.relations[i] != Le
    // a maximisation keeps its dimensions, its objective and a non-negative right-hand side
    ensures p.goal == Maximize ==>
      && s.m == |p.constraints| && s.n == |p.objective|
      && (forall j :: 0 <= j < s.n ==> s.tableau[0][j] == p.objective[j])
      && (forall i :: 1 <= i <= s.m ==> s.tableau[i][s.n + s.m] >= 0.0)
    // a minimisation is solved through its dual, which has no `>=` rows
    ensures p.goal == Minimize ==>
      && s.m == |p.objective| && s.n == |p.constraints|
      && (forall i :: 0 <= i < |s.relations| ==> s.relations[i] != Ge)
  {
    if p.goal == Maximize then PrimalSetup(p) else DualSetup(p)
  }

  /** `rhs` and `_tableau_format` for a maximisation. */
  function PrimalSetup(p: Problem): (s: Setup)
    requires WellPosed(p)
    ensures Shaped(s.tableau, s.m, s.n + s.m) && UnitBlock(s.tableau, s.m, s.n)
    ensures forall j :: s.n <= j <= s.n + s.m ==> s.tableau[0][j] == 0.0
    ensures |s.relations| == |p.relations|
    ensures s.twoPhase <==> exists i :: 0 <= i < |s.relations| && s.relations[i] != Le
    ensures s.m == |p.constraints| && s.n == |p.objective|
    ensures forall j :: 0 <= j < s.n ==> s.tableau[0][j] == p.objective[j]
    ensures forall i :: 1 <= i <= s.m ==> s.tableau[i][s.n + s.m] >= 0.0
  {
    var norm := NormaliseRhs(p.constraints, p.relations, p.rhs);
    var t := TableauFormat(p.objective, norm.constraints, norm.rhs);
    Setup(t, |p.constraints|, |p.objective|, norm.relations,
          exists i :: 0 <= i < |norm.relations| && norm.relations[i] != Le)
  }

  /** `rhs`, `_tableau_format` and `find_dual` for a minimisation. */
  function DualSetup(p: Problem): (s: Setup)
    requires WellPosed(p)
    ensures Shaped(s.tableau, s.m, s.n + s.m) && UnitBlock(s.tableau, s.m, s.n)
    ensures forall j :: s.n <= j <= s.n + s.m ==> s.tableau[0][j] == 0.0
    ensures |s.relations| == |p.relations|
    ensures s.twoPhase <==> exists i :: 0 <= i < |s.relations| && s.relations[i] != Le
    ensures s.m == |p.objective| && s.n == |p.constraints|
    ensures forall i :: 0 <= i < |s.relations| ==> s.relations[i] != Ge
  {
    var m, n := |p.constraints|, |p.objective|;
    var norm := NormaliseRhs(p.constraints, p.relations, p.rhs);
    var t := TableauFormat(p.objective, norm.constraints, norm.rhs);
    var d := FindDual(t, m, n, norm.relations);
    DualLeavesNoGe(t, m, n, norm.relations);
    Setup(d.tableau, d.m, d.n, d.relations, exists i :: 0 <= i < |d.relations| && d.relations[i] != Le)
  }

  /** The sense list `_add_artificials` walks for a tableau of `m` rows. After
      the dual transformation the list keeps the length of the primal, so a
      row past its end gets no artificial, as a `<=` row, and a non-`<=` entry
      past the last row indexes outside the new column. */
  function SensesFor(rels: seq<Relation>, m: nat): (r: Option<seq<Relation>>)
    ensures r.None? <==> exists i :: m <= i < |rels| && rels[i] != Le
    ensures r.Some? ==> |r.value| == m
    ensures r.Some? ==> forall i :: 0 <= i < m ==> r.value[i] == if i < |rels| then rels[i] else Le
  {
    if exists i :: m <= i < |rels| && rels[i] != Le then None
    else Some(seq(m, i requires 0 <= i < m => if i < |rels| then rels[i] else Le))
  }

  /** What `solve` leaves behind that a caller reads: `status`, and `Z` with
      `solution` once some run has reached its read-back. */
  datatype Report = Report(status: Status, solution: Option<Solution>)

  /** The ways the source stops with an exception or with non-finite numbers. */
  datatype Crash =
    | SenseBeyondRows        // a non-`<=` sense indexes past the rows of the dual
    | ArtificialStillBasic   // `nonbasics[i]` with an artificial index `i`
    | ObjectiveMisshapen     // the saved row does not fit row 0
    | NonFiniteRatio         // a ratio of `-inf` or NaN in `remove_inconsistency`

  datatype Outcome =
    | Done(report: Report)
    | OutOfPasses            // a run did not end within the pass budget
    | Crashed(crash: Crash)

  /** One call of `_simplex` and the report it leaves. */
  datatype PhaseEnd = PhaseEnd(exit: Exit, report: Report)

  function RunPhase(r: Run, size: nat, before: Report, fuel: nat): (pe: PhaseEnd)
    requires WellFormed(r)
    ensures pe.exit == Simplex(r, fuel)
    ensures WellFormed(pe.exit.run) && pe.exit.run.m == r.m && pe.exit.run.width == r.width
    ensures Invariant(r) ==> Invariant(pe.exit.run)
    ensures Invariant(r) && Feasible(r) ==> Feasible(pe.exit.run)
    ensures pe.exit.run.tableau[1..] == r.tableau[1..]
    ensures forall j :: 0 <= j < r.width ==> pe.exit.run.tableau[0][j] == r.tableau[0][j]
    // only a run that reaches the read-back sets `Z` and `solution`, and with them 'Optimal'
    ensures pe.exit.Finished? ==> pe.report == Report(Optimal, Some(ReadBack(pe.exit.run, size)))
    ensures pe.exit.UnboundedReturn? ==> pe.report == before.(status := Unbounded)
    ensures pe.exit.EarlyReturn? || pe.exit.OutOfFuel? ==> pe.report == before
  {
    var e := Simplex(r, fuel);
    match e
    case Finished(s) => PhaseEnd(e, Report(Optimal, Some(ReadBack(s, size))))
    case UnboundedReturn(_) => PhaseEnd(e, before.(status := Unbounded))
    case _ => PhaseEnd(e, before)
  }

  /** The phase-2 run with its `Z` corrected. `remove_inconsistency`
      subtracts whole rows of the tableau from row 0, right-hand side
      included, so the repaired row 0 of `r` ends in a constant `c`, and its
      value at a point `x` is `row[..w] · x - c`. The read-back reports
      `c_b · x_b`, which is `row[..w] · x`; this run subtracts `c` from it,
      so that `Z` is the value of row 0 at the reported point. */
  function PhaseTwoRun(r: Run, size: nat, before: Report, fuel: nat): (pe: PhaseEnd)
    requires WellFormed(r)
    ensures pe.exit == Simplex(r, fuel)
    ensures !pe.exit.Finished? ==> pe == RunPhase(r, size, before, fuel)
    ensures pe.exit.Finished? ==>
      && pe.report.status == Optimal && pe.report.solution.Some?
      && pe.report.solution.value.values == ReadBack(pe.exit.run, size).values
      && |pe.report.solution.value.values| == size
    ensures pe.exit.Finished? && Invariant(r) && r.width <= size ==>
      pe.report.solution.value.z == Value(r.tableau[0], pe.report.solution.value.values[..r.width])
  {
    var pe := RunPhase(r, size, before, fuel);
    if pe.exit.Finished? then
      var sol := ReadBack(pe.exit.run, size);
      ReadBackShift(r, pe.exit.run, size);
      PhaseEnd(pe.exit, Report(Optimal, Some(sol.(z := sol.z - r.tableau[0][r.width]))))
    else pe
  }

  /** The read-back's `Z` exceeds the value of the starting row 0 at the
      reported point by that row's last entry, for every run whose row 0
      agrees with the starting one below the right-hand side. */
  lemma ReadBackShift(r: Run, e: Run, size: nat)
    requires WellFormed(r) && WellFormed(e) && e.m == r.m && e.width == r.width
    requires forall j :: 0 <= j < r.width ==> e.tableau[0][j] == r.tableau[0][j]
    ensures Invariant(e) && r.width <= size ==>
      ReadBack(e, size).z == Value(r.tableau[0], ReadBack(e, size).values[..r.width]) + r.tableau[0][r.width]
  {
    if Invariant(e) && r.width <= size {
      ReadBackObjective(e, size);
      assert e.tableau[0][..e.width] == r.tableau[0][..r.width];
    }
  }

  /** The first run: the fresh basis of slack columns and `B_inv = I`. */
  function StartRun(t: Matrix, m: nat, n: nat): (r: Run)
    requires Shaped(t, m, n + m) && UnitBlock(t, m, n)
    ensures Invariant(r) && r.iteration == 0
    ensures BasicValues(r) == ColumnOf(t, n + m)
  {
    UnitBlockInverse(t, m, n);
    MatVecIdentity(ColumnOf(t, n + m));
    var (b, nb) := InitialBasis(n, m);
    Run(t, m, n + m, b, nb, Identity(m), 0)
  }

  /** How `remove_artificials` and `remove_inconsistency` hand over to phase 2. */
  datatype Handover =
    | Start(run: Run)
    | StillBasic
    | NoRepair(repair: Repair)

  /** The phase-2 run built from the run phase 1 ends with: artificial
      columns deleted, the saved objective repaired into row 0, the basis
      renumbered, and the phase-1 basis inverse kept, which inverts the same
      basis matrix that `np.linalg.inv` is applied to. */
  function PhaseTwoStart(e: Run, art: seq<nat>, obj: Vector, senseEquals: nat): (h: Handover)
    requires WellFormed(e) && Partition(e.basics, e.nonbasics, e.width)
    requires forall k :: 0 <= k < |art| ==> art[k] < e.width
    ensures h.StillBasic? <==> exists k :: 0 <= k < |e.basics| && e.basics[k] in art
    ensures h.NoRepair? ==> !h.repair.Repaired?
    ensures h.Start? ==>
      && WellFormed(h.run) && h.run.m == e.m && h.run.width == e.width - Below(art, e.width)
      && h.run.binv == e.binv && h.run.iteration == 0
      && Partition(h.run.basics, h.run.nonbasics, h.run.width)
      && ColumnOf(h.run.tableau, h.run.width) == ColumnOf(e.tableau, e.width)
  {
    match RemoveArtificials(e.tableau, e.m, e.width, e.basics, e.nonbasics, art)
    case ArtificialBasic => StillBasic
    case Removed(t, w, b, nb) =>
      RemovedShape(e, art);
      match RemoveInconsistency(t, e.m, w, b, obj, senseEquals)
      case Repaired(row) =>
        RowZeroOnly(t, e.m, w, row);
        Start(Run(t[0 := row], e.m, w, b, nb, e.binv, 0))
      case other => NoRepair(other)
  }

  /** The removal keeps the basis a partition of the remaining columns and
      the right-hand side in place. */
  lemma RemovedShape(e: Run, art: seq<nat>)
    requires WellFormed(e) && Partition(e.basics, e.nonbasics, e.width)
    requires forall k :: 0 <= k < |art| ==> art[k] < e.width
    requires RemoveArtificials(e.tableau, e.m, e.width, e.basics, e.nonbasics, art).Removed?
    ensures var r := RemoveArtificials(e.tableau, e.m, e.width, e.basics, e.nonbasics, art);
      && Partition(r.basics, r.nonbasics, r.width) && |r.basics| == e.m
      && (forall k :: 0 <= k < |r.basics| ==> r.basics[k] < r.width)
      && (forall c :: 0 <= c < |r.nonbasics| ==> r.nonbasics[c] < r.width)
      && ColumnOf(r.tableau, r.width) == ColumnOf(e.tableau, e.width)
  {
    var r := RemoveArtificials(e.tableau, e.m, e.width, e.basics, e.nonbasics, art);
    RenumberKeepsPartition(e.basics, e.nonbasics, e.width, art);
    PartitionBounds(r.basics, r.nonbasics, r.width);
    forall i | 0 <= i < e.m ensures ColumnOf(r.tableau, r.width)[i] == ColumnOf(e.tableau, e.width)[i] {
      assert r.tableau[i + 1][Shift(art, e.width)] == e.tableau[i + 1][e.width];
    }
  }

  /** The members of a partition of `width` columns are below `width`. */
  lemma PartitionBounds(b: seq<nat>, nb: seq<nat>, width: nat)
    requires Partition(b, nb, width)
    ensures forall k :: 0 <= k < |b| ==> b[k] < width
    ensures forall c :: 0 <= c < |nb| ==> nb[c] < width
  {
    assert forall k :: 0 <= k < |b| ==> b[k] in b;
    assert forall c :: 0 <= c < |nb| ==> nb[c] in nb;
  }

  /** Replacing row 0 leaves every constraint column as it was. */
  lemma RowZeroOnly(t: Matrix, m: nat, w: nat, row: Vector)
    requires Shaped(t, m, w) && |row| == w + 1
    ensures Shaped(t[0 := row], m, w)
    ensures forall j :: 0 <= j <= w ==> ColumnOf(t[0 := row], j) == ColumnOf(t, j)
  {
    var t2 := t[0 := row];
    forall j | 0 <= j <= w ensures ColumnOf(t2, j) == ColumnOf(t, j) {
      assert forall i :: 1 <= i <= m ==> t2[i] == t[i];
    }
  }

  /** `solve`, with a budget of `fuel` passes for each run. */
  function Solve(p: Problem, fuel: nat): (o: Outcome)
    requires WellPosed(p)
    ensures !SetUp(p).twoPhase ==> !o.Crashed?
    ensures o.Done? && o.report.status == Infeasible ==> SetUp(p).twoPhase
  {
    var s := SetUp(p);
    if !s.twoPhase then SinglePhase(s, fuel) else TwoPhase(s, fuel)
  }

  function SinglePhase(s: Setup, fuel: nat): (o: Outcome)
    requires Shaped(s.tableau, s.m, s.n + s.m) && UnitBlock(s.tableau, s.m, s.n)
    ensures !o.Crashed?
    ensures o.Done? ==> o.report.status != Infeasible
  {
    Conclude(RunPhase(StartRun(s.tableau, s.m, s.n), s.n + s.m, Report(Unsolved, None), fuel))
  }

  /** The outcome of the last run: its report, unless it ran out of passes. */
  function Conclude(pe: PhaseEnd): (o: Outcome)
    ensures o.Done? || o.OutOfPasses?
    ensures o.Done? ==> o.report == pe.report
  {
    if pe.exit.OutOfFuel? then OutOfPasses else Done(pe.report)
  }

  /** Phase 1 starts from an identity basis over a right-hand side that the
      column insertions leave in place. */
  lemma PhaseOneStart(t: Matrix, m: nat, n: nat, senses: seq<Relation>)
    requires Shaped(t, m, n + m) && UnitBlock(t, m, n) && |senses| == m
    requires forall j :: n <= j < n + m ==> t[0][j] == 0.0
    ensures var a := AddArtificials(t, m, n, senses);
      && Invariant(Run(a.tableau, m, a.n + m, a.basics, a.nonbasics, Identity(m), 0))
      && ColumnOf(a.tableau, a.n + m) == ColumnOf(t, n + m)
  {
    var a := AddArtificials(t, m, n, senses);
    PhaseOneBasisIsIdentity(t, m, n, senses);
    ArtificialsKeepRhs(t, m, n, senses);
  }

  function TwoPhase(s: Setup, fuel: nat): (o: Outcome)
    requires Shaped(s.tableau, s.m, s.n + s.m) && UnitBlock(s.tableau, s.m, s.n)
    requires forall j :: s.n <= j < s.n + s.m ==> s.tableau[0][j] == 0.0
    ensures o.Crashed? && o.crash == SenseBeyondRows <==> SensesFor(s.relations, s.m).None?
  {
    match SensesFor(s.relations, s.m)
    case None => Crashed(SenseBeyondRows)
    case Some(senses) =>
      var f := FirstPhase(s, senses, fuel);
      if f.end.exit.OutOfFuel? then OutOfPasses
      else SecondPhase(f.end, f.artificials, s.tableau[0], f.senseEquals, f.end.exit.run.width, fuel)
  }

  /** How phase 1 ends, with what `_add_artificials` recorded for phase 2. */
  datatype FirstEnd = FirstEnd(end: PhaseEnd, artificials: seq<nat>, senseEquals: nat)

  /** `_add_artificials` and the phase-1 run from the identity basis. */
  function FirstPhase(s: Setup, senses: seq<Relation>, fuel: nat): (f: FirstEnd)
    requires Shaped(s.tableau, s.m, s.n + s.m) && UnitBlock(s.tableau, s.m, s.n) && |senses| == s.m
    requires forall j :: s.n <= j < s.n + s.m ==> s.tableau[0][j] == 0.0
    ensures Invariant(f.end.exit.run) && f.end.exit.run.m == s.m
    ensures forall k :: 0 <= k < |f.artificials| ==> f.artificials[k] < f.end.exit.run.width
    ensures f.end.exit.run.width == s.n + s.m + Count(senses, Ge)
    ensures f.end.report.status != Infeasible
  {
    var a := AddArtificials(s.tableau, s.m, s.n, senses);
    var r1 := PhaseOneRun(s, senses);
    FirstEnd(RunPhase(r1, r1.width, Report(Unsolved, None), fuel), a.artificials, a.senseEquals)
  }

  /** As written, the one-phase run pivots at most once: the slack columns
      it starts from cost nothing in row 0, so pass 1 records `Z = 0`. */
  lemma SinglePhasePivotsOnceAsWritten(t: Matrix, m: nat, n: nat, fuel: nat)
    requires Shaped(t, m, n + m) && UnitBlock(t, m, n)
    requires forall j :: n <= j < n + m ==> t[0][j] == 0.0
    ensures SimplexAsWritten(StartRun(t, m, n), fuel).run.iteration <= 1
  {
    var r := StartRun(t, m, n);
    assert ZeroBasicCosts(r) by {
      forall k | 0 <= k < |r.basics| ensures r.tableau[0][r.basics[k]] == 0.0 {
        assert r.basics[k] == n + k;
      }
    }
    AtMostOnePivot(r, fuel);
  }

  /** The run phase 1 starts from: the identity basis inverse over the
      tableau `_add_artificials` builds, whose basic columns cost nothing in
      the auxiliary row. */
  function PhaseOneRun(s: Setup, senses: seq<Relation>): (r: Run)
    requires Shaped(s.tableau, s.m, s.n + s.m) && UnitBlock(s.tableau, s.m, s.n) && |senses| == s.m
    requires forall j :: s.n <= j < s.n + s.m ==> s.tableau[0][j] == 0.0
    ensures Invariant(r) && r.iteration == 0 && r.m == s.m && ZeroBasicCosts(r)
    ensures var a := AddArtificials(s.tableau, s.m, s.n, senses);
      && r.tableau == a.tableau && r.basics == a.basics && r.nonbasics == a.nonbasics
      && r.width == a.n + s.m && r.binv == Identity(s.m)
      && forall k :: 0 <= k < |a.artificials| ==> a.artificials[k] < r.width
  {
    var a := AddArtificials(s.tableau, s.m, s.n, senses);
    var r := Run(a.tableau, s.m, a.n + s.m, a.basics, a.nonbasics, Identity(s.m), 0);
    PhaseOneStart(s.tableau, s.m, s.n, senses);
    assert Invariant(r);
    PhaseOneRowReduced(s.tableau, s.m, s.n, senses);
    assert ZeroBasicCosts(r);
    r
  }

  /** As written, phase 1 pivots at most once, so when two rows or more are
      not `<=` an artificial column is still basic when it ends, and the
      hand-over to phase 2 fails (`remove_artificials` raises `IndexError`). */
  lemma FirstPhaseStillBasicAsWritten(s: Setup, senses: seq<Relation>, fuel: nat, q: nat, q': nat)
    requires Shaped(s.tableau, s.m, s.n + s.m) && UnitBlock(s.tableau, s.m, s.n) && |senses| == s.m
    requires forall j :: s.n <= j < s.n + s.m ==> s.tableau[0][j] == 0.0
    requires q < q' < s.m && senses[q] != Le && senses[q'] != Le
    ensures var a := AddArtificials(s.tableau, s.m, s.n, senses);
      var e := SimplexAsWritten(PhaseOneRun(s, senses), fuel).run;
      && e.iteration <= 1
      && PhaseTwoStart(e, a.artificials, s.tableau[0], a.senseEquals) == StillBasic
  {
    var a := AddArtificials(s.tableau, s.m, s.n, senses);
    var r := PhaseOneRun(s, senses);
    ArtificialsAreNonLeRows(s.tableau, s.m, s.n, senses);
    NonLeBasic(a.basics, a.artificials, senses, a.n, q);
    NonLeBasic(a.basics, a.artificials, senses, a.n, q');
    StillBasicAfterOnePivot(r, a.artificials, q, q', fuel);
    var e := SimplexAsWritten(r, fuel).run;
    StillBasicHandover(e, a.artificials, s.tableau[0], a.senseEquals);
  }

  lemma NonLeBasic(basics: seq<nat>, art: seq<nat>, rels: seq<Relation>, base: nat, q: nat)
    requires |basics| == |rels| && forall k :: 0 <= k < |basics| ==> basics[k] == base + k
    requires art == NonLeColumns(rels, base) && q < |rels| && rels[q] != Le
    ensures basics[q] in art
  {
  }

  lemma StillBasicHandover(e: Run, art: seq<nat>, obj: Vector, senseEquals: nat)
    requires WellFormed(e) && Partition(e.basics, e.nonbasics, e.width)
    requires forall k :: 0 <= k < |art| ==> art[k] < e.width
    requires exists k :: 0 <= k < |e.basics| && e.basics[k] in art
    ensures PhaseTwoStart(e, art, obj, senseEquals) == StillBasic
  {
  }

  /** From a basis of zero stored costs in which two rows hold columns of
      `art`, the run as written ends with one of them still basic. */
  lemma StillBasicAfterOnePivot(r: Run, art: seq<nat>, q: nat, q': nat, fuel: nat)
    requires Invariant(r) && r.iteration == 0 && ZeroBasicCosts(r)
    requires q < q' < |r.basics| && r.basics[q] in art && r.basics[q'] in art
    ensures var e := SimplexAsWritten(r, fuel).run;
      && e.iteration <= 1
      && exists k :: 0 <= k < |e.basics| && e.basics[k] in art
  {
    AtMostOnePivot(r, fuel);
    var e := SimplexAsWritten(r, fuel).run;
    if e.basics[q] == r.basics[q] {
      assert e.basics[q] in art;
    } else {
      assert e.basics[q'] in art;
    }
  }

  /** `remove_artificials`, `remove_inconsistency` and the phase-2 run. */
  function SecondPhase(pe1: PhaseEnd, art: seq<nat>, obj: Vector, senseEquals: nat, size: nat, fuel: nat): (o: Outcome)
    requires Invariant(pe1.exit.run) && forall k :: 0 <= k < |art| ==> art[k] < pe1.exit.run.width
    // 'infeasible' is only ever set here
    requires pe1.report.status != Infeasible
    ensures o.Crashed? ==> o.crash != SenseBeyondRows
    // `remove_inconsistency` returning False, and only that, reports 'infeasible'
    ensures PhaseTwoStart(pe1.exit.run, art, obj, senseEquals) == NoRepair(Inconsistent) <==>
      o == Done(pe1.report.(status := Infeasible))
    // phase 2 runs exactly when the hand-over succeeds
    ensures PhaseTwoStart(pe1.exit.run, art, obj, senseEquals).Start? <==>
      o.OutOfPasses? || (o.Done? && o.report.status != Infeasible)
  {
    match PhaseTwoStart(pe1.exit.run, art, obj, senseEquals)
    case StillBasic => Crashed(ArtificialStillBasic)
    case NoRepair(Inconsistent) => Done(pe1.report.(status := Infeasible))
    case NoRepair(Misshapen) => Crashed(ObjectiveMisshapen)
    case NoRepair(_) => Crashed(NonFiniteRatio)
    case Start(r2) =>
      Conclude(PhaseTwoRun(r2, size, pe1.report, fuel))
  }

  /** Phase 2 starts where phase 1 ended: the renumbered basis is a
      partition of the remaining columns, the carried basis inverse still
      inverts it, and the basic values, hence feasibility, are those phase 1
      ended with. */
  lemma PhaseTwoStartKeeps(e: Run, art: seq<nat>, obj: Vector, senseEquals: nat)
    requires Invariant(e) && forall k :: 0 <= k < |art| ==> art[k] < e.width
    ensures var h := PhaseTwoStart(e, art, obj, senseEquals);
      h.Start? ==>
        && Invariant(h.run)
        && BasicValues(h.run) == BasicValues(e)
        && (Feasible(e) ==> Feasible(h.run))
  {
    var h := PhaseTwoStart(e, art, obj, senseEquals);
    if h.Start? {
      var r := RemoveArtificials(e.tableau, e.m, e.width, e.basics, e.nonbasics, art);
      RemovalKeepsBasis(e.tableau, e.m, e.width, e.basics, e.nonbasics, art, e.binv);
      RowZeroOnly(r.tableau, e.m, r.width, h.run.tableau[0]);
      assert h.run.tableau == r.tableau[0 := h.run.tableau[0]];
      InverseKeepsColumns(e.binv, r.tableau, h.run.tableau, e.m, r.width, r.basics);
    }
  }

  /** On every point that satisfies the remaining constraint rows with
      equality, the repaired row 0 phase 2 maximises takes the value of the
      saved objective row. */
  lemma PhaseTwoObjective(e: Run, art: seq<nat>, obj: Vector, senseEquals: nat, x: Vector)
    requires WellFormed(e) && Partition(e.basics, e.nonbasics, e.width)
    requires forall k :: 0 <= k < |art| ==> art[k] < e.width
    ensures var h := PhaseTwoStart(e, art, obj, senseEquals);
      h.Start? && |x| == h.run.width && Solves(h.run.tableau, h.run.m, h.run.width, x) ==>
        && SavedRow(obj, senseEquals, h.run.width + 1).Some?
        && Value(h.run.tableau[0], x) == Value(SavedRow(obj, senseEquals, h.run.width + 1).value, x)
  {
    var h := PhaseTwoStart(e, art, obj, senseEquals);
    if h.Start? && |x| == h.run.width && Solves(h.run.tableau, h.run.m, h.run.width, x) {
      var r := RemoveArtificials(e.tableau, e.m, e.width, e.basics, e.nonbasics, art);
      RemovedShape(e, art);
      var row := SavedRow(obj, senseEquals, r.width + 1).value;
      var rep := Eliminate(row, r.tableau, e.m, r.width, r.basics, 0);
      assert h.run.tableau == r.tableau[0 := rep.row];
      SolvesAfterRowZero(r.tableau, rep.row, e.m, r.width, x);
      EliminateKeepsValue(row, r.tableau, e.m, r.width, r.basics, 0, x);
    }
  }

  /** With `Z` corrected, a phase 2 that reaches its read-back reports as
      `Z` the value of the saved objective row at the reported point,
      whenever that point satisfies the remaining constraint rows. */
  lemma PhaseTwoReportsObjective(e: Run, art: seq<nat>, obj: Vector, senseEquals: nat,
                                 size: nat, before: Report, fuel: nat)
    requires Invariant(e) && forall k :: 0 <= k < |art| ==> art[k] < e.width
    requires e.width <= size
    ensures var h := PhaseTwoStart(e, art, obj, senseEquals);
      h.Start? ==>
        var pe := PhaseTwoRun(h.run, size, before, fuel);
        var w := h.run.width;
        pe.exit.Finished? && Solves(h.run.tableau, h.run.m, w, pe.report.solution.value.values[..w]) ==>
          && SavedRow(obj, senseEquals, w + 1).Some?
          && pe.report.solution.value.z ==
             Value(SavedRow(obj, senseEquals, w + 1).value, pe.report.solution.value.values[..w])
  {
    var h := PhaseTwoStart(e, art, obj, senseEquals);
    if h.Start? {
      PhaseTwoStartKeeps(e, art, obj, senseEquals);
      var pe := PhaseTwoRun(h.run, size, before, fuel);
      if pe.exit.Finished? {
        PhaseTwoObjective(e, art, obj, senseEquals, pe.report.solution.value.values[..h.run.width]);
      }
    }
  }

  /** As written, the `Z` of a run's read-back is the value of its starting
      row 0 at the reported point plus that row's last entry. After
      `remove_inconsistency` the last entry is the constant the reduction
      left there, so phase 2 reports the objective value shifted by it. */
  lemma ReadBackZAsWritten(r: Run, size: nat, before: Report, fuel: nat)
    requires Invariant(r) && r.width <= size
    ensures var pe := RunPhase(r, size, before, fuel);
      pe.exit.Finished? ==>
        pe.report.solution.value.z ==
        Value(r.tableau[0], pe.report.solution.value.values[..r.width]) + r.tableau[0][r.width]
  {
    var pe := RunPhase(r, size, before, fuel);
    ReadBackShift(r, pe.exit.run, size);
  }

  /** Whether a point solves the constraint rows does not depend on row 0. */
  lemma SolvesAfterRowZero(t: Matrix, row: Vector, m: nat, w: nat, x: Vector)
    requires Shaped(t, m, w) && |row| == w + 1 && |x| == w
    ensures Shaped(t[0 := row], m, w)
    ensures Solves(t[0 := row], m, w, x) <==> Solves(t, m, w, x)
  {
    assert forall i :: 1 <= i <= m ==> t[0 := row][i] == t[i];
  }

  /** The tableau `remove_artificials` receives as the source is written:
      a phase 1 that reaches its read-back has overwritten the right-hand
      side with `x_b = B_inv · b`. */
  function HandedTableauAsWritten(x: Exit, size: nat): (t: Matrix)
    requires WellFormed(x.run)
    ensures Shaped(t, x.run.m, x.run.width)
    ensures x.Finished? ==> ColumnOf(t, x.run.width) == BasicValues(x.run)
    ensures !x.Finished? ==> t == x.run.tableau
  {
    if x.Finished? then ReadBack(x.run, size).tableau else x.run.tableau
  }

  /** As written, phase 2 multiplies the right-hand side by the basis
      inverse a second time: it starts from `B_inv · x_b` instead of `x_b`. */
  lemma RhsAppliedTwice(x: Exit, size: nat, art: seq<nat>, obj: Vector, senseEquals: nat)
    requires WellFormed(x.run) && Partition(x.run.basics, x.run.nonbasics, x.run.width) && x.Finished?
    requires forall k :: 0 <= k < |art| ==> art[k] < x.run.width
    ensures var h := PhaseTwoStart(x.run.(tableau := HandedTableauAsWritten(x, size)), art, obj, senseEquals);
      h.Start? ==> BasicValues(h.run) == MatVec(x.run.binv, BasicValues(x.run))
  {
  }

  /** The run phase 1 ends with on `maximise x subject to 2x == 4`: the
      artificial column 1 has left the basis for `x`, `B_inv = [[0.5]]`, and
      row 0 has no positive entry at a nonbasic column, so the loop is over. */
  function ExampleEnd(): Run {
    Run([[2.0, 0.0, 0.0], [2.0, 1.0, 4.0]], 1, 2, [0], [1], [[0.5]], 1)
  }

  lemma DotOne(a: real, b: real)
    ensures Dot([a], [b]) == a * b
  {
    assert [a][1..] == [] && [b][1..] == [];
    assert SumOfProducts([a][1..], [b][1..]) == 0.0;
  }

  lemma MatVecOne(a: real, v: real)
    ensures MatVec([[a]], [v]) == [a * v]
  {
    DotOne(a, v);
  }

  lemma ExampleColumns()
    ensures ColumnOf(ExampleEnd().tableau, 0) == [2.0]
    ensures ColumnOf(ExampleEnd().tableau, 2) == [4.0]
  {
  }

  /** In the example, phase 1 ends normally with the feasible `x = 2`, and
      the phase-2 run of the source starts from `x = 1`, which violates
      `2x == 4`. */
  lemma RhsTwiceExample()
    ensures var e := ExampleEnd();
      && Invariant(e)
      && Simplex(e, 1) == Finished(e)
      && BasicValues(e) == [2.0]
      && MatVec(e.binv, BasicValues(e)) == [1.0]
  {
    var e := ExampleEnd();
    ExampleColumns();
    MatVecOne(0.5, 2.0);
    MatVecOne(0.5, 4.0);
    assert Partition(e.basics, e.nonbasics, e.width);
    assert MatVec(e.binv, ColumnOf(e.tableau, 0)) == Unit(1, 0);
    assert !Improvable(e);
  }

  /** The run phase 2 starts from in the example: the artificial column is
      deleted, and the saved row `[1, 0]` reduced against the row `[2, 4]`
      leaves `[0, -2]` in row 0, which ends in the constant `-2`. */
  lemma ExampleHandover()
    ensures var h := PhaseTwoStart(ExampleEnd(), [1], [1.0, 0.0, 0.0], 1);
      h.Start? && h.run == Run([[0.0, -2.0], [2.0, 4.0]], 1, 1, [0], [], [[0.5]], 0)
  {
    ExampleRemoved();
    ExampleRepair();
  }

  /** Phase 2 of the example ends at once at `x = 2`, where the objective
      `x` and the saved row's value are 2. The read-back as written reports
      `Z = c_b · x_b = 0`: the cost of `x` in the repaired row 0 is 0, and the
      constant `-2` the reduction left in that row is lost. The corrected
      run reports 2. */
  lemma ExampleObjectiveDropped(before: Report, fuel: nat)
    ensures var h := PhaseTwoStart(ExampleEnd(), [1], [1.0, 0.0, 0.0], 1);
      && h.Start? && h.run.tableau[0] == [0.0, -2.0]
      && SavedRow([1.0, 0.0, 0.0], 1, 2) == Some([1.0, 0.0])
      && Value([1.0, 0.0], [2.0]) == 2.0
      && var written := RunPhase(h.run, 2, before, fuel).report;
      && written.status == Optimal && written.solution.Some?
      && written.solution.value.values == [2.0, 0.0]
      && written.solution.value.z == 0.0
      && PhaseTwoRun(h.run, 2, before, fuel).report.solution == Some(written.solution.value.(z := 2.0))
  {
    ExampleHandover();
    ExampleSavedRow();
    ExampleValue();
    ExampleDropped(PhaseTwoStart(ExampleEnd(), [1], [1.0, 0.0, 0.0], 1), before, fuel);
  }

  lemma ExampleValue()
    ensures Value([1.0, 0.0], [2.0]) == 2.0
  {
    DotOne(1.0, 2.0);
    assert [1.0, 0.0][..1] == [1.0];
  }

  lemma ExampleDropped(h: Handover, before: Report, fuel: nat)
    requires h.Start? && h.run == Run([[0.0, -2.0], [2.0, 4.0]], 1, 1, [0], [], [[0.5]], 0)
    ensures h.run.tableau[0] == [0.0, -2.0]
    ensures var written := RunPhase(h.run, 2, before, fuel).report;
      && written.status == Optimal && written.solution.Some?
      && written.solution.value.values == [2.0, 0.0]
      && written.solution.value.z == 0.0
      && PhaseTwoRun(h.run, 2, before, fuel).report.solution == Some(written.solution.value.(z := 2.0))
  {
    ExampleSecondRun(h.run, before, fuel);
  }

  lemma ExampleSavedRow()
    ensures SavedRow([1.0, 0.0, 0.0], 1, 2) == Some([1.0, 0.0])
  {
    assert [1.0, 0.0, 0.0][..2] == [1.0, 0.0];
  }

  lemma ExampleSecondRun(r: Run, before: Report, fuel: nat)
    requires r == Run([[0.0, -2.0], [2.0, 4.0]], 1, 1, [0], [], [[0.5]], 0)
    ensures var written := RunPhase(r, 2, before, fuel).report;
      && written.status == Optimal && written.solution.Some?
      && written.solution.value.values == [2.0, 0.0]
      && written.solution.value.z == 0.0
      && PhaseTwoRun(r, 2, before, fuel).report.solution == Some(written.solution.value.(z := 2.0))
  {
    ExampleSecondRead(r);
    FinishedAtOnce(r, fuel);
  }

  /** A run with no improvable column ends at once, before any pass. */
  lemma FinishedAtOnce(r: Run, fuel: nat)
    requires WellFormed(r) && !Improvable(r)
    ensures Simplex(r, fuel) == Finished(r)
  {
  }

  lemma ExampleSecondRead(r: Run)
    requires r == Run([[0.0, -2.0], [2.0, 4.0]], 1, 1, [0], [], [[0.5]], 0)
    ensures WellFormed(r) && !Improvable(r) && r.tableau[0][r.width] == -2.0
    ensures ReadBack(r, 2).z == 0.0 && ReadBack(r, 2).values == [2.0, 0.0]
  {
    assert WellFormed(r);
    assert ColumnOf(r.tableau, 1) == [4.0];
    MatVecOne(0.5, 4.0);
    assert BasicValues(r) == [2.0];
    assert Costs(r.tableau, r.basics) == [0.0];
    DotOne(0.0, 2.0);
    assert Scatter([0], [2.0], 2) == [2.0, 0.0];
  }

  lemma ExampleRemoved()
    ensures RemoveArtificials(ExampleEnd().tableau, 1, 2, [0], [1], [1]) ==
      Removed([[2.0, 0.0], [2.0, 4.0]], 1, [0], [])
  {
    ExampleRenumbered();
    ExampleDeleted(ExampleEnd().tableau);
  }

  lemma ExampleRenumbered()
    ensures Below([1], 2) == 1
    ensures RenumberBasis([0], [1], [1]) == Some(([0], []))
  {
    assert Below([1], 1) == 0;
    assert !exists k :: 0 <= k < 1 && [0][k] in [1];
    var kept := Without([1], [1]);
    assert kept == [];
    assert Shift([1], 0) == 0;
    var b := seq(1, k requires 0 <= k < 1 => Shift([1], [0][k]));
    var nb := seq(|kept|, k requires 0 <= k < |kept| => Shift([1], kept[k]));
    assert b == [0] && nb == [];
  }

  lemma ExampleDeleted(t: Matrix)
    requires t == [[2.0, 0.0, 0.0], [2.0, 1.0, 4.0]]
    ensures DeleteColumns(t, [1], 3) == [[2.0, 0.0], [2.0, 4.0]]
  {
    ExampleKept();
    DeletedEntries(t, [1], DeleteColumns(t, [1], 3));
  }

  lemma ExampleKept()
    ensures Below([1], 3) == 1 && Shift([1], 0) == 0 && Shift([1], 2) == 1
  {
    assert Below([1], 1) == 0;
  }

  lemma DeletedEntries(t: Matrix, art: seq<nat>, d: Matrix)
    requires t == [[2.0, 0.0, 0.0], [2.0, 1.0, 4.0]] && art == [1]
    requires Below(art, 3) == 1 && Shift(art, 0) == 0 && Shift(art, 2) == 1
    requires d == DeleteColumns(t, art, 3)
    ensures d == [[2.0, 0.0], [2.0, 4.0]]
  {
    assert 0 !in art && 2 !in art;
    assert d[0][Shift(art, 0)] == t[0][0] && d[0][Shift(art, 2)] == t[0][2];
    assert d[1][Shift(art, 0)] == t[1][0] && d[1][Shift(art, 2)] == t[1][2];
    assert d[0] == [2.0, 0.0];
    assert d[1] == [2.0, 4.0];
  }

  lemma ExampleRepair()
    ensures RemoveInconsistency([[2.0, 0.0], [2.0, 4.0]], 1, 1, [0], [1.0, 0.0, 0.0], 1) ==
      Repaired([0.0, -2.0])
  {
    var t := [[2.0, 0.0], [2.0, 4.0]];
    assert [1.0, 0.0, 0.0][..2] == [1.0, 0.0];
    assert SavedRow([1.0, 0.0, 0.0], 1, 2) == Some([1.0, 0.0]);
    assert IndexOf([0], 0) == 0;
    assert Pivot.Quotient(1.0, 2.0) == Pivot.Finite(0.5);
    assert Sub([1.0, 0.0], Scale(0.5, t[1])) == [0.0, -2.0];
    assert Eliminate([0.0, -2.0], t, 1, 1, [0], 1) == Repaired([0.0, -2.0]);
  }

  /** A report that carries a solution has the status 'Optimal' and gives a
      non-negative point over all `n + m` columns whose `Z` is the value of
      the objective `obj` at its first `n` entries. (That the point is an
      optimum of the problem is not part of this predicate.) */
  predicate ReadBackReport(rep: Report, obj: Vector, n: nat, m: nat)
    requires |obj| == n
  {
    rep.solution.Some? ==> rep.status == Optimal && ReportedPoint(rep.solution.value, obj, n, m)
  }

  /** A non-negative point over all `n + m` columns whose `Z` is the value
      of `obj` at its first `n` entries. */
  predicate ReportedPoint(sol: Solution, obj: Vector, n: nat, m: nat)
    requires |obj| == n
  {
    && |sol.values| == n + m
    && (forall i :: 0 <= i < |sol.values| ==> sol.values[i] >= 0.0)
    && sol.z == Dot(obj, sol.values[..n])
  }

  /** The outcome `solve` concludes with when every sense is `<=`: a
      maximisation whose right-hand side is non-negative and whose slack
      columns cost nothing ends, unless it runs out of passes, with a report
      whose solution, if any, carries the status 'Optimal', is non-negative
      and is valued at `Z`.
      The outcome is the body of `SinglePhase` for a set-up with that
      tableau. */
  lemma SlackStartOutcome(t: Matrix, obj: Vector, m: nat, n: nat, fuel: nat)
    requires Shaped(t, m, n + m) && UnitBlock(t, m, n) && |obj| == n
    requires forall j :: 0 <= j < n ==> t[0][j] == obj[j]
    requires forall j :: n <= j < n + m ==> t[0][j] == 0.0
    requires forall i :: 1 <= i <= m ==> t[i][n + m] >= 0.0
    ensures var o := Conclude(RunPhase(StartRun(t, m, n), n + m, Report(Unsolved, None), fuel));
      && (o.Done? || o.OutOfPasses?)
      && (o.Done? ==> ReadBackReport(o.report, obj, n, m))
  {
    var pe := RunPhase(StartRun(t, m, n), n + m, Report(Unsolved, None), fuel);
    StartReport(t, obj, m, n, fuel);
    ConcludeReport(pe, obj, n, m);
  }

  /** `Conclude` passes the last run's report on unchanged. */
  lemma ConcludeReport(pe: PhaseEnd, obj: Vector, n: nat, m: nat)
    requires |obj| == n && ReadBackReport(pe.report, obj, n, m)
    ensures Conclude(pe).Done? ==> ReadBackReport(Conclude(pe).report, obj, n, m)
  {
  }

  /** The report of the run from the slack basis of a tableau with a
      non-negative right-hand side and zero slack costs. */
  lemma StartReport(t: Matrix, obj: Vector, m: nat, n: nat, fuel: nat)
    requires Shaped(t, m, n + m) && UnitBlock(t, m, n) && |obj| == n
    requires forall j :: 0 <= j < n ==> t[0][j] == obj[j]
    requires forall j :: n <= j < n + m ==> t[0][j] == 0.0
    requires forall i :: 1 <= i <= m ==> t[i][n + m] >= 0.0
    ensures ReadBackReport(RunPhase(StartRun(t, m, n), n + m, Report(Unsolved, None), fuel).report, obj, n, m)
  {
    StartFeasible(t, m, n);
    RunReport(StartRun(t, m, n), t[0], obj, n, m, fuel);
  }

  /** The first basis is feasible when the right-hand side is non-negative. */
  lemma StartFeasible(t: Matrix, m: nat, n: nat)
    requires Shaped(t, m, n + m) && UnitBlock(t, m, n)
    requires forall i :: 1 <= i <= m ==> t[i][n + m] >= 0.0
    ensures Feasible(StartRun(t, m, n))
  {
    var r0 := StartRun(t, m, n);
    forall i | 0 <= i < m ensures BasicValues(r0)[i] >= 0.0 {
      assert BasicValues(r0)[i] == t[i + 1][n + m];
    }
  }

  /** What a run from a feasible basis on the columns of a maximisation
      reports: a non-negative point whose `Z` is the objective value. */
  lemma RunReport(r: Run, row0: Vector, obj: Vector, n: nat, m: nat, fuel: nat)
    requires Invariant(r) && Feasible(r) && r.width == n + m && |obj| == n
    requires |row0| == n + m + 1 && forall j :: 0 <= j < n + m ==> r.tableau[0][j] == row0[j]
    requires forall j :: 0 <= j < n ==> row0[j] == obj[j]
    requires forall j :: n <= j < n + m ==> row0[j] == 0.0
    ensures ReadBackReport(RunPhase(r, n + m, Report(Unsolved, None), fuel).report, obj, n, m)
  {
    var pe := RunPhase(r, n + m, Report(Unsolved, None), fuel);
    if pe.exit.Finished? {
      FinishedReport(pe.exit.run, row0, obj, n, m);
    }
  }

  /** The read-back of a feasible run that has reached its end. */
  lemma FinishedReport(e: Run, row0: Vector, obj: Vector, n: nat, m: nat)
    requires Invariant(e) && Feasible(e) && e.width == n + m && |obj| == n && |row0| == n + m + 1
    requires forall j :: 0 <= j < n + m ==> e.tableau[0][j] == row0[j]
    requires forall j :: 0 <= j < n ==> row0[j] == obj[j]
    requires forall j :: n <= j < n + m ==> row0[j] == 0.0
    ensures var sol := ReadBack(e, n + m);
      && |sol.values| == n + m
      && (forall i :: 0 <= i < |sol.values| ==> sol.values[i] >= 0.0)
      && sol.z == Dot(obj, sol.values[..n])
  {
    var sol := ReadBack(e, n + m);
    ReadBackValues(e, n + m);
    ReadBackObjective(e, n + m);
    assert sol.values[..n + m] == sol.values;
    StructuralObjective(row0, e.tableau[0], obj, sol.values, n, m);
  }

  /** The objective value over all columns is the objective over the
      structural ones, because row 0 has zero cost at every slack column. */
  lemma StructuralObjective(row0: Vector, row: Vector, obj: Vector, x: Vector, n: nat, m: nat)
    requires |row0| == |row| == n + m + 1 && |obj| == n && |x| == n + m
    requires forall j :: 0 <= j < n + m ==> row[j] == row0[j]
    requires forall j :: 0 <= j < n ==> row0[j] == obj[j]
    requires forall j :: n <= j < n + m ==> row0[j] == 0.0
    ensures Dot(row[..n + m], x) == Dot(obj, x[..n])
  {
    DotZeroTail(row[..n + m], x, n);
    assert row[..n + m][..n] == obj;
  }
}

=== FILE: tableau.dfy ===
/** The simplex tableau and its assembly (`LpProblem._tableau_format`).
    Row 0 holds the objective coefficients, rows 1..m the constraints; the
    variable columns come first and the last column is the right-hand side,
    with the objective value `Z` in row 0. */
module Tableau {
  import opened Matrices
  import opened Basis

  /** `m` constraint rows below the objective row, `width` variable columns,
      and the right-hand side in column `width`. */
  predicate Shaped(t: Matrix, m: nat, width: nat) {
    IsMatrix(t, m + 1, width + 1)
  }

  /** Column `j` restricted to the constraint rows (numpy's `t[1:, j]`). */
  function ColumnOf(t: Matrix, j: nat): Vector
    requires |t| > 0 && forall i :: 0 <= i < |t| ==> j < |t[i]|
  {
    seq(|t| - 1, i requires 0 <= i < |t| - 1 => t[i + 1][j])
  }

  /** `binv` inverts the basis matrix `t[1:, basics]`: it sends the column
      of the `k`-th basic variable to the `k`-th unit vector. */
  predicate IsBasisInverse(binv: Matrix, t: Matrix, m: nat, width: nat, basics: seq<nat>)
    requires Shaped(t, m, width)
  {
    && IsMatrix(binv, m, m)
    && |basics| == m
    && (forall k :: 0 <= k < m ==> basics[k] < width)
    && (forall k :: 0 <= k < m ==> MatVec(binv, ColumnOf(t, basics[k])) == Unit(m, k))
  }

  /** The columns `n .. n+m-1` of the constraint rows form an identity block. */
  predicate UnitBlock(t: Matrix, m: nat, n: nat)
    requires IsMatrix(t, m + 1, n + m + 1)
  {
    forall i, j :: 1 <= i <= m && n <= j < n + m ==> t[i][j] == if j == n + i - 1 then 1.0 else 0.0
  }

  /** When the slack block is an identity, the identity matrix is the basis
      inverse of the fresh basis `[n, n + m)`: this is what
      `np.linalg.inv(tableau[1:, basics])` yields at the start of a run. */
  lemma UnitBlockInverse(t: Matrix, m: nat, n: nat)
    requires IsMatrix(t, m + 1, n + m + 1) && UnitBlock(t, m, n)
    ensures IsBasisInverse(Identity(m), t, m, n + m, InitialBasis(n, m).0)
  {
    var b := InitialBasis(n, m).0;
    forall k | 0 <= k < m
      ensures MatVec(Identity(m), ColumnOf(t, b[k])) == Unit(m, k)
    {
      assert b[k] == n + k;
      assert ColumnOf(t, b[k]) == Unit(m, k);
      MatVecIdentity(Unit(m, k));
    }
  }

  /** `_tableau_format`: row 0 is the objective followed by `m` zero slack
      entries, row `i+1` is constraint `i` followed by the `i`-th slack unit
      column, and `rhs` (with `Z` in front) becomes the last column. */
  function TableauFormat(obj: Vector, cons: Matrix, rhs: Vector): (t: Matrix)
    requires |rhs| == |cons| + 1
    requires forall i :: 0 <= i < |cons| ==> |cons[i]| == |obj|
    ensures Shaped(t, |cons|, |obj| + |cons|)
    ensures forall j :: 0 <= j < |obj| ==> t[0][j] == obj[j]
    ensures forall j :: |obj| <= j < |obj| + |cons| ==> t[0][j] == 0.0
    ensures forall i, j :: 0 <= i < |cons| && 0 <= j < |obj| ==> t[i + 1][j] == cons[i][j]
    ensures UnitBlock(t, |cons|, |obj|)
    ensures forall i :: 0 <= i <= |cons| ==> t[i][|obj| + |cons|] == rhs[i]
  {
    var m := |cons|;
    seq(m + 1, i requires 0 <= i <= m =>
      (if i == 0 then obj + Zeros(m) else cons[i - 1] + Unit(m, i - 1)) + [rhs[i]])
  }

  /** Two tableaux with the same constraint rows, the second of which holds
      the right-hand side of a third, share that right-hand side. */
  lemma SameRhs(x: Matrix, y: Matrix, t: Matrix, m: nat, jx: nat, jt: nat)
    requires Shaped(x, m, jx) && Shaped(y, m, jx) && Shaped(t, m, jt) && x[1..] == y[1..]
    requires forall i :: 0 <= i <= m ==> y[i][jx] == t[i][jt]
    ensures ColumnOf(x, jx) == ColumnOf(t, jt)
  {
    forall i | 1 <= i <= m ensures x[i][jx] == t[i][jt] {
      assert x[i] == x[1..][i - 1];
    }
  }
}
